=== FILE: README.md ===
# Geophysical-index ingestion and signal metadata, in Dafny

This project models the record-handling core of the davitpy geophysical-index
ingestion code and the metadata handling of its `vtrad` signal objects, and proves
properties of the model.

- **`gmeData` records** (`GmeBase`). `toDbDict` projects a record's attributes onto a
  store document. `parseDb` assigns a document's fields back onto a record. On the
  way out, the Kp graded categories ("3-", "3", "3+") become the numbers 3.3, 3.5 and
  3.7. On the way in, the numbers become grades again and `_id` is dropped.
- **The Dst index** (`Dst`). This covers:
  - the `dstRec` record and its decoder for one IAGA2002 line, including the 99999
    sentinel;
  - the century/tens/ones split of a year and the fields of the data center's
    request form;
  - the header-skipping line loop of `readDstWeb`;
  - the read path `readDst`;
  - the yearly sync `mapDstMongo`.
- **Total electron content** (`Tec`). This covers:
  - the `tecRec` record and its decoder for one column line: day of year to
    calendar date, the column-number table, and fill values made only of dots and
    nines;
  - the read path `readTec` with its fallback to the Madrigal server;
  - the time-window checks of `readTecFtp`;
  - the yearly sync `mapTecMongo`.
- **The collection** (`Store`, `Query`, `Sync`).
  - `Store` is a map from document id to document, plus a counter for fresh ids. It
    holds the duplicate query on a natural key and the 0 / 1 / more-than-1
    insert-replace-skip rule shared by both sync functions.
  - `Query` holds the `$gte`/`$lte` conditions, the `[min, max]` normalisation of
    range arguments, and `find(...).sort('time')`. "Nothing found" answers `None`.
  - `Sync` holds the inclusive year loop in which the first exception ends the run.
- **`vtrad` signals** (`Vtrad`). This covers:
  - the module-wide metadata dictionary, with `add`, `del` and `clear`;
  - the defaults merge of a new `vtrad`;
  - the three-level `getAllMetaData`, where the signal beats its parent and the
    parent beats the global dictionary;
  - `setMetaData`;
  - the valid-time narrowing of `updateValidTimes`.

Support modules:

- `Results` has the `Option`/`Result` wrappers and the Python exception classes.
- `Values` has the attribute values: `None`, number, string, datetime, object id and
  list.
- `Text` has `str.split()`, clamped slicing, `int()`, `str()`, zero padding,
  `str.strip()` and `str.replace(c, '')`.
- `Times` covers the part of `datetime` the code uses:
  - an instant is a count of microseconds since 0001-01-01;
  - converting between calendar fields and instants, both ways;
  - `timedelta(days=k)`;
  - the ValueError and OverflowError limits of years 1..9999;
  - the OverflowError of a `datetime` field beyond a C `int`.

Exceptions are modelled as values. A function that can raise returns `Result`, and
`Err` names the exception class. In `updateValidTimes` and in the sync loop, changes
made before the exception are kept, as the source keeps them.

Outside code is passed in as a parameter:

- the data center's answer to a form, as a function from form to lines;
- the Madrigal server's answer for a time interval;
- `float()` of a field, as a function from string to optional real.

The Kp numbers are Dafny `real`s. These are exact rationals, so 3 + 3/10 is exactly
the 3.3 the decoder compares with. The round trip is proved on this exact
arithmetic, which is equivalent to counting in integer tenths (`KpGridRoundTrip`
takes the tenths as an integer).

Behaviour of the code worth noting:

- A failed fetch, a fetch that answers `None`, or a record that does not project
  ends the whole sync with that exception. It does not skip the year. Documents
  written earlier in the run stay written.
- A key matched by more than one document is printed and skipped. The model records
  it as a `Skipped` outcome carrying the match count. Nothing else is reported.
- `readTec` validates every range argument before anything else. Indexing a range
  list that is too short raises IndexError rather than an assertion error.
- The TEC duplicate query reads `rec.res`, which no `tecRec` ever has. The model
  takes the Madrigal answer to be the `tecRec` records that `readTecFtp` documents
  (see `Tec.ReadTecFtp` under "Left out"). Given such records, `mapTecMongo` raises
  AttributeError at the first record (`Tec.MapTecMongoNeedsRes`). `Sync` is written
  for any list of key fields, and its idempotence holds for every key list
  (`Tec.MapTecMongoIdempotent` states it for records that do carry `res`).

## Model

| member | source | states |
|---|---|---|
| GmeBase.Trunc | gme/base/gmeBase.py:39-40 | `int()` of a float truncates toward zero: the result is within one of the value, below it for positive values and above it for negative ones |
| GmeBase.EncodeKp | gme/base/gmeBase.py:78-82 | a grade encodes exactly when its first character is a digit; the number is that digit plus .7 for a '+' second character, .3 for '-', and .5 otherwise; a string that does not start with a digit raises ValueError and any other value TypeError |
| GmeBase.DecodeKp | gme/base/gmeBase.py:39-43 | a stored Kp entry decodes exactly when it is a number; the grade is `str(int(x))` followed by '-' for fraction .3, '+' for .7, nothing otherwise; a string raises TypeError when Python 2's `int()` accepts it (the subtraction fails) and ValueError when it does not; any other value raises TypeError |
| GmeBase.KpEntries | gme/base/gmeBase.py:38 | `range(len(kp))` walks a list's items, or a string's characters each as a one-character string; anything else raises TypeError |
| GmeBase.EncodeAll | gme/base/gmeBase.py:76-83 | the encoded list has the same length and order as the grades, and it fails exactly when some grade does not encode |
| GmeBase.DecodeAll | gme/base/gmeBase.py:38-44 | the decoded list has the same length and order, and it fails exactly when some entry is not a number |
| GmeBase.ToDbDict | gme/base/gmeBase.py:72-85 | the document has exactly the record's keys; every non-`kp` value is copied unchanged; `kp` becomes the list of encoded numbers; it fails exactly when a grade does not encode |
| GmeBase.CopiedFields | gme/base/gmeBase.py:34-47 | the fields `parseDb` assigns are every document key except `_id` and `kp` |
| GmeBase.ParseDb | gme/base/gmeBase.py:34-47 | `_id` is never copied; every other non-`kp` field overwrites the attribute; untouched attributes keep their values; decoded grades are appended after the existing `kp` list; and it raises exactly when `kp` is malformed or there is no list to append to; errors come in loop order: a `kp` without a length raises TypeError, the first entry's decoding error comes before the AttributeError of a missing list, and any other error is some entry's decoding error |
| GmeBase.TruncOfGrade | gme/base/gmeBase.py:39-40 | for a digit plus a fraction in [0, 1), `int()` gives the digit and the remainder is the fraction |
| GmeBase.KpRoundTrip | gme/base/gmeBase.py:37-44 | decoding the number of a canonical grade (a digit, then '+', '-' or nothing) gives the grade back |
| GmeBase.KpGridRoundTrip | gme/base/gmeBase.py:39-43 | every number d + 0.3, d + 0.5 or d + 0.7 decodes to a canonical grade whose encoding is that number again |
| GmeBase.KpListRoundTrip | gme/base/gmeBase.py:38-44 | a list of canonical grades encodes, and its numbers decode to the same list in the same order |
| GmeBase.ParseDbOntoEmptyKp | gme/base/gmeBase.py:37-44 | parsing onto a record whose `kp` is empty leaves exactly the decoded grades in `kp`, and the copied fields elsewhere |
| GmeBase.ToDbDictOfCanonical | gme/base/gmeBase.py:75-83 | the projection of a record with canonical grades differs from it only in `kp`, whose numbers decode to the record's grades |
| GmeBase.RecordRoundTrip | gme/base/gmeBase.py:34-85 | projecting a record without `_id` and parsing the document onto a blank record with an empty `kp` gives the blank record overridden by the original |
| Dst.ParseWeb | gme/ind/dst.py:6-11 | a decoded line has four columns and a parsable value; `time` is a datetime; the sentinel leaves `dst` as it was, and any other value is stored; no attribute other than `time` and `dst` changes |
| Dst.DstRec | gme/ind/dst.py:13-22 | a new record is the fresh Dst record, decoded from a web line or parsed from a document when one is given |
| Dst.SentinelMeansAbsent | gme/ind/dst.py:11-18 | a line reporting 99999 gives a record whose `dst` is `None`, never zero |
| Dst.ParseWebOfFields | gme/ind/dst.py:8-18 | a line whose date and time slices read as calendar fields decodes to that instant, and to its value unless it is the sentinel |
| Dst.ParseWebOfIagaLine | gme/ind/dst.py:8-11 | decoding a data line written from calendar fields and a value gives back exactly that instant, and the value unless it is the sentinel; an unparsable value raises ValueError |
| Dst.DateFieldSlices | gme/ind/dst.py:9 | characters 0:4, 5:7 and 8:10 of a `YYYY-MM-DD` field are the year, month and day |
| Dst.TimeFieldSlices | gme/ind/dst.py:9-10 | characters 0:2, 3:5 and 6:8 of an `hh:mm:ss.fff` field are the hour, minute and second |
| Dst.DstConds | gme/ind/dst.py:41-47 | the start, end and value-range conditions, each only when given (`Dst.DstCondsMeaning` states what they select) |
| Dst.DstCondsMeaning | gme/ind/dst.py:41-47 | a document meets the query conditions exactly when its time is within the given bounds and its value within the given range |
| Dst.DstEnd | gme/ind/dst.py:40 | the end is the given end; without one, it is one day after the start when a start is given, and absent otherwise |
| Dst.ReadDst | gme/ind/dst.py:24-66 | a bad range argument raises; otherwise the answer is `None` when no document is in the window, else the parsed records of the documents in the window, each document's record exactly once and no other, sorted by time |
| Dst.ReadDstDefaultEnd | gme/ind/dst.py:40-44 | omitting the end is the same as passing start plus one day |
| Dst.ReadDstBoundOrder | gme/ind/dst.py:45-47 | the two bounds of the `dst` range may be given in either order |
| Dst.SplitYear | gme/ind/dst.py:77-83 | century*100 + tens*10 + ones is the year, with tens and ones in 0..9 |
| Dst.SplitYearUnique | gme/ind/dst.py:77-83 | that decomposition is the only one with digits in 0..9 |
| Dst.FormNamesMonths | gme/ind/dst.py:77-101 | the request form names exactly the start and end year and month |
| Dst.DecodeLine | gme/ind/dst.py:114-119 | a header line (leading space or `DATE`) gives no record; any other line gives a record exactly when `dstRec(webLine=l)` succeeds, and then that record |
| Dst.DecodeLines | gme/ind/dst.py:111-119 | the loop raises IndexError exactly when some line is empty, and otherwise keeps at most one record per line |
| Dst.DecodeLinesCons | gme/ind/dst.py:112-119 | the records of a block are the first line's record, if any, followed by the records of the rest |
| Dst.DecodeLinesAppend | gme/ind/dst.py:112-119 | the records of two blocks of lines are the first block's records followed by the second's |
| Dst.SkippedLine | gme/ind/dst.py:116-119 | a line that gives no record can be removed without changing the records of the lines around it |
| Dst.HeaderSkipped | gme/ind/dst.py:114 | a header line is skipped without affecting the lines around it |
| Dst.FormFor | gme/ind/dst.py:77-84 | the request form holds the start and end year split into century, tens and ones, and each month in two digits (`Dst.FormNamesMonths` states what they read back as) |
| Dst.IsHeader | gme/ind/dst.py:114 | a line starting with a space or with `DATE` is a header |
| Dst.ReadDstWeb | gme/ind/dst.py:68-122 | an end before the start raises AssertionError; otherwise a start or end before 1900 raises ValueError (`strftime`), and with both from 1900 on the answer is the records of the server's lines, or `None` when there are none |
| Dst.DstYear | gme/ind/dst.py:144 | one year's fetch asks for January 1st through December 31st of that year; a year beyond a C `int` raises OverflowError in `datetime()`, other years outside 1..9999 raise ValueError, and so do years before 1900, whose months `strftime` refuses |
| Dst.MapDstMongo | gme/ind/dst.py:124-163 | the end year defaults to the start year; an end before the start raises AssertionError with nothing written; otherwise it is the year loop keyed on `time` |
| Dst.MapDstMongoBefore1900 | gme/ind/dst.py:142-144 | a sync that starts before 1900 raises at its first year, having written nothing: ValueError, or OverflowError for a year beyond a C `int` |
| Dst.DecodedRecordWrites | gme/ind/dst.py:147-149 | a record decoded from a line has a `time` and projects to itself |
| Dst.DecodedLinesWrite | gme/ind/dst.py:144-149 | every record of the line loop passes the write loop's key read and projection |
| Dst.ReadDstWebWrites | gme/ind/dst.py:144-149 | every record `readDstWeb` returns is accepted by the write loop |
| Dst.DstYearWrites | gme/ind/dst.py:142-149 | a year whose fetch answers a list delivers records that all write |
| Dst.MapDstMongoIdempotent | gme/ind/dst.py:142-162 | when every year answers a list (so every year is 1900 or later), the sync raises nothing, and running it again on the collection it produced leaves that collection unchanged |
| Tec.ColumnName | gme/tec/tec.py:66-69 | only columns 9..43 are named in the table |
| Tec.ColumnTableBijective | gme/tec/tec.py:66-69 | column i is stored under a name exactly when that name is read from column i |
| Tec.ColumnNamesDistinct | gme/tec/tec.py:66-69 | different columns are stored under different names |
| Tec.NotColumns | gme/tec/tec.py:66-69 | `time` and `res` are not fed by any column |
| Tec.IsFill | gme/tec/tec.py:79-81 | a column is a fill value when removing its '.' and '9' characters leaves nothing (`Tec.FillMeansDotsAndNines` states it character by character) |
| Tec.AssignColumn | gme/tec/tec.py:77-84 | one column is stored under its table name when the table names it, it is not a fill value and its float parses; otherwise the record is unchanged |
| Tec.FillMeansDotsAndNines | gme/tec/tec.py:79-82 | a column is a fill value exactly when it consists only of '.' and '9' characters |
| Tec.AssignFrom | gme/tec/tec.py:77-86 | from column i on, every usable named column is stored under its name; every other named attribute and every attribute outside the table keeps its value; nothing outside the table is added |
| Tec.FtpTime | gme/tec/tec.py:73-74 | the time exists only when the first four columns parse as integers, and it is then a valid datetime; IndexError exactly when a column is missing before any parse fails; ValueError for a non-integer column or a year, hour or minute outside the calendar; OverflowError for a year, hour or minute beyond a C `int` |
| Tec.FtpTimeDecodes | gme/tec/tec.py:73-74 | columns reading as a year in 1..9999, a day of that year, an hour and a minute always decode, to exactly that day and time |
| Tec.FtpTimeOfFields | gme/tec/tec.py:73-74 | a line whose time columns are `str()` of such fields decodes back to them, whatever columns follow |
| Tec.FtpTimeFields | gme/tec/tec.py:73-74 | for a day inside its year, the time is that year, day of year, hour and minute, with zero seconds |
| Tec.ParseFtp | gme/tec/tec.py:44-86 | the line decodes exactly when its time does; `time` is set to it; the table columns are stored as described for `AssignFrom` |
| Tec.AssignFromStores | gme/tec/tec.py:77-86 | the column loop from column 9 stores every usable table column and keeps everything else |
| Tec.TecRec | gme/tec/tec.py:88-118 | a new record is the fresh TEC record, decoded from a line or parsed from a document when one is given |
| Tec.TecRecHasNoRes | gme/tec/tec.py:108-118 | a record decoded from a line has no `res` attribute |
| Tec.ParseFtpAddsNoRes | gme/tec/tec.py:66-86 | decoding a line never adds `res` |
| Tec.ReadTecFtp | gme/tec/tec.py:219-222 | the end defaults to the start; an end before the start raises AssertionError; otherwise the server's answer for the interval is returned |
| Tec.TecRangesOf | gme/tec/tec.py:149-153 | the four range arguments are checked in order: the first bad one raises, and otherwise each becomes its `[min, max]` |
| Tec.TecConds | gme/tec/tec.py:156-164 | the start and end conditions, then the conditions of each given range (`Tec.TecCondsMeaning` states what they select) |
| Tec.TecCondsMeaning | gme/tec/tec.py:156-164 | a document meets the query conditions exactly when its time is in the window and each given range holds |
| Tec.TecEnd | gme/tec/tec.py:155 | the end is the given end, or else one day after the start |
| Tec.ReadTecWindow | gme/tec/tec.py:171-193 | with no document in the window the answer is the server's; otherwise it raises exactly when a document in it does not parse, and else it answers the records of the window, each document's exactly once, sorted by time |
| Tec.ReadTec | gme/tec/tec.py:120-193 | a bad range argument raises; an end past year 9999 raises OverflowError; otherwise the validated window is read |
| Tec.ReadTecBoundOrder | gme/tec/tec.py:160-164 | the bounds of the `glat` and `glon` ranges may be given in either order |
| Tec.TecYear | gme/tec/tec.py:332 | one year's fetch is the server's answer from January 1st to December 31st 23:59:59.099999, a year beyond a C `int` raises OverflowError, and other years outside 1..9999 raise ValueError |
| Tec.MapTecMongo | gme/tec/tec.py:313-350 | the end year defaults to the start year; an end before the start raises AssertionError; otherwise it is the year loop keyed on `time` and `res` |
| Tec.MapTecMongoNeedsRes | gme/tec/tec.py:333-335 | when the first record of the first year has no `res`, the run raises AttributeError with nothing written |
| Tec.MapTecMongoIdempotent | gme/tec/tec.py:331-350 | when every year delivers records with `time` and `res`, running the sync again on its own result changes nothing |
| Store.KeyOf | gme/ind/dst.py:147 | the duplicate query compares every key field, and a missing field reads as null |
| Store.Find | gme/ind/dst.py:147-150 | the duplicate query yields exactly the matching documents, in ascending id order |
| Store.FindBelow | gme/ind/dst.py:147-150 | the cursor yields exactly the matching documents, each once, in insertion order |
| Store.FindIsMatching | gme/ind/dst.py:147-150 | `count()` is the number of documents whose key equals the record's |
| Store.Upsert | gme/ind/dst.py:145-162 | no match inserts under a fresh id; one match replaces that document's content and keeps its id; more than one match writes nothing |
| Store.UpsertStores | gme/ind/dst.py:150-160 | after the step the record's key names some document, and with one or no earlier match it names that record's content |
| Store.UpsertKeepsOtherKeys | gme/ind/dst.py:150-160 | for any other key, the same documents match it afterwards, with the same contents |
| Store.UpsertIdempotent | gme/ind/dst.py:145-162 | writing the same record twice has the effect of writing it once |
| Store.UpsertKeepsUnique | gme/ind/dst.py:150-160 | a collection without duplicate keys keeps none, and the record's key then names exactly one document |
| Store.UpsertAll | gme/ind/dst.py:145-162 | one outcome per record; ids never disappear and the id counter never goes back |
| Store.UpsertAllEvolves | gme/ind/dst.py:145-162 | with unique keys, a batch leaves keys unique, each key of the batch names the last record with that key, old documents under other keys are untouched, and new ids are fresh |
| Store.SecondRunInsertsNothing | gme/ind/dst.py:150-152 | when every key of the batch is already stored, the batch inserts nothing |
| Store.SecondRunRewritesNothing | gme/ind/dst.py:154-160 | when each key already holds its last record, the batch changes no document |
| Store.UpsertAllIdempotent | gme/ind/dst.py:145-162 | re-running a batch on the collection it produced leaves it unchanged |
| Sync.Prepared | gme/tec/tec.py:335-337 | reading a missing key attribute raises AttributeError; otherwise the record is projected by `toDbDict` |
| Sync.Projections | gme/ind/dst.py:149 | the documents of a batch are the `toDbDict` projections of its records, in order |
| Sync.WriteRecords | gme/ind/dst.py:145-162 | the loop over one year's records ends without an exception exactly when every record projects |
| Sync.WriteRecordsIsBatch | gme/ind/dst.py:145-162 | the loop writes exactly the batch of records before the first that does not project, and that record's exception is the loop's |
| Sync.SyncYears | gme/ind/dst.py:142-163 | the year loop ends without an exception exactly when every year delivers a list of records that all project |
| Sync.SyncYearsIsBatch | gme/ind/dst.py:142-163 | a run in which every year delivers writes the batch of all the years' documents, in year order |
| Sync.SyncYearsIdempotent | gme/ind/dst.py:142-163 | running the same successful sync twice leaves the collection as the first run left it |
| Query.Between | gme/ind/dst.py:46-47 | the `$gte`/`$lte` pair holds exactly when the field is a number within the bounds |
| Query.MinOf | gme/ind/dst.py:46 | `min` returns an element no greater than any other |
| Query.MaxOf | gme/ind/dst.py:47 | `max` returns an element no smaller than any other |
| Query.RangeOf | gme/tec/tec.py:150-153 | a range argument is accepted exactly when it has two or more numbers; a short list raises IndexError, a non-number at index 0 or 1 raises AssertionError; the range runs from the minimum to the maximum |
| Query.RangeOrderIrrelevant | gme/ind/dst.py:45-47 | `[a, b]` and `[b, a]` give the same range |
| Query.OptionalRange | gme/tec/tec.py:161-164 | `None` adds no range; a given one is checked |
| Query.RangeConds | gme/tec/tec.py:161-164 | a document meets a range's conditions exactly when no range is given or its field is a number within it |
| Query.TimeKey | gme/ind/dst.py:59 | `sort('time')` orders by the datetime, and documents without one come first |
| Query.SelectBelow | gme/ind/dst.py:55-59 | the query yields exactly the matching documents, in time order |
| Query.InsertInOrder | gme/ind/dst.py:59 | inserting a document id into a cursor-ordered list keeps it in time order (ties by id) and adds exactly that id |
| Query.Select | gme/ind/dst.py:55-59 | each matching document is yielded once, in time order with ties in insertion order |
| Query.SelectEmpty | gme/ind/dst.py:57-66 | the cursor is empty exactly when no document matches |
| Query.Records | gme/ind/dst.py:59-60 | parsing each yielded document onto a fresh record fails exactly when one fails, and otherwise gives one record per document, in order |
| Query.ParseAll | gme/ind/dst.py:59-60 | the loop over a cursor fails exactly when one document fails to parse, and otherwise keeps order and length |
| Query.RecordTimeKey | gme/ind/dst.py:59-60 | a record parsed from a document sorts where the document did |
| Query.Fetch | gme/ind/dst.py:55-66 | the answer is `None` exactly when nothing matches; otherwise it lists the record of every matching document exactly once, and nothing else, sorted by time |
| Query.RecordsSorted | gme/ind/dst.py:59-62 | the parsed records keep the cursor's time order |
| Query.RecordsAnswer | gme/ind/dst.py:57-62 | the records of the selected documents, in cursor order, answer for exactly the selection: the cursor's ids are a duplicate-free listing of it |
| Query.AnswersComplete | gme/ind/dst.py:57-62 | every selected document's record occurs in an answer |
| Query.FetchFails | gme/ind/dst.py:59-60 | the query raises exactly when some matching document does not parse |
| Query.SelectedCount | gme/ind/dst.py:57-62 | `count()` equals the number of documents the cursor yields |
| Times.MakeTime | gme/ind/dst.py:9-10 | `datetime(...)` succeeds exactly for fields inside the calendar; a field beyond a C `int` raises OverflowError, and any other failure is ValueError |
| Times.AddDays | gme/ind/dst.py:40 | adding days moves the instant by whole days, or raises OverflowError outside years 1..9999 |
| Times.ToCivil | gme/ind/dst.py:77-84 | the calendar fields of an instant are valid calendar fields |
| Times.CivilRoundTrip | gme/ind/dst.py:9-10 | reading the fields back from a constructed datetime gives the fields it was built from |
| Times.InstantRoundTrip | gme/ind/dst.py:77-84 | every representable instant is the datetime of its own fields |
| Times.MakeTimeMonotone | gme/tec/tec.py:332 | a later year, or a later month of the same year, gives a later instant |
| Times.DayOfYearConversion | gme/tec/tec.py:73-74 | January 1st plus (doy - 1) days is day doy of that year, at the same hour and minute |
| Text.Split | gme/ind/dst.py:8 | `split()` gives whitespace-free, non-empty fields |
| Text.SplitJoin | gme/tec/tec.py:72 | splitting space-joined fields gives the fields back |
| Text.Slice | gme/ind/dst.py:9-10 | a slice is clamped to the string and holds its characters from the start index |
| Text.ParseInt | gme/tec/tec.py:73 | on a whitespace-free field, `int()` accepts exactly an optional sign followed by digits, and otherwise raises ValueError |
| Text.Strip | gme/base/gmeBase.py:39 | the whitespace around a literal, which `int()` ignores, is removed from both ends, nothing else is, and an all-whitespace string becomes empty |
| Text.PyInt | gme/base/gmeBase.py:39 | Python 2's `int()` of a string: on whitespace-free text it is exactly `Text.ParseInt`, and it raises only ValueError |
| Text.PyIntPadded | gme/base/gmeBase.py:39 | whitespace around a signed literal and between its sign and digits is skipped: the padded text reads as the plain signed literal |
| Text.PyIntPaddedUnsigned | gme/base/gmeBase.py:39 | whitespace around an unsigned literal is skipped |
| GmeBase.DecodeKpSpacedSign | gme/base/gmeBase.py:39-40 | a stored string "- 3" passes `int()` and raises TypeError at the subtraction |
| Text.ParseIntToString | gme/base/gmeBase.py:39 | `int(str(n))` is `n` |
| Text.ParseIntZeroPad | gme/ind/dst.py:9-10 | `int()` reads a zero-padded number back |
| Text.RemoveChar | gme/tec/tec.py:80-81 | `replace(c, '')` leaves no `c` and keeps every other character |
| Vtrad.GlobalAdd | pydarn/vtrad/vtrad.py:17-22 | the keys are the union; the new entries win; other entries are unchanged |
| Vtrad.GlobalDel | pydarn/vtrad/vtrad.py:24-30 | each listed key is removed if present, one after the other (`Vtrad.GlobalDelRemoves` states the result) |
| Vtrad.GlobalDelRemoves | pydarn/vtrad/vtrad.py:24-30 | deleting removes exactly the listed keys that are present, and every other entry is unchanged |
| Vtrad.GlobalClear | pydarn/vtrad/vtrad.py:32-36 | the dictionary is left empty |
| Vtrad.DelUndoesAdd | pydarn/vtrad/vtrad.py:17-30 | deleting the keys just added gives the same dictionary as deleting them from the original |
| Vtrad.DelAllIsClear | pydarn/vtrad/vtrad.py:24-36 | deleting every present key is clearing |
| Vtrad.NewVtrad | pydarn/vtrad/vtrad.py:40-57 | the metadata is the five defaults overridden by the given keywords; the raw signal starts with empty metadata and the given comment |
| Vtrad.NewVtradHasLabels | pydarn/vtrad/vtrad.py:48-55 | every default label has a value, and an untitled signal is titled 'Untitled Plot' |
| Vtrad.GetAllMetaData | pydarn/vtrad/vtrad.py:132-133 | the merged keys are the union of the three levels |
| Vtrad.MetaDataPrecedence | pydarn/vtrad/vtrad.py:132-133 | the signal's own value wins, then the parent's, then the global one |
| Vtrad.SetMetaData | pydarn/vtrad/vtrad.py:135-136 | the new entries win, the others are kept, and the keys are the union |
| Vtrad.SetThenGet | pydarn/vtrad/vtrad.py:132-136 | what was set is what the merged view shows, and other merged values are unchanged |
| Vtrad.Less | pydarn/vtrad/vtrad.py:127-128 | Python 2's `<`: a datetime against a number, either way round, raises TypeError |
| Vtrad.LowerEnd | pydarn/vtrad/vtrad.py:127-128 | the end is lowered to `times[1]` when that is earlier; a missing end or `times[1]` raises IndexError |
| Vtrad.UpdateValidTimes | pydarn/vtrad/vtrad.py:122-130 | without a stored interval the given times are stored; no other key changes |
| Vtrad.ValidTimesIntersect | pydarn/vtrad/vtrad.py:126-128 | with datetimes on both sides the interval becomes [later start, earlier end], and further stored entries are kept |
| Vtrad.ValidTimesIdempotent | pydarn/vtrad/vtrad.py:122-130 | narrowing again to the same times changes nothing |
| Vtrad.ValidTimesNarrow | pydarn/vtrad/vtrad.py:126-128 | the interval never widens past either the stored or the given one |
| Vtrad.ShortIntervalRaises | pydarn/vtrad/vtrad.py:127-128 | with a one-entry stored list the start is raised before the end lookup raises IndexError, and the raised start stays |

## Left out

- Network and remote clients are parameters of the model: the mechanize form session (gme/ind/dst.py:86-109), FTP, and the Madrigal API calls of `readTecFtp` (gme/tec/tec.py:224-262). The server answers are abstracted, including the undefined names the Madrigal code would reach on error.
- The MongoDB connection, credentials from the environment, and `ensure_index` are left out. They change no document.
- The cursor API is modelled by what it yields (`find`, `count`, `sort`, `next`), not as objects. The model compares only numbers with numbers and datetimes with datetimes, not BSON's order across types.
- `float()` of a field is a parameter: floating point parsing and IEEE rounding are not modelled.
- GmeBase.DecodeKp: compares the exact fraction with .3 and .7. IEEE doubles would give, for example, 3.3 - 3 != .3, and that rounding is not modelled.
- Query.RangeOf: a non-number after index 1 raises TypeError in the model. Python 2's `min` and `max` would order it against the numbers by type and could put `None` or a string into the query, with only a datetime raising TypeError. Cross-type ordering is not modelled.
- Dst.ReadDst: inherits the TypeError for a non-number after index 1 of the range argument, described under Query.RangeOf.
- Tec.ReadTec: inherits the TypeError for a non-number after index 1 of a range argument, described under Query.RangeOf. Tec.TecRangesOf does the same.
- The `isinstance` checks on argument types (gme/ind/dst.py:33-38, 72-75, 129-132; gme/tec/tec.py:145-153, 219-222) are replaced by Dafny's types: a start time is a `Time`, a year an `int`, and so on. Only the range checks, whose failures depend on the list's contents, are modelled as AssertionError.
- Tec.ReadTecFtp: the Madrigal answer is modelled as the list of `tecRec` records (or `None`) that the function's documentation promises. The code returns the text of `isprint` unconverted (gme/tec/tec.py:256-262), and raises NameError when no experiment is found. Tec.ReadTec and Tec.MapTecMongo inherit this: on the code as written, `mapTecMongo` would iterate that text and fail at `rec.time` before `rec.res` is read.
- Console output (`print`, `__repr__`) is left out; it does not affect results.
- The `gmeData.__init__` of gme/base/gmeBase.py:93-96 takes no `self` and can never be called; records start from the `dstRec`/`tecRec` initial values instead.
- gme/base/fillGmedb.py is left out. It is process orchestration, and it has a syntax error on its first line and uses an undefined `db`. Its year window is the previous year for 'recent' and 1980 otherwise.
- The `Email` field of the Dst request form, and its fixed output kind and format, are constants of the form and are not modelled.
- `radDataRead`, `samplePeriod`, `nyquistFrequency`, `setActive` and `plotFan` of pydarn/vtrad/vtrad.py are left out. They need numpy, plotting and file reading.
- The `history` entry of a new `vtradStruct` (pydarn/vtrad/vtrad.py:77) is keyed by the wall clock. Only its comment is modelled.
- Vtrad.UpdateValidTimes: the list stored by the no-interval branch is the caller's own list object in Python, so a later narrowing also changes the caller's list. Values are immutable here, so that aliasing is not modelled.
- Vtrad.Less: covers Python 2's `<` between numbers, between datetimes, and between `None` and a number. Any other pair of values, including two strings or two lists, is modelled as TypeError, although Python 2 orders two strings or two lists lexicographically and orders most mixed pairs, such as strings against numbers, by type name.
- Vtrad.Index: a stored value other than a list is treated as not subscriptable, although Python would also index a tuple or a string.
- The imports of pydarn/__init__.py are left out; they carry no behaviour.

=== FILE: dst.dfy ===
/** The Dst index (hourly disturbance storm-time values from the World Data Center
    for Geomagnetism, Kyoto): the `dstRec` record, its decoder for one line of the
    IAGA2002 text the data center serves, the web-form fields for a span of months,
    and the three module functions `readDst`, `readDstWeb` and `mapDstMongo`. */
module Dst {
  import opened Results
  import opened Text
  import opened Times
  import opened Values
  import opened GmeBase
  import opened Store
  import opened Query
  import opened Sync

  const DstInfo := "These data were downloaded from WDC For Geomagnetism, Kyoto.  *Please be courteous and give credit to data providers when credit is due.*"

  /** The value the data center writes for an hour without data. */
  const Sentinel: real := 99999.0

  /** A fresh `dstRec`: data set 'Dst', no time, no value. */
  const NewDstRec: Attrs := map["dataSet" := Str("Dst"), "time" := Null, "info" := Str(DstInfo), "dst" := Null]

  /** The float parser the decoders use is a parameter of the model. */
  type FloatParser = string -> Option<real>

  /** `dstRec.parseWeb`: column 0 holds the date (`YYYY-MM-DD`, read at characters
      0:4, 5:7 and 8:10), column 1 the time (`hh:mm:ss.fff`, read at 0:2, 3:5, 6:8),
      column 3 the value; the sentinel leaves `dst` as it was. */
  function ParseWeb(obj: Attrs, line: string, toFloat: FloatParser): (r: Result<Attrs>)
    ensures r.Ok? ==> |Split(line)| >= 4 && toFloat(Split(line)[3]).Some?
    ensures r.Ok? ==> "time" in r.value && r.value["time"].Date?
    ensures r.Ok? ==> toFloat(Split(line)[3]).value == Sentinel ==> Get(r.value, "dst") == Get(obj, "dst")
    ensures r.Ok? ==> toFloat(Split(line)[3]).value != Sentinel ==> Get(r.value, "dst") == Num(toFloat(Split(line)[3]).value)
    ensures r.Ok? ==> r.value.Keys <= obj.Keys + {"time", "dst"}
    ensures r.Ok? ==> forall k :: k in obj && k != "time" && k != "dst" ==> k in r.value && r.value[k] == obj[k]
  {
    var cols := Split(line);
    if |cols| == 0 then Err(IndexError)
    else
      var year :- ParseInt(Slice(cols[0], 0, 4));
      var month :- ParseInt(Slice(cols[0], 5, 7));
      var day :- ParseInt(Slice(cols[0], 8, 10));
      if |cols| < 2 then Err(IndexError)
      else
        var hour :- ParseInt(Slice(cols[1], 0, 2));
        var minute :- ParseInt(Slice(cols[1], 3, 5));
        var second :- ParseInt(Slice(cols[1], 6, 8));
        var t :- MakeTime(Civil(year, month, day, hour, minute, second, 0));
        var timed := obj["time" := Date(t)];
        if |cols| < 4 then Err(IndexError)
        else
          var v :- Need(toFloat(cols[3]), ValueError);
          if v != Sentinel then Ok(timed["dst" := Num(v)]) else Ok(timed)
  }

  /** `dstRec(webLine, dbDict)`: a fresh record, decoded from the line if one is given,
      then updated from the document if one is given. */
  function DstRec(webLine: Option<string>, dbDict: Option<Attrs>, toFloat: FloatParser): (r: Result<Attrs>)
    ensures webLine.None? && dbDict.None? ==> r == Ok(NewDstRec)
    ensures webLine.Some? && dbDict.None? ==> r == ParseWeb(NewDstRec, webLine.value, toFloat)
    ensures webLine.None? && dbDict.Some? ==> r == ParseDb(NewDstRec, dbDict.value)
    ensures webLine.Some? && dbDict.Some? ==>
              r == (if ParseWeb(NewDstRec, webLine.value, toFloat).Ok?
                    then ParseDb(ParseWeb(NewDstRec, webLine.value, toFloat).value, dbDict.value)
                    else ParseWeb(NewDstRec, webLine.value, toFloat))
  {
    var parsed :- if webLine.Some? then ParseWeb(NewDstRec, webLine.value, toFloat) else Ok(NewDstRec);
    if dbDict.Some? then ParseDb(parsed, dbDict.value) else Ok(parsed)
  }

  /** A line reporting the sentinel decodes to a record with no value: `None`, never zero. */
  lemma SentinelMeansAbsent(line: string, toFloat: FloatParser)
    requires DstRec(Some(line), None, toFloat).Ok?
    requires toFloat(Split(line)[3]) == Some(Sentinel)
    ensures DstRec(Some(line), None, toFloat).value["dst"] == Null
  {
  }

  // ---------------------------------------------------------------------------
  // The IAGA2002 data line

  /** `YYYY-MM-DD`. */
  function DateField(c: Civil): string
    requires ValidCivil(c)
  {
    ZeroPad(c.year, 4) + "-" + ZeroPad(c.month, 2) + "-" + ZeroPad(c.day, 2)
  }

  /** `hh:mm:ss.000`. */
  function TimeField(c: Civil): string
    requires ValidCivil(c)
  {
    ZeroPad(c.hour, 2) + ":" + ZeroPad(c.minute, 2) + ":" + ZeroPad(c.second, 2) + ".000"
  }

  /** A data line as the data center writes it: date, time, day of year, value. */
  function IagaLine(c: Civil, doy: string, value: string): string
    requires ValidCivil(c)
  {
    Join([DateField(c), TimeField(c), doy, value])
  }

  lemma FieldWidths(c: Civil)
    requires ValidCivil(c)
    ensures |ZeroPad(c.year, 4)| == 4
    ensures |ZeroPad(c.month, 2)| == 2 && |ZeroPad(c.day, 2)| == 2
    ensures |ZeroPad(c.hour, 2)| == 2 && |ZeroPad(c.minute, 2)| == 2 && |ZeroPad(c.second, 2)| == 2
  {
    assert Pow10(2) == 100;
    assert Pow10(4) == 10000;
    PadWidth(c.year, 4);
    PadWidth(c.month, 2);
    PadWidth(c.day, 2);
    PadWidth(c.hour, 2);
    PadWidth(c.minute, 2);
    PadWidth(c.second, 2);
  }

  /** A run of digits holds no whitespace. */
  lemma DigitsNoSpace(s: string)
    requires AllDigits(s)
    ensures forall i :: 0 <= i < |s| ==> !IsSpace(s[i])
  {
  }

  lemma FieldsAreTokens(c: Civil)
    requires ValidCivil(c)
    ensures IsToken(DateField(c)) && |DateField(c)| == 10
    ensures IsToken(TimeField(c)) && |TimeField(c)| == 12
  {
    FieldWidths(c);
    var y, mo, dy := ZeroPad(c.year, 4), ZeroPad(c.month, 2), ZeroPad(c.day, 2);
    var h, mi, se := ZeroPad(c.hour, 2), ZeroPad(c.minute, 2), ZeroPad(c.second, 2);
    DigitsNoSpace(y); DigitsNoSpace(mo); DigitsNoSpace(dy);
    DigitsNoSpace(h); DigitsNoSpace(mi); DigitsNoSpace(se);
    var d := DateField(c);
    forall i | 0 <= i < |d| ensures !IsSpace(d[i]) {
      if i < 4 { assert d[i] == y[i]; }
      else if 5 <= i < 7 { assert d[i] == mo[i - 5]; }
      else if 8 <= i { assert d[i] == dy[i - 8]; }
    }
    var t := TimeField(c);
    forall i | 0 <= i < |t| ensures !IsSpace(t[i]) {
      if i < 2 { assert t[i] == h[i]; }
      else if 3 <= i < 5 { assert t[i] == mi[i - 3]; }
      else if 6 <= i < 8 { assert t[i] == se[i - 6]; }
    }
  }

  lemma DateFieldSlices(c: Civil)
    requires ValidCivil(c)
    ensures Slice(DateField(c), 0, 4) == ZeroPad(c.year, 4)
    ensures Slice(DateField(c), 5, 7) == ZeroPad(c.month, 2)
    ensures Slice(DateField(c), 8, 10) == ZeroPad(c.day, 2)
  {
    FieldWidths(c);
    var d := DateField(c);
    assert d[..4] == ZeroPad(c.year, 4);
    assert d[5..7] == ZeroPad(c.month, 2);
    assert d[8..10] == ZeroPad(c.day, 2);
  }

  lemma TimeFieldSlices(c: Civil)
    requires ValidCivil(c)
    ensures Slice(TimeField(c), 0, 2) == ZeroPad(c.hour, 2)
    ensures Slice(TimeField(c), 3, 5) == ZeroPad(c.minute, 2)
    ensures Slice(TimeField(c), 6, 8) == ZeroPad(c.second, 2)
  {
    FieldWidths(c);
    var t := TimeField(c);
    assert t[..2] == ZeroPad(c.hour, 2);
    assert t[3..5] == ZeroPad(c.minute, 2);
    assert t[6..8] == ZeroPad(c.second, 2);
  }

  /** Decoding a data line gives back the instant and the value it was written from;
      the sentinel value leaves the record's `dst` untouched. */
  lemma ParseWebOfIagaLine(obj: Attrs, c: Civil, doy: string, value: string, toFloat: FloatParser)
    requires ValidCivil(c) && c.micro == 0
    requires IsToken(doy) && IsToken(value)
    ensures toFloat(value).None? ==> ParseWeb(obj, IagaLine(c, doy, value), toFloat) == Err(ValueError)
    ensures toFloat(value) == Some(Sentinel) ==>
              ParseWeb(obj, IagaLine(c, doy, value), toFloat) == Ok(obj["time" := Date(MakeTime(c).value)])
    ensures toFloat(value).Some? && toFloat(value).value != Sentinel ==>
              ParseWeb(obj, IagaLine(c, doy, value), toFloat) == Ok(obj["time" := Date(MakeTime(c).value)]["dst" := Num(toFloat(value).value)])
  {
    FieldsAreTokens(c);
    var cols := [DateField(c), TimeField(c), doy, value];
    SplitJoin(cols);
    DateFieldSlices(c);
    TimeFieldSlices(c);
    ParseIntZeroPad(c.year, 4);
    ParseIntZeroPad(c.month, 2);
    ParseIntZeroPad(c.day, 2);
    ParseIntZeroPad(c.hour, 2);
    ParseIntZeroPad(c.minute, 2);
    ParseIntZeroPad(c.second, 2);
    ParseWebOfFields(obj, IagaLine(c, doy, value), c, toFloat);
  }

  /** Decoding a line of at least four columns whose date and time slices read as the
      fields of `c`. */
  lemma ParseWebOfFields(obj: Attrs, line: string, c: Civil, toFloat: FloatParser)
    requires ValidCivil(c) && c.micro == 0
    requires |Split(line)| >= 4
    requires ParseInt(Slice(Split(line)[0], 0, 4)) == Ok(c.year)
    requires ParseInt(Slice(Split(line)[0], 5, 7)) == Ok(c.month)
    requires ParseInt(Slice(Split(line)[0], 8, 10)) == Ok(c.day)
    requires ParseInt(Slice(Split(line)[1], 0, 2)) == Ok(c.hour)
    requires ParseInt(Slice(Split(line)[1], 3, 5)) == Ok(c.minute)
    requires ParseInt(Slice(Split(line)[1], 6, 8)) == Ok(c.second)
    ensures toFloat(Split(line)[3]).None? ==> ParseWeb(obj, line, toFloat) == Err(ValueError)
    ensures toFloat(Split(line)[3]) == Some(Sentinel) ==>
              ParseWeb(obj, line, toFloat) == Ok(obj["time" := Date(MakeTime(c).value)])
    ensures toFloat(Split(line)[3]).Some? && toFloat(Split(line)[3]).value != Sentinel ==>
              ParseWeb(obj, line, toFloat) == Ok(obj["time" := Date(MakeTime(c).value)]["dst" := Num(toFloat(Split(line)[3]).value)])
  {
    assert Civil(c.year, c.month, c.day, c.hour, c.minute, c.second, 0) == c;
  }

  // ---------------------------------------------------------------------------
  // readDst

  /** The conditions `readDst` sends: start, end and value range, each when given. */
  function DstConds(sTime: Option<Time>, eTime: Option<Time>, range: Option<Range>): seq<Cond> {
    (if sTime.Some? then [AtLeast("time", Date(sTime.value))] else [])
    + (if eTime.Some? then [AtMost("time", Date(eTime.value))] else [])
    + RangeConds("dst", range)
  }

  /** The window a document must fall in: time within the given bounds, value within the range. */
  predicate InDstWindow(d: Attrs, sTime: Option<Time>, eTime: Option<Time>, range: Option<Range>) {
    && (sTime.Some? ==> Get(d, "time").Date? && sTime.value.micros <= Get(d, "time").t.micros)
    && (eTime.Some? ==> Get(d, "time").Date? && Get(d, "time").t.micros <= eTime.value.micros)
    && (range.Some? ==> Get(d, "dst").Num? && range.value.lo <= Get(d, "dst").x <= range.value.hi)
  }

  lemma DstCondsMeaning(d: Attrs, sTime: Option<Time>, eTime: Option<Time>, range: Option<Range>)
    ensures HoldsAll(d, DstConds(sTime, eTime, range)) <==> InDstWindow(d, sTime, eTime, range)
  {
    var a: seq<Cond> := if sTime.Some? then [AtLeast("time", Date(sTime.value))] else [];
    var b: seq<Cond> := if eTime.Some? then [AtMost("time", Date(eTime.value))] else [];
    if sTime.Some? { assert HoldsAll(d, a) <==> Holds(d, a[0]); }
    if eTime.Some? { assert HoldsAll(d, b) <==> Holds(d, b[0]); }
    HoldsAllAppend(d, a, b);
    HoldsAllAppend(d, a + b, RangeConds("dst", range));
  }

  /** The end of the query window: the given end, else one day after a given start. */
  function DstEnd(sTime: Option<Time>, eTime: Option<Time>): (r: Result<Option<Time>>)
    ensures eTime.Some? ==> r == Ok(eTime)
    ensures eTime.None? && sTime.None? ==> r == Ok(None)
    ensures eTime.None? && sTime.Some? ==> r.Ok? == AddDays(sTime.value, 1).Ok?
    ensures eTime.None? && sTime.Some? && r.Ok? ==> r.value.Some? && r.value.value.micros == sTime.value.micros + MicrosPerDay
  {
    if eTime.None? && sTime.Some? then
      var e :- AddDays(sTime.value, 1);
      Ok(Some(e))
    else Ok(eTime)
  }

  /** The stored documents in the window. */
  function InWindow(s: Store, sTime: Option<Time>, eTime: Option<Time>, range: Option<Range>): set<nat> {
    set id | id in s.docs && InDstWindow(s.docs[id], sTime, eTime, range)
  }

  /** What `readDst` answers for a window: `None` when no document is in it, otherwise
      one record per document in it, each parsed from such a document, sorted by time. */
  ghost predicate AnswersWindow(s: Store, sTime: Option<Time>, eTime: Option<Time>, range: Option<Range>, out: Option<seq<Attrs>>)
    requires s.Valid()
  {
    && (out.None? <==> InWindow(s, sTime, eTime, range) == {})
    && (out.Some? ==> Answers(s, InWindow(s, sTime, eTime, range), NewDstRec, out.value))
  }

  /** `readDst`: the stored Dst records in the window, sorted by time, or `None` when
      there are none. */
  function ReadDst(s: Store, sTime: Option<Time>, eTime: Option<Time>, dst: Option<seq<Value>>): (r: Result<Option<seq<Attrs>>>)
    requires s.Valid()
    ensures r.Ok? ==> OptionalRange("dst", dst).Ok? && DstEnd(sTime, eTime).Ok?
    ensures OptionalRange("dst", dst).Ok? && DstEnd(sTime, eTime).Ok? ==>
              (r.Err? <==> exists id :: id in InWindow(s, sTime, DstEnd(sTime, eTime).value, OptionalRange("dst", dst).value)
                                       && ParseDb(NewDstRec, Yielded(s, id)).Err?)
    ensures r.Err? && OptionalRange("dst", dst).Err? ==> r.error == OptionalRange("dst", dst).error
    ensures r.Ok? ==> AnswersWindow(s, sTime, DstEnd(sTime, eTime).value, OptionalRange("dst", dst).value, r.value)
  {
    var range :- OptionalRange("dst", dst);
    var e :- DstEnd(sTime, eTime);
    var conds := DstConds(sTime, e, range);
    assert Selected(s, conds) == InWindow(s, sTime, e, range) by {
      forall d { DstCondsMeaning(d, sTime, e, range); }
    }
    FetchFails(s, conds, NewDstRec);
    Fetch(s, conds, NewDstRec)
  }

  /** Without an end time, the window is the day that follows the start. */
  lemma ReadDstDefaultEnd(s: Store, t: Time, dst: Option<seq<Value>>)
    requires s.Valid() && AddDays(t, 1).Ok?
    ensures ReadDst(s, Some(t), None, dst) == ReadDst(s, Some(t), Some(AddDays(t, 1).value), dst)
  {
  }

  /** The value range may be given as `[lo, hi]` or `[hi, lo]`. */
  lemma ReadDstBoundOrder(s: Store, sTime: Option<Time>, eTime: Option<Time>, a: real, b: real)
    requires s.Valid()
    ensures ReadDst(s, sTime, eTime, Some([Num(a), Num(b)])) == ReadDst(s, sTime, eTime, Some([Num(b), Num(a)]))
  {
    RangeOrderIrrelevant("dst", a, b);
  }

  // ---------------------------------------------------------------------------
  // readDstWeb

  datatype Digits = Digits(cent: int, tens: int, ones: int)

  /** The century, tens and ones the web form asks for, with Python's floor division. */
  function SplitYear(year: int): (d: Digits)
    ensures d.cent * 100 + d.tens * 10 + d.ones == year
    ensures 0 <= d.tens <= 9 && 0 <= d.ones <= 9
  {
    var cent := year / 100;
    var tens := (year - cent * 100) / 10;
    Digits(cent, tens, year - cent * 100 - tens * 10)
  }

  /** The split is the only one with a tens and a ones digit. */
  lemma SplitYearUnique(year: int, d: Digits)
    requires d.cent * 100 + d.tens * 10 + d.ones == year
    requires 0 <= d.tens <= 9 && 0 <= d.ones <= 9
    ensures SplitYear(year) == d
  {
    var r := d.tens * 10 + d.ones;
    assert 0 <= r < 100;
    DivModUnique(year, 100, d.cent, r);
    DivModUnique(r, 10, d.tens, d.ones);
  }

  /** The fields of the data center's request form (output kind and format are fixed). */
  datatype DstForm = DstForm(
    sCent: string, sTens: string, sYear: string, sMonth: string,
    eCent: string, eTens: string, eYear: string, eMonth: string,
    output: string, outFormat: string)

  function FormFor(sTime: Time, eTime: Time): (f: DstForm)
    requires sTime.Valid() && eTime.Valid()
  {
    var s, e := ToCivil(sTime), ToCivil(eTime);
    var sd, ed := SplitYear(s.year), SplitYear(e.year);
    DstForm(IntToString(sd.cent), IntToString(sd.tens), IntToString(sd.ones), ZeroPad(s.month, 2),
            IntToString(ed.cent), IntToString(ed.tens), IntToString(ed.ones), ZeroPad(e.month, 2),
            "DST", "IAGA2002")
  }

  /** The form names exactly the start and end year and month. */
  lemma FormNamesMonths(sTime: Time, eTime: Time)
    requires sTime.Valid() && eTime.Valid()
    ensures var f := FormFor(sTime, eTime);
            && ParseInt(f.sCent).Ok? && ParseInt(f.sTens).Ok? && ParseInt(f.sYear).Ok? && ParseInt(f.sMonth).Ok?
            && ParseInt(f.sCent).value * 100 + ParseInt(f.sTens).value * 10 + ParseInt(f.sYear).value == ToCivil(sTime).year
            && ParseInt(f.sMonth).value == ToCivil(sTime).month
            && ParseInt(f.eCent).Ok? && ParseInt(f.eTens).Ok? && ParseInt(f.eYear).Ok? && ParseInt(f.eMonth).Ok?
            && ParseInt(f.eCent).value * 100 + ParseInt(f.eTens).value * 10 + ParseInt(f.eYear).value == ToCivil(eTime).year
            && ParseInt(f.eMonth).value == ToCivil(eTime).month
  {
    var s, e := ToCivil(sTime), ToCivil(eTime);
    var sd, ed := SplitYear(s.year), SplitYear(e.year);
    ParseIntToString(sd.cent);
    ParseIntToString(sd.tens);
    ParseIntToString(sd.ones);
    ParseIntToString(ed.cent);
    ParseIntToString(ed.tens);
    ParseIntToString(ed.ones);
    ParseIntZeroPad(s.month, 2);
    ParseIntZeroPad(e.month, 2);
  }

  /** A header line: it starts with a space, or with `DATE`. */
  predicate IsHeader(l: string)
    requires |l| > 0
  {
    l[0] == ' ' || Slice(l, 0, 4) == "DATE"
  }

  /** The record a data line makes, or `None` for a header or a line whose decoding
      raised (the loop skips both). */
  function DecodeLine(l: string, toFloat: FloatParser): (r: Option<Attrs>)
    ensures |l| > 0 && IsHeader(l) ==> r.None?
    ensures |l| > 0 && !IsHeader(l) ==> (r.Some? <==> DstRec(Some(l), None, toFloat).Ok?)
    ensures r.Some? ==> DstRec(Some(l), None, toFloat) == Ok(r.value)
  {
    if |l| == 0 || IsHeader(l) then None
    else
      match DstRec(Some(l), None, toFloat)
      case Ok(rec) => Some(rec)
      case Err(_) => None
  }

  function LineDecoder(toFloat: FloatParser): string -> Option<Attrs> {
    l => DecodeLine(l, toFloat)
  }

  /** A line's record, if any, in front of the records of the lines after it. */
  function Prepend(o: Option<Attrs>, rest: seq<Attrs>): seq<Attrs> {
    if o.Some? then [o.value] + rest else rest
  }

  /** The line loop of `readDstWeb`, for any per-line decoder: lines it makes no record
      of are skipped; an empty line raises IndexError (it has no first character to test). */
  function DecodeLines(lines: seq<string>, decode: string -> Option<Attrs>): (r: Result<seq<Attrs>>)
    ensures r.Ok? <==> forall i :: 0 <= i < |lines| ==> |lines[i]| > 0
    ensures r.Err? ==> r.error == IndexError
    ensures r.Ok? ==> |r.value| <= |lines|
  {
    if lines == [] then Ok([])
    else if |lines[0]| == 0 then Err(IndexError)
    else
      var rest :- DecodeLines(lines[1..], decode);
      assert forall i :: 1 <= i < |lines| ==> lines[i] == lines[1..][i - 1];
      Ok(Prepend(decode(lines[0]), rest))
  }

  lemma DecodeLinesCons(l: string, rest: seq<string>, decode: string -> Option<Attrs>)
    requires |l| > 0 && DecodeLines(rest, decode).Ok?
    ensures DecodeLines([l] + rest, decode) == Ok(Prepend(decode(l), DecodeLines(rest, decode).value))
  {
    assert ([l] + rest)[1..] == rest;
  }

  /** Decoding is line by line: the records of two blocks of lines are the records of
      each block, in order. */
  lemma {:induction false} DecodeLinesAppend(a: seq<string>, b: seq<string>, decode: string -> Option<Attrs>)
    requires DecodeLines(a, decode).Ok? && DecodeLines(b, decode).Ok?
    ensures DecodeLines(a + b, decode) == Ok(DecodeLines(a, decode).value + DecodeLines(b, decode).value)
    decreases |a|
  {
    if a == [] {
      assert a + b == b;
      assert DecodeLines(a, decode).value == [];
      assert [] + DecodeLines(b, decode).value == DecodeLines(b, decode).value;
    } else {
      var l, tail := a[0], a[1..];
      assert a == [l] + tail;
      DecodeLinesAppend(tail, b, decode);
      AppendStep(l, tail, b, decode);
    }
  }

  /** The step of the induction above: one more line in front of the first block. */
  lemma AppendStep(l: string, tail: seq<string>, b: seq<string>, decode: string -> Option<Attrs>)
    requires |l| > 0 && DecodeLines(tail, decode).Ok? && DecodeLines(b, decode).Ok?
    requires DecodeLines(tail + b, decode) == Ok(DecodeLines(tail, decode).value + DecodeLines(b, decode).value)
    ensures DecodeLines([l] + tail + b, decode) == Ok(DecodeLines([l] + tail, decode).value + DecodeLines(b, decode).value)
  {
    DecodeLinesCons(l, tail, decode);
    ConsAssoc(l, tail, b);
    DecodeLinesCons(l, tail + b, decode);
    PrependAppend(decode(l), DecodeLines(tail, decode).value, DecodeLines(b, decode).value);
  }

  lemma ConsAssoc(l: string, p: seq<string>, q: seq<string>)
    ensures [l] + p + q == [l] + (p + q)
  {
  }

  lemma PrependAppend(o: Option<Attrs>, front: seq<Attrs>, back: seq<Attrs>)
    ensures Prepend(o, front + back) == Prepend(o, front) + back
  {
    if o.Some? {
      assert [o.value] + (front + back) == [o.value] + front + back;
    }
  }

  /** A line the decoder makes no record of is skipped without affecting the lines
      around it. */
  lemma SkippedLine(a: seq<string>, l: string, b: seq<string>, decode: string -> Option<Attrs>)
    requires |l| > 0 && decode(l).None?
    requires DecodeLines(a, decode).Ok? && DecodeLines(b, decode).Ok?
    ensures DecodeLines(a + [l] + b, decode) == DecodeLines(a + b, decode)
  {
    DecodeLinesCons(l, b, decode);
    DecodeLinesAppend(a, [l] + b, decode);
    DecodeLinesAppend(a, b, decode);
    assert a + [l] + b == a + ([l] + b);
  }

  /** In the Dst loop, a header line is one the decoder makes no record of. */
  lemma HeaderSkipped(a: seq<string>, l: string, b: seq<string>, toFloat: FloatParser)
    requires |l| > 0 && IsHeader(l)
    requires DecodeLines(a, LineDecoder(toFloat)).Ok? && DecodeLines(b, LineDecoder(toFloat)).Ok?
    ensures DecodeLines(a + [l] + b, LineDecoder(toFloat)) == DecodeLines(a + b, LineDecoder(toFloat))
  {
    SkippedLine(a, l, b, LineDecoder(toFloat));
  }

  /** `readDstWeb`: ask the data center (a parameter: the lines it answers a form with)
      for the months from start to end, and decode its answer; `None` when no line
      decodes. Writing either month with `strftime` raises ValueError before 1900.
      The lines come from `readlines()` and keep their '\n', so a real answer has no
      empty line and the IndexError of `DecodeLines` is not reached; a blank line is
      "\n", which `dstRec` fails on and the loop skips. */
  function ReadDstWeb(sTime: Time, eTime: Option<Time>, server: DstForm -> seq<string>, toFloat: FloatParser): (r: Result<Option<seq<Attrs>>>)
    requires sTime.Valid() && (eTime.Some? ==> eTime.value.Valid())
    ensures eTime.GetOr(sTime).micros < sTime.micros ==> r.Err? && r.error.AssertionFailed?
    ensures eTime.GetOr(sTime).micros >= sTime.micros ==>
              (r == Err(ValueError) <==> ToCivil(sTime).year < StrftimeMinYear || ToCivil(eTime.GetOr(sTime)).year < StrftimeMinYear)
    ensures eTime.GetOr(sTime).micros >= sTime.micros && ToCivil(sTime).year >= StrftimeMinYear && ToCivil(eTime.GetOr(sTime)).year >= StrftimeMinYear ==>
              var lines := server(FormFor(sTime, eTime.GetOr(sTime)));
              && (r.Ok? <==> DecodeLines(lines, LineDecoder(toFloat)).Ok?)
              && (r.Ok? ==> (r.value.None? <==> DecodeLines(lines, LineDecoder(toFloat)).value == []))
              && (r.Ok? && r.value.Some? ==> r.value.value == DecodeLines(lines, LineDecoder(toFloat)).value)
  {
    var e := eTime.GetOr(sTime);
    if e.micros < sTime.micros then Err(AssertionFailed("error, eTime < eTime"))
    else if ToCivil(sTime).year < StrftimeMinYear || ToCivil(e).year < StrftimeMinYear then Err(ValueError)
    else
      var recs :- DecodeLines(server(FormFor(sTime, e)), LineDecoder(toFloat));
      if recs == [] then Ok(None) else Ok(Some(recs))
  }

  // ---------------------------------------------------------------------------
  // mapDstMongo

  /** The natural key of a Dst document. */
  const DstKey := ["time"]

  /** One year of the sync: January 1st through December 31st of `yr`. */
  function DstYear(yr: int, server: DstForm -> seq<string>, toFloat: FloatParser): (r: Result<Option<seq<Attrs>>>)
    ensures !FitsInt(yr) ==> r == Err(OverflowError)
    ensures FitsInt(yr) && !(MinYear <= yr <= MaxYear) ==> r == Err(ValueError)
    ensures FitsInt(yr) && yr < StrftimeMinYear ==> r == Err(ValueError)
    ensures MinYear <= yr <= MaxYear ==>
              r == ReadDstWeb(MakeTime(Civil(yr, 1, 1, 0, 0, 0, 0)).value, Some(MakeTime(Civil(yr, 12, 31, 0, 0, 0, 0)).value), server, toFloat)
  {
    match MakeTime(Civil(yr, 1, 1, 0, 0, 0, 0))
    case Err(e) => Err(e)
    case Ok(first) =>
      match MakeTime(Civil(yr, 12, 31, 0, 0, 0, 0))
      case Err(e) => Err(e)
      case Ok(last) =>
        CivilDate(Civil(yr, 1, 1, 0, 0, 0, 0));
        ReadDstWeb(first, Some(last), server, toFloat)
  }

  function DstFetch(server: DstForm -> seq<string>, toFloat: FloatParser): int -> Result<Option<seq<Attrs>>> {
    yr => DstYear(yr, server, toFloat)
  }

  /** `mapDstMongo`: sync the years `sYear` through `eYear` (default: `sYear` alone)
      into the collection, keyed on `time`. */
  function MapDstMongo(s: Store, sYear: int, eYear: Option<int>, server: DstForm -> seq<string>, toFloat: FloatParser): (r: Run)
    requires s.Valid()
    ensures r.store.Valid()
    ensures eYear.GetOr(sYear) < sYear ==> r == Run(s, [], Some(AssertionFailed("error, end year greater than start year")))
    ensures eYear.GetOr(sYear) >= sYear ==>
              r == SyncYears(s, DstKey, DstFetch(server, toFloat), sYear, eYear.GetOr(sYear))
  {
    var e := eYear.GetOr(sYear);
    if e < sYear then Run(s, [], Some(AssertionFailed("error, end year greater than start year")))
    else SyncYears(s, DstKey, DstFetch(server, toFloat), sYear, e)
  }

  /** A sync that starts before 1900 stops at its first year, having written nothing:
      ValueError, or OverflowError for a year beyond a C `int`. */
  lemma MapDstMongoBefore1900(s: Store, sYear: int, eYear: int, server: DstForm -> seq<string>, toFloat: FloatParser)
    requires s.Valid() && sYear <= eYear && sYear < StrftimeMinYear
    ensures MapDstMongo(s, sYear, Some(eYear), server, toFloat) == Run(s, [], Some(if FitsInt(sYear) then ValueError else OverflowError))
  {
    assert DstFetch(server, toFloat)(sYear) == Err(if FitsInt(sYear) then ValueError else OverflowError);
  }

  /** A record decoded from a data line carries its time and no Kp grades: the write
      loop reads its key and stores it unchanged. */
  lemma DecodedRecordWrites(l: string, toFloat: FloatParser)
    requires DecodeLine(l, toFloat).Some?
    ensures Prepared(DstKey, DecodeLine(l, toFloat).value) == Ok(DecodeLine(l, toFloat).value)
  {
    var rec := DecodeLine(l, toFloat).value;
    assert "time" in rec && KpKey !in rec;
    assert forall i :: 0 <= i < |DstKey| ==> DstKey[i] in rec;
  }

  lemma DecodedLinesWrite(lines: seq<string>, toFloat: FloatParser)
    requires DecodeLines(lines, LineDecoder(toFloat)).Ok?
    ensures AllProjectable(DstKey, DecodeLines(lines, LineDecoder(toFloat)).value)
  {
    var decode := LineDecoder(toFloat);
    forall i | 0 <= i < |lines| && decode(lines[i]).Some?
      ensures Prepared(DstKey, decode(lines[i]).value).Ok?
    {
      DecodedRecordWrites(lines[i], toFloat);
    }
    DecodedAllProjectable(lines, decode, DstKey);
  }

  /** When every record the decoder makes projects, every record of the line loop does. */
  lemma {:induction false} DecodedAllProjectable(lines: seq<string>, decode: string -> Option<Attrs>, fields: seq<string>)
    requires DecodeLines(lines, decode).Ok?
    requires forall i :: 0 <= i < |lines| && decode(lines[i]).Some? ==> Prepared(fields, decode(lines[i]).value).Ok?
    ensures AllProjectable(fields, DecodeLines(lines, decode).value)
    decreases |lines|
  {
    if lines != [] {
      var l, tail := lines[0], lines[1..];
      assert lines == [l] + tail;
      DecodeLinesCons(l, tail, decode);
      assert forall i :: 0 <= i < |tail| ==> tail[i] == lines[i + 1];
      DecodedAllProjectable(tail, decode, fields);
      ProjectableCons(fields, decode(l), DecodeLines(tail, decode).value);
    }
  }

  lemma ProjectableCons(fields: seq<string>, o: Option<Attrs>, rest: seq<Attrs>)
    requires AllProjectable(fields, rest) && (o.Some? ==> Prepared(fields, o.value).Ok?)
    ensures AllProjectable(fields, Prepend(o, rest))
  {
    if o.Some? {
      assert forall i :: 1 <= i < |Prepend(o, rest)| ==> Prepend(o, rest)[i] == rest[i - 1];
    }
  }

  /** Whatever `readDstWeb` returns, the write loop accepts every record of it. */
  lemma ReadDstWebWrites(sTime: Time, eTime: Option<Time>, server: DstForm -> seq<string>, toFloat: FloatParser)
    requires sTime.Valid() && (eTime.Some? ==> eTime.value.Valid())
    requires ReadDstWeb(sTime, eTime, server, toFloat).Ok?
    requires ReadDstWeb(sTime, eTime, server, toFloat).value.Some?
    ensures AllProjectable(DstKey, ReadDstWeb(sTime, eTime, server, toFloat).value.value)
  {
    DecodedLinesWrite(server(FormFor(sTime, eTime.GetOr(sTime))), toFloat);
  }

  lemma DstYearWrites(yr: int, server: DstForm -> seq<string>, toFloat: FloatParser)
    requires DstYear(yr, server, toFloat).Ok? && DstYear(yr, server, toFloat).value.Some?
    ensures Delivers(DstKey, DstYear(yr, server, toFloat))
  {
    ReadDstWebWrites(MakeTime(Civil(yr, 1, 1, 0, 0, 0, 0)).value, Some(MakeTime(Civil(yr, 12, 31, 0, 0, 0, 0)).value), server, toFloat);
  }

  /** A sync in which every year's answer holds at least one data line ends without
      error, and repeating it leaves the collection as it was. */
  lemma MapDstMongoIdempotent(s: Store, sYear: int, eYear: int, server: DstForm -> seq<string>, toFloat: FloatParser)
    requires s.Valid() && UniqueKeys(s, DstKey) && sYear <= eYear
    requires forall yr :: sYear <= yr <= eYear ==> DstYear(yr, server, toFloat).Ok? && DstYear(yr, server, toFloat).value.Some?
    ensures MapDstMongo(s, sYear, Some(eYear), server, toFloat).error.None?
    ensures var t := MapDstMongo(s, sYear, Some(eYear), server, toFloat).store;
            MapDstMongo(t, sYear, Some(eYear), server, toFloat).store == t
  {
    var fetch := DstFetch(server, toFloat);
    assert AllDeliver(DstKey, fetch, sYear, eYear) by {
      forall yr | sYear <= yr <= eYear ensures Delivers(DstKey, fetch(yr)) {
        DstYearWrites(yr, server, toFloat);
      }
    }
    SyncYearsIsBatch(s, DstKey, fetch, sYear, eYear);
    SyncYearsIdempotent(s, DstKey, fetch, sYear, eYear);
  }
}

=== FILE: gme_base.dfy ===
/** `gmeData`, the base class of every geomagnetic-index record: the projection of
    a record object onto a store document (`toDbDict`) and back (`parseDb`), and
    the Kp graded-category codec they apply to the `kp` attribute.

    A Kp grade is written as a digit followed by an optional modifier, "3-",
    "3" or "3+", and is stored as the number digit + .3, + .5 or + .7. */
module GmeBase {
  import opened Results
  import opened Text
  import opened Values

  const KpKey := "kp"
  const IdKey := "_id"

  /** The fraction the stored number carries for a modifier: '+' is .7, '-' is .3, anything else .5. */
  function ModifierFraction(m: string): real {
    if m == "+" then 0.7 else if m == "-" then 0.3 else 0.5
  }

  /** The modifier a stored fraction stands for: .3 is '-', .7 is '+', anything else none. */
  function FractionModifier(f: real): string {
    if f == 0.3 then "-" else if f == 0.7 then "+" else ""
  }

  /** Python's `int(x)` of a float: truncation toward zero. */
  function Trunc(x: real): (n: int)
    ensures x >= 0.0 ==> n as real <= x < n as real + 1.0
    ensures x < 0.0 ==> n as real - 1.0 < x <= n as real
  {
    if x >= 0.0 then x.Floor else -((-x).Floor)
  }

  /** `toDbDict` on one grade: the first character is the digit, the second the modifier. */
  function EncodeKp(v: Value): (r: Result<real>)
    ensures r.Ok? <==> v.Str? && |v.s| > 0 && IsDigit(v.s[0])
    ensures r.Ok? && |v.s| >= 2 && v.s[1] == '+' ==> r.value == DigitValue(v.s[0]) as real + 0.7
    ensures r.Ok? && |v.s| >= 2 && v.s[1] == '-' ==> r.value == DigitValue(v.s[0]) as real + 0.3
    ensures r.Ok? && (|v.s| == 1 || (v.s[1] != '+' && v.s[1] != '-')) ==> r.value == DigitValue(v.s[0]) as real + 0.5
    ensures r.Err? ==> r.error == (if v.Str? then ValueError else TypeError)
  {
    match v
    case Str(s) =>
      if |s| > 0 && IsDigit(s[0]) then Ok(DigitValue(s[0]) as real + ModifierFraction(Slice(s, 1, 2)))
      else Err(ValueError)
    case _ => Err(TypeError)
  }

  /** `parseDb` on one stored number: `str(int(x))` followed by the modifier of its fraction.
      A string entry fails in `int(x)` (ValueError) unless it holds an integer literal, in
      which case the subtraction `x - int(x)` fails (TypeError); `int` of anything else
      raises TypeError. */
  function DecodeKp(v: Value): (r: Result<string>)
    ensures r.Ok? <==> v.Num?
    ensures v.Num? ==> var n := Trunc(v.x); var f := v.x - n as real;
                      && (f == 0.3 ==> r.value == IntToString(n) + "-")
                      && (f == 0.7 ==> r.value == IntToString(n) + "+")
                      && (f != 0.3 && f != 0.7 ==> r.value == IntToString(n))
    ensures v.Str? && PyInt(v.s).Ok? ==> r == Err(TypeError)
    ensures v.Str? && PyInt(v.s).Err? ==> r == Err(ValueError)
    ensures !v.Num? && !v.Str? ==> r == Err(TypeError)
  {
    match v
    case Num(x) =>
      var n := Trunc(x);
      Ok(IntToString(n) + FractionModifier(x - n as real))
    case Str(s) => if PyInt(s).Ok? then Err(TypeError) else Err(ValueError)
    case _ => Err(TypeError)
  }

  /** A stored string whose sign is separated from its digits still passes `int()`, so the
      subtraction is what raises. */
  lemma DecodeKpSpacedSign()
    ensures DecodeKp(Str("- 3")) == Err(TypeError)
  {
    assert "- 3" == "" + "-" + " " + "3" + "";
    PyIntPadded("", "-", " ", "3", "");
  }

  /** The entries `range(len(kp))` walks over: a list's items, or a string's characters. */
  function KpEntries(v: Value): (r: Result<seq<Value>>)
    ensures r.Ok? <==> v.List? || v.Str?
    ensures v.List? ==> r == Ok(v.items)
    ensures v.Str? ==> r.Ok? && |r.value| == |v.s| && forall i :: 0 <= i < |v.s| ==> r.value[i] == Str([v.s[i]])
    ensures r.Err? ==> r.error == TypeError
  {
    match v
    case List(items) => Ok(items)
    case Str(s) => Ok(seq(|s|, i requires 0 <= i < |s| => Str([s[i]])))
    case _ => Err(TypeError)
  }

  /** Encodes every grade, in order; fails on the first that does not encode. */
  function EncodeAll(vs: seq<Value>): (r: Result<seq<Value>>)
    ensures r.Ok? <==> forall i :: 0 <= i < |vs| ==> EncodeKp(vs[i]).Ok?
    ensures r.Ok? ==> |r.value| == |vs|
    ensures r.Ok? ==> forall i :: 0 <= i < |vs| ==> r.value[i] == Num(EncodeKp(vs[i]).value)
  {
    if vs == [] then Ok([])
    else
      var x :- EncodeKp(vs[0]);
      var rest :- EncodeAll(vs[1..]);
      Ok([Num(x)] + rest)
  }

  /** Decodes every stored number, in order; fails on the first that is not a number. */
  function DecodeAll(vs: seq<Value>): (r: Result<seq<Value>>)
    ensures r.Ok? <==> forall i :: 0 <= i < |vs| ==> vs[i].Num?
    ensures r.Ok? ==> |r.value| == |vs|
    ensures r.Ok? ==> forall i :: 0 <= i < |vs| ==> r.value[i] == Str(DecodeKp(vs[i]).value)
    ensures r.Err? ==> exists k :: 0 <= k < |vs| && !vs[k].Num? && r.error == DecodeKp(vs[k]).error
                                   && forall j :: 0 <= j < k ==> vs[j].Num?
  {
    if vs == [] then Ok([])
    else
      var s :- DecodeKp(vs[0]);
      var rest :- DecodeAll(vs[1..]);
      Ok([Str(s)] + rest)
  }

  /** `gmeData.toDbDict`: one document key per attribute, each value copied, except
      that the `kp` grades are replaced by their numbers. */
  function ToDbDict(obj: Attrs): (r: Result<Attrs>)
    ensures r.Ok? ==> r.value.Keys == obj.Keys
    ensures r.Ok? ==> forall k :: k in obj && k != KpKey ==> r.value[k] == obj[k]
    ensures r.Ok? <==> KpKey !in obj || (KpEntries(obj[KpKey]).Ok? && EncodeAll(KpEntries(obj[KpKey]).value).Ok?)
    ensures r.Ok? && KpKey in obj ==>
              && var entries := KpEntries(obj[KpKey]).value;
              && r.value[KpKey].List?
              && |r.value[KpKey].items| == |entries|
              && forall i :: 0 <= i < |entries| ==> r.value[KpKey].items[i] == Num(EncodeKp(entries[i]).value)
  {
    if KpKey !in obj then Ok(obj)
    else
      var entries :- KpEntries(obj[KpKey]);
      var numbers :- EncodeAll(entries);
      Ok(obj[KpKey := List(numbers)])
  }

  /** The document keys `parseDb` assigns as attributes: all but `_id` and `kp`. */
  function CopiedFields(doc: Attrs): (m: Attrs)
    ensures m.Keys == doc.Keys - {IdKey, KpKey}
  {
    map k | k in doc && k != IdKey && k != KpKey :: doc[k]
  }

  /** When `parseDb` raises: the stored `kp` is not a sequence, holds a non-number, or
      has grades to append to an object without a `kp` list. */
  predicate ParseDbFails(obj: Attrs, doc: Attrs) {
    && KpKey in doc
    && (|| KpEntries(doc[KpKey]).Err?
        || DecodeAll(KpEntries(doc[KpKey]).value).Err?
        || (|KpEntries(doc[KpKey]).value| > 0 && (KpKey !in obj || !obj[KpKey].List?)))
  }

  /** `gmeData.parseDb`: assigns every document field except `_id` to the object,
      and appends the decoded `kp` grades to the object's own `kp` list. */
  function ParseDb(obj: Attrs, doc: Attrs): (r: Result<Attrs>)
    ensures r.Err? <==> ParseDbFails(obj, doc)
    ensures KpKey in doc && KpEntries(doc[KpKey]).Err? ==> r == Err(TypeError)
    ensures KpKey in doc && KpEntries(doc[KpKey]).Ok? && |KpEntries(doc[KpKey]).value| > 0 ==>
              && var first := KpEntries(doc[KpKey]).value[0];
              && (DecodeKp(first).Err? ==> r == Err(DecodeKp(first).error))
              && (DecodeKp(first).Ok? && (KpKey !in obj || !obj[KpKey].List?) ==> r == Err(AttributeError))
    ensures r.Err? && r.error != AttributeError && KpEntries(doc[KpKey]).Ok? ==>
              exists k :: && 0 <= k < |KpEntries(doc[KpKey]).value|
                          && DecodeKp(KpEntries(doc[KpKey]).value[k]).Err?
                          && r.error == DecodeKp(KpEntries(doc[KpKey]).value[k]).error
    ensures r.Ok? ==> r.value.Keys == obj.Keys + (doc.Keys - {IdKey, KpKey})
    ensures r.Ok? ==> (IdKey in obj ==> r.value[IdKey] == obj[IdKey])
    ensures r.Ok? ==> forall k :: k in doc && k != IdKey && k != KpKey ==> r.value[k] == doc[k]
    ensures r.Ok? ==> forall k :: k in obj && k !in doc && k != KpKey ==> r.value[k] == obj[k]
    ensures r.Ok? && KpKey in doc && |KpEntries(doc[KpKey]).value| > 0 ==>
              && var old_ := obj[KpKey].items;
              && var stored := KpEntries(doc[KpKey]).value;
              && r.value[KpKey].List?
              && |r.value[KpKey].items| == |old_| + |stored|
              && r.value[KpKey].items[..|old_|] == old_
              && forall i :: 0 <= i < |stored| ==> r.value[KpKey].items[|old_| + i] == Str(DecodeKp(stored[i]).value)
    ensures r.Ok? && KpKey in obj && (KpKey !in doc || |KpEntries(doc[KpKey]).value| == 0) ==>
              r.value[KpKey] == obj[KpKey]
  {
    var copied := obj + CopiedFields(doc);
    if KpKey !in doc then Ok(copied)
    else
      var entries :- KpEntries(doc[KpKey]);
      if entries == [] then Ok(copied)
      else if DecodeKp(entries[0]).Err? then Err(DecodeKp(entries[0]).error)
      else if KpKey !in obj || !obj[KpKey].List? then Err(AttributeError)
      else
        var grades :- DecodeAll(entries);
        Ok(copied[KpKey := List(obj[KpKey].items + grades)])
  }

  // ---------------------------------------------------------------------------
  // Round trips

  /** A grade as the Kp index writes it: one digit, then '+', '-' or nothing. */
  predicate CanonicalKp(s: string) {
    && 1 <= |s| <= 2
    && IsDigit(s[0])
    && (|s| == 2 ==> s[1] == '+' || s[1] == '-')
  }

  lemma TruncOfGrade(d: int, f: real)
    requires d >= 0 && 0.0 <= f < 1.0
    ensures Trunc(d as real + f) == d
    ensures (d as real + f) - Trunc(d as real + f) as real == f
  {
  }

  /** Decoding the number of a canonical grade gives the grade back. */
  lemma KpRoundTrip(s: string)
    requires CanonicalKp(s)
    ensures EncodeKp(Str(s)).Ok?
    ensures DecodeKp(Num(EncodeKp(Str(s)).value)) == Ok(s)
  {
    var d := DigitValue(s[0]);
    var m := Slice(s, 1, 2);
    TruncOfGrade(d, ModifierFraction(m));
    assert NatToString(d) == [s[0]];
    if |s| == 2 {
      assert m == [s[1]];
      assert s == [s[0]] + m;
    } else {
      assert m == "";
      assert s == [s[0]] + "";
    }
  }

  /** Every number on the Kp grid, a digit plus .3, .5 or .7, decodes to a canonical
      grade that encodes back to the same number. */
  lemma KpGridRoundTrip(d: int, tenths: int)
    requires 0 <= d <= 9 && tenths in {3, 5, 7}
    ensures var x := d as real + tenths as real / 10.0;
            && DecodeKp(Num(x)).Ok?
            && CanonicalKp(DecodeKp(Num(x)).value)
            && EncodeKp(Str(DecodeKp(Num(x)).value)) == Ok(x)
  {
    var f := tenths as real / 10.0;
    var x := d as real + f;
    TruncOfGrade(d, f);
    var s := DecodeKp(Num(x)).value;
    assert NatToString(d) == [DigitChar(d)];
    assert s == [DigitChar(d)] + FractionModifier(f);
    assert Slice(s, 1, 2) == FractionModifier(f);
  }

  /** A list of canonical grades. */
  predicate CanonicalKpList(v: Value) {
    v.List? && forall i :: 0 <= i < |v.items| ==> v.items[i].Str? && CanonicalKp(v.items[i].s)
  }

  /** Encoding a list of canonical grades succeeds, and decoding the numbers gives the grades back. */
  lemma {:induction false} KpListRoundTrip(grades: seq<Value>)
    requires CanonicalKpList(List(grades))
    ensures EncodeAll(grades).Ok?
    ensures DecodeAll(EncodeAll(grades).value) == Ok(grades)
  {
    if grades != [] {
      KpRoundTrip(grades[0].s);
      assert CanonicalKpList(List(grades[1..]));
      KpListRoundTrip(grades[1..]);
      assert grades == [grades[0]] + grades[1..];
    }
  }

  /** Parsing a document whose `kp` holds the given numbers onto an object whose `kp`
      list is empty sets that list to the decoded grades. */
  lemma ParseDbOntoEmptyKp(blank: Attrs, doc: Attrs, grades: seq<Value>)
    requires KpKey in blank && blank[KpKey] == List([])
    requires KpKey in doc && doc[KpKey].List? && DecodeAll(doc[KpKey].items) == Ok(grades)
    ensures ParseDb(blank, doc) == Ok((blank + CopiedFields(doc))[KpKey := List(grades)])
  {
    var copied := blank + CopiedFields(doc);
    if grades == [] {
      assert copied[KpKey := List([])] == copied;
    } else {
      assert [] + grades == grades;
    }
  }

  /** The projection of a record with a `kp` list of canonical grades. */
  lemma ToDbDictOfCanonical(obj: Attrs) returns (doc: Attrs)
    requires KpKey in obj && CanonicalKpList(obj[KpKey])
    ensures ToDbDict(obj) == Ok(doc)
    ensures doc == obj[KpKey := doc[KpKey]]
    ensures doc[KpKey].List? && DecodeAll(doc[KpKey].items) == Ok(obj[KpKey].items)
  {
    KpListRoundTrip(obj[KpKey].items);
    doc := obj[KpKey := List(EncodeAll(obj[KpKey].items).value)];
  }

  /** Projecting a record to a document and parsing it back onto a new object
      (whose `kp`, if the record has one, starts empty) restores every attribute. */
  lemma RecordRoundTrip(obj: Attrs, blank: Attrs)
    requires IdKey !in obj
    requires KpKey in obj ==> CanonicalKpList(obj[KpKey]) && KpKey in blank && blank[KpKey] == List([])
    ensures ToDbDict(obj).Ok?
    ensures ParseDb(blank, ToDbDict(obj).value) == Ok(blank + obj)
  {
    if KpKey in obj {
      RecordRoundTripKp(obj, blank);
    } else {
      RecordRoundTripPlain(obj, blank);
    }
  }

  lemma RecordRoundTripKp(obj: Attrs, blank: Attrs)
    requires IdKey !in obj && KpKey in obj
    requires CanonicalKpList(obj[KpKey]) && KpKey in blank && blank[KpKey] == List([])
    ensures ToDbDict(obj).Ok?
    ensures ParseDb(blank, ToDbDict(obj).value) == Ok(blank + obj)
  {
    var doc := ToDbDictOfCanonical(obj);
    ParseDbOntoEmptyKp(blank, doc, obj[KpKey].items);
    CopiedBack(blank, obj, doc);
  }

  /** Copying a projected record's fields and putting its grades back gives the record. */
  lemma CopiedBack(blank: Attrs, obj: Attrs, doc: Attrs)
    requires IdKey !in obj && KpKey in obj && KpKey in doc && doc == obj[KpKey := doc[KpKey]]
    ensures (blank + CopiedFields(doc))[KpKey := obj[KpKey]] == blank + obj
  {
    var l, r := (blank + CopiedFields(doc))[KpKey := obj[KpKey]], blank + obj;
    assert l.Keys == r.Keys;
    forall k | k in l ensures l[k] == r[k] {
      if k != KpKey && k in obj {
        assert CopiedFields(doc)[k] == obj[k];
      }
    }
  }

  lemma RecordRoundTripPlain(obj: Attrs, blank: Attrs)
    requires IdKey !in obj && KpKey !in obj
    ensures ToDbDict(obj) == Ok(obj)
    ensures ParseDb(blank, obj) == Ok(blank + obj)
  {
    assert blank + CopiedFields(obj) == blank + obj;
  }
}

=== FILE: query.dfy ===
/** The read path of `readDst` and `readTec`: validate the optional range arguments,
    build the list of `$gte`/`$lte` conditions, select the matching documents sorted
    by `time`, and turn each into a record with `parseDb` — or report that nothing
    matched (`None`). */
module Query {
  import opened Results
  import opened Values
  import opened GmeBase
  import opened Store

  /** One condition of the `$and` list: `{field: {'$gte': bound}}` or `{field: {'$lte': bound}}`. */
  datatype Cond = AtLeast(field: string, bound: Value) | AtMost(field: string, bound: Value)

  /** The store's ordering within one kind of value: numbers with numbers, dates with dates.
      Values of different kinds, and a missing or null field, never satisfy a range condition. */
  predicate Le(a: Value, b: Value) {
    || (a.Num? && b.Num? && a.x <= b.x)
    || (a.Date? && b.Date? && a.t.micros <= b.t.micros)
  }

  predicate Holds(d: Attrs, c: Cond) {
    match c
    case AtLeast(f, b) => Le(b, Get(d, f))
    case AtMost(f, b) => Le(Get(d, f), b)
  }

  predicate HoldsAll(d: Attrs, conds: seq<Cond>) {
    forall i :: 0 <= i < |conds| ==> Holds(d, conds[i])
  }

  /** The two conditions of a closed range `[lo, hi]` on a numeric field. */
  function Between(field: string, lo: real, hi: real): (cs: seq<Cond>)
    ensures forall d :: HoldsAll(d, cs) <==> Get(d, field).Num? && lo <= Get(d, field).x <= hi
  {
    var cs := [AtLeast(field, Num(lo)), AtMost(field, Num(hi))];
    assert forall d :: HoldsAll(d, cs) <==> Holds(d, cs[0]) && Holds(d, cs[1]);
    cs
  }

  // ---------------------------------------------------------------------------
  // Range arguments

  function MinOf(xs: seq<real>): (m: real)
    requires |xs| > 0
    ensures m in xs
    ensures forall i :: 0 <= i < |xs| ==> m <= xs[i]
  {
    if |xs| == 1 then xs[0]
    else
      var rest := MinOf(xs[1..]);
      if xs[0] <= rest then xs[0] else rest
  }

  function MaxOf(xs: seq<real>): (m: real)
    requires |xs| > 0
    ensures m in xs
    ensures forall i :: 0 <= i < |xs| ==> xs[i] <= m
  {
    if |xs| == 1 then xs[0]
    else
      var rest := MaxOf(xs[1..]);
      if xs[0] >= rest then xs[0] else rest
  }

  predicate AllNumbers(r: seq<Value>) {
    forall i :: 0 <= i < |r| ==> r[i].Num?
  }

  function Numbers(r: seq<Value>): (xs: seq<real>)
    requires AllNumbers(r)
    ensures |xs| == |r| && forall i :: 0 <= i < |r| ==> xs[i] == r[i].x
  {
    seq(|r|, i requires 0 <= i < |r| => r[i].x)
  }

  datatype Range = Range(lo: real, hi: real)

  /** The argument check on a range argument (`r[0]` and `r[1]` must be numbers; indexing
      a shorter list raises IndexError), then `[min(r), max(r)]`. */
  function RangeOf(name: string, r: seq<Value>): (res: Result<Range>)
    ensures res.Ok? <==> |r| >= 2 && AllNumbers(r)
    ensures |r| < 2 && (|r| == 0 || r[0].Num?) ==> res == Err(IndexError)
    ensures |r| >= 1 && !r[0].Num? ==> res.Err? && res.error.AssertionFailed?
    ensures |r| >= 2 && r[0].Num? && !r[1].Num? ==> res.Err? && res.error.AssertionFailed?
    ensures res.Ok? ==> res.value.lo <= res.value.hi
    ensures res.Ok? ==> forall i :: 0 <= i < |r| ==> res.value.lo <= r[i].x <= res.value.hi
    ensures res.Ok? ==> exists i :: 0 <= i < |r| && r[i].x == res.value.lo
    ensures res.Ok? ==> exists j :: 0 <= j < |r| && r[j].x == res.value.hi
  {
    var message := "error," + name + " must None or a list of 2 numbers";
    if |r| == 0 then Err(IndexError)
    else if !r[0].Num? then Err(AssertionFailed(message))
    else if |r| == 1 then Err(IndexError)
    else if !r[1].Num? then Err(AssertionFailed(message))
    else if !AllNumbers(r) then Err(TypeError)
    else
      var xs := Numbers(r);
      var lo, hi := MinOf(xs), MaxOf(xs);
      assert exists i :: 0 <= i < |r| && r[i].x == lo by {
        var i :| 0 <= i < |xs| && xs[i] == lo;
      }
      assert exists j :: 0 <= j < |r| && r[j].x == hi by {
        var j :| 0 <= j < |xs| && xs[j] == hi;
      }
      Ok(Range(lo, hi))
  }

  /** The two bounds of a range argument may be given in either order. */
  lemma RangeOrderIrrelevant(name: string, a: real, b: real)
    ensures RangeOf(name, [Num(a), Num(b)]) == RangeOf(name, [Num(b), Num(a)])
    ensures RangeOf(name, [Num(a), Num(b)]) == Ok(Range(if a <= b then a else b, if a <= b then b else a))
  {
  }

  /** An optional range argument: `None` adds no condition. */
  function OptionalRange(name: string, r: Option<seq<Value>>): (res: Result<Option<Range>>)
    ensures r.None? ==> res == Ok(None)
    ensures r.Some? ==> (res.Ok? <==> RangeOf(name, r.value).Ok?)
    ensures r.Some? && res.Ok? ==> res.value == Some(RangeOf(name, r.value).value)
  {
    match r
    case None => Ok(None)
    case Some(v) =>
      var range :- RangeOf(name, v);
      Ok(Some(range))
  }

  /** The conditions an optional range contributes to the query. */
  function RangeConds(field: string, r: Option<Range>): (cs: seq<Cond>)
    ensures forall d :: HoldsAll(d, cs) <==> r.None? || (Get(d, field).Num? && r.value.lo <= Get(d, field).x <= r.value.hi)
  {
    match r
    case None => []
    case Some(range) => Between(field, range.lo, range.hi)
  }

  lemma HoldsAllAppend(d: Attrs, a: seq<Cond>, b: seq<Cond>)
    ensures HoldsAll(d, a + b) <==> HoldsAll(d, a) && HoldsAll(d, b)
  {
    if HoldsAll(d, a) && HoldsAll(d, b) {
      forall i | 0 <= i < |a + b| ensures Holds(d, (a + b)[i]) {
        if i >= |a| {
          assert (a + b)[i] == b[i - |a|];
        }
      }
    }
    if HoldsAll(d, a + b) {
      forall i | 0 <= i < |a| ensures Holds(d, a[i]) {
        assert (a + b)[i] == a[i];
      }
      forall i | 0 <= i < |b| ensures Holds(d, b[i]) {
        assert (a + b)[|a| + i] == b[i];
      }
    }
  }

  // ---------------------------------------------------------------------------
  // Selection and ordering

  /** The documents matching every condition. */
  function Selected(s: Store, conds: seq<Cond>): set<nat> {
    set id | id in s.docs && HoldsAll(s.docs[id], conds)
  }

  /** The sort key of `sort('time')`: documents without a date sort first. */
  function TimeKey(d: Attrs): (k: int)
    ensures DateOf(d, "time").Some? ==> k == DateOf(d, "time").value.micros
    ensures DateOf(d, "time").None? ==> k == -1
  {
    match DateOf(d, "time")
    case Some(t) => t.micros
    case None => -1
  }

  /** Cursor order: by time, and in insertion order among equal times. */
  predicate Before(s: Store, a: nat, b: nat)
    requires a in s.docs && b in s.docs
  {
    TimeKey(s.docs[a]) < TimeKey(s.docs[b]) || (TimeKey(s.docs[a]) == TimeKey(s.docs[b]) && a < b)
  }

  predicate InCursorOrder(s: Store, ids: seq<nat>) {
    && (forall i :: 0 <= i < |ids| ==> ids[i] in s.docs)
    && (forall i, j :: 0 <= i < j < |ids| ==> Before(s, ids[i], ids[j]))
  }

  /** Inserts `id` into a sequence in cursor order. */
  function InsertInOrder(s: Store, id: nat, ids: seq<nat>): (r: seq<nat>)
    requires id in s.docs && InCursorOrder(s, ids) && id !in ids
    ensures InCursorOrder(s, r)
    ensures forall x :: x in r <==> x == id || x in ids
  {
    if ids == [] then [id]
    else if Before(s, id, ids[0]) then
      assert forall j :: 0 <= j < |ids| ==> ids[j] == ids[0] || Before(s, ids[0], ids[j]);
      [id] + ids
    else
      var rest := InsertInOrder(s, id, ids[1..]);
      assert Before(s, ids[0], id);
      assert forall x :: x in ids[1..] ==> Before(s, ids[0], x);
      assert forall k :: 0 <= k < |rest| ==> rest[k] in rest;
      assert forall x :: x in ids <==> x == ids[0] || x in ids[1..];
      [ids[0]] + rest
  }

  /** `find(...).sort('time')`: the documents below `n` that match, in cursor order. */
  function SelectBelow(s: Store, conds: seq<Cond>, n: nat): (r: seq<nat>)
    ensures InCursorOrder(s, r)
    ensures forall id :: id in r <==> id < n && id in Selected(s, conds)
  {
    if n == 0 then []
    else
      var front := SelectBelow(s, conds, n - 1);
      if n - 1 in Selected(s, conds) then InsertInOrder(s, n - 1, front) else front
  }

  /** The matching documents, each once, in cursor order. */
  function Select(s: Store, conds: seq<Cond>): (r: seq<nat>)
    requires s.Valid()
    ensures InCursorOrder(s, r)
    ensures forall id :: id in r <==> id in Selected(s, conds)
    ensures forall i, j :: 0 <= i < j < |r| ==> r[i] != r[j]
  {
    SelectBelow(s, conds, s.next)
  }

  lemma SelectEmpty(s: Store, conds: seq<Cond>)
    requires s.Valid()
    ensures Select(s, conds) == [] <==> Selected(s, conds) == {}
  {
    if Selected(s, conds) != {} {
      var id :| id in Selected(s, conds);
      assert id in Select(s, conds);
    }
    if Select(s, conds) != [] {
      assert Select(s, conds)[0] in Selected(s, conds);
    }
  }

  /** The document a cursor yields: the stored content with its `_id`. */
  function Yielded(s: Store, id: nat): Attrs
    requires id in s.docs
  {
    s.docs[id][IdKey := Oid(id)]
  }

  /** `parseDb` of every yielded document onto a fresh record `init`, in order. */
  function Records(s: Store, ids: seq<nat>, init: Attrs): (r: Result<seq<Attrs>>)
    requires forall i :: 0 <= i < |ids| ==> ids[i] in s.docs
    ensures r.Ok? <==> forall i :: 0 <= i < |ids| ==> ParseDb(init, Yielded(s, ids[i])).Ok?
    ensures r.Ok? ==> |r.value| == |ids|
    ensures r.Ok? ==> forall i :: 0 <= i < |ids| ==> r.value[i] == ParseDb(init, Yielded(s, ids[i])).value
  {
    ParseAll(YieldedAll(s, ids), ParserOnto(init))
  }

  /** The documents a cursor over `ids` yields. */
  function YieldedAll(s: Store, ids: seq<nat>): (docs: seq<Attrs>)
    requires forall i :: 0 <= i < |ids| ==> ids[i] in s.docs
    ensures |docs| == |ids| && forall i :: 0 <= i < |ids| ==> docs[i] == Yielded(s, ids[i])
  {
    seq(|ids|, i requires 0 <= i < |ids| => Yielded(s, ids[i]))
  }

  function ParserOnto(init: Attrs): Attrs -> Result<Attrs> {
    doc => ParseDb(init, doc)
  }

  /** The loop over a cursor: each document parsed in turn; the first failure raises. */
  function ParseAll(docs: seq<Attrs>, parse: Attrs -> Result<Attrs>): (r: Result<seq<Attrs>>)
    ensures r.Ok? <==> forall i :: 0 <= i < |docs| ==> parse(docs[i]).Ok?
    ensures r.Ok? ==> |r.value| == |docs| && forall i :: 0 <= i < |docs| ==> r.value[i] == parse(docs[i]).value
  {
    if docs == [] then Ok([])
    else
      var first :- parse(docs[0]);
      assert forall i :: 1 <= i < |docs| ==> docs[i] == docs[1..][i - 1];
      var rest :- ParseAll(docs[1..], parse);
      Ok([first] + rest)
  }

  /** A record parsed from a document sorts where the document did, provided the fresh
      record has no date of its own. */
  lemma RecordTimeKey(init: Attrs, doc: Attrs, rec: Attrs)
    requires DateOf(init, "time").None?
    requires ParseDb(init, doc) == Ok(rec)
    ensures TimeKey(rec) == TimeKey(doc)
  {
  }

  /** `out` holds the records parsed onto `init` from the documents `ids`, in that order,
      where `ids` lists every document of `sel` exactly once and no other, and the
      records are sorted by time. */
  ghost predicate AnswersBy(s: Store, sel: set<nat>, init: Attrs, out: seq<Attrs>, ids: seq<nat>) {
    && |ids| == |out|
    && (forall i, j :: 0 <= i < j < |ids| ==> ids[i] != ids[j])
    && (forall id :: id in ids <==> id in sel)
    && (forall i :: 0 <= i < |ids| ==> ids[i] in s.docs && ParseDb(init, Yielded(s, ids[i])) == Ok(out[i]))
    && (forall i, j :: 0 <= i < j < |out| ==> TimeKey(out[i]) <= TimeKey(out[j]))
  }

  /** A list of records answers for a set of documents: one record per document, each
      document's record once, sorted by time. */
  ghost predicate Answers(s: Store, sel: set<nat>, init: Attrs, out: seq<Attrs>) {
    && |out| == |sel|
    && exists ids :: AnswersBy(s, sel, init, out, ids)
  }

  /** Every selected document's record is in an answer. */
  lemma AnswersComplete(s: Store, sel: set<nat>, init: Attrs, out: seq<Attrs>, id: nat)
    requires Answers(s, sel, init, out)
    requires id in sel
    ensures id in s.docs && ParseDb(init, Yielded(s, id)).Ok?
    ensures exists i :: 0 <= i < |out| && out[i] == ParseDb(init, Yielded(s, id)).value
  {
    var ids :| AnswersBy(s, sel, init, out, ids);
    var i :| 0 <= i < |ids| && ids[i] == id;
    assert out[i] == ParseDb(init, Yielded(s, id)).value;
  }

  /** The query step of `readDst` and `readTec`: `None` when nothing matches; otherwise
      one record per matching document, sorted by time. */
  function Fetch(s: Store, conds: seq<Cond>, init: Attrs): (r: Result<Option<seq<Attrs>>>)
    requires s.Valid()
    requires DateOf(init, "time").None?
    ensures r == Ok(None) <==> Selected(s, conds) == {}
    ensures r.Ok? && r.value.Some? ==> Answers(s, Selected(s, conds), init, r.value.value)
  {
    var ids := Select(s, conds);
    SelectEmpty(s, conds);
    if ids == [] then Ok(None)
    else
      var recs :- Records(s, ids, init);
      RecordsAnswer(s, conds, init);
      Ok(Some(recs))
  }

  /** The records of the selected documents, in cursor order, answer for the selection. */
  lemma RecordsAnswer(s: Store, conds: seq<Cond>, init: Attrs)
    requires s.Valid()
    requires DateOf(init, "time").None?
    requires Records(s, Select(s, conds), init).Ok?
    ensures Answers(s, Selected(s, conds), init, Records(s, Select(s, conds), init).value)
  {
    var ids := Select(s, conds);
    var recs := Records(s, ids, init).value;
    SelectedCount(s, conds);
    RecordsSorted(s, conds, init);
    assert AnswersBy(s, Selected(s, conds), init, recs, ids);
  }

  /** The records keep the cursor's time order. */
  lemma RecordsSorted(s: Store, conds: seq<Cond>, init: Attrs)
    requires s.Valid()
    requires DateOf(init, "time").None?
    requires Records(s, Select(s, conds), init).Ok?
    ensures var recs := Records(s, Select(s, conds), init).value;
            forall i, j :: 0 <= i < j < |recs| ==> TimeKey(recs[i]) <= TimeKey(recs[j])
  {
    var ids := Select(s, conds);
    var recs := Records(s, ids, init).value;
    forall i | 0 <= i < |recs| ensures TimeKey(recs[i]) == TimeKey(s.docs[ids[i]]) {
      RecordTimeKey(init, Yielded(s, ids[i]), recs[i]);
    }
  }

  /** The query step fails exactly when some matching document does not parse onto
      the fresh record. */
  lemma FetchFails(s: Store, conds: seq<Cond>, init: Attrs)
    requires s.Valid()
    requires DateOf(init, "time").None?
    ensures Fetch(s, conds, init).Err? <==> exists id :: id in Selected(s, conds) && ParseDb(init, Yielded(s, id)).Err?
  {
    var ids := Select(s, conds);
    SelectEmpty(s, conds);
    if Fetch(s, conds, init).Err? {
      var i :| 0 <= i < |ids| && ParseDb(init, Yielded(s, ids[i])).Err?;
      assert ids[i] in Selected(s, conds);
    }
    if exists id :: id in Selected(s, conds) && ParseDb(init, Yielded(s, id)).Err? {
      var id :| id in Selected(s, conds) && ParseDb(init, Yielded(s, id)).Err?;
      var i :| 0 <= i < |ids| && ids[i] == id;
      assert !Records(s, ids, init).Ok?;
    }
  }

  lemma SelectedCount(s: Store, conds: seq<Cond>)
    requires s.Valid()
    ensures |Select(s, conds)| == |Selected(s, conds)|
  {
    var r := Select(s, conds);
    DistinctCard(r);
    assert Elems(r) == Selected(s, conds);
  }

  lemma {:induction false} DistinctCard(r: seq<nat>)
    requires forall i, j :: 0 <= i < j < |r| ==> r[i] != r[j]
    ensures |Elems(r)| == |r|
  {
    if r != [] {
      var rest := r[1..];
      DistinctCard(rest);
      assert Elems(r) == {r[0]} + Elems(rest);
      assert forall i :: 0 <= i < |rest| ==> rest[i] == r[i + 1];
      assert r[0] !in Elems(rest);
    }
  }
}

=== FILE: results.dfy ===
/** Failure-compatible wrappers shared by every module of the model, and the
    exception kinds the modelled Python code can raise. */
module Results {

  /** A value that may be absent (Python `None`). */
  datatype Option<+T> = None | Some(value: T) {

    predicate IsFailure() {
      None?
    }

    function PropagateFailure<U>(): Option<U>
      requires None?
    {
      None
    }

    function Extract(): T
      requires Some?
    {
      value
    }

    /** The value, or `default` when absent (Python's `x if x is not None else default`). */
    function GetOr(default: T): T {
      match this
      case Some(v) => v
      case None => default
    }
  }

  /** The exception classes the modelled code raises (or lets propagate). */
  datatype Error =
    | AssertionFailed(message: string)
    | ValueError
    | IndexError
    | TypeError
    | AttributeError
    | OverflowError

  /** A computation that either returns a value or raises an exception. */
  datatype Result<+T> = Ok(value: T) | Err(error: Error) {

    predicate IsFailure() {
      Err?
    }

    function PropagateFailure<U>(): Result<U>
      requires Err?
    {
      Err(error)
    }

    function Extract(): T
      requires Ok?
    {
      value
    }
  }

  /** Turns an absent value into the exception the source raises for it. */
  function Need<T>(o: Option<T>, e: Error): (r: Result<T>)
    ensures r.Ok? <==> o.Some?
    ensures r.Ok? ==> r.value == o.value
    ensures r.Err? ==> r.error == e
  {
    match o
    case Some(v) => Ok(v)
    case None => Err(e)
  }
}

=== FILE: store.dfy ===
/** The document collection the ingestion functions write to, and the
    reconciliation step `mapDstMongo` and `mapTecMongo` perform for every
    downloaded record: look up the documents whose natural-key fields equal the
    record's, then insert (no match), replace keeping the `_id` (one match) or
    leave the collection alone (more than one match).

    A collection is a finite map from document id to document content; the id
    plays the part of the `_id` field, and `next` is the id the next insert
    receives, so ids are never reused. */
module Store {
  import opened Results
  import opened Values

  datatype Store = Store(docs: map<nat, Attrs>, next: nat) {
    /** Every stored id was handed out before `next`. */
    predicate Valid() {
      forall id :: id in docs ==> id < next
    }
  }

  const Empty := Store(map[], 0)

  /** The values of the key fields in a document; a missing field reads as null. */
  function KeyOf(fields: seq<string>, d: Attrs): (k: seq<Value>)
    ensures |k| == |fields|
    ensures forall i :: 0 <= i < |fields| ==> k[i] == Get(d, fields[i])
  {
    seq(|fields|, i requires 0 <= i < |fields| => Get(d, fields[i]))
  }

  /** The ids of the documents whose key fields equal `key`. */
  function Matching(s: Store, fields: seq<string>, key: seq<Value>): set<nat> {
    set id | id in s.docs && KeyOf(fields, s.docs[id]) == key
  }

  /** `find` with an equality query on the key fields, in insertion order: the
      matching ids below `n`, ascending. */
  function FindBelow(s: Store, fields: seq<string>, key: seq<Value>, n: nat): (r: seq<nat>)
    ensures forall id :: id in r <==> id < n && id in Matching(s, fields, key)
    ensures forall i, j :: 0 <= i < j < |r| ==> r[i] < r[j]
  {
    if n == 0 then []
    else
      var front := FindBelow(s, fields, key, n - 1);
      assert forall i :: 0 <= i < |front| ==> front[i] in front;
      if n - 1 in Matching(s, fields, key) then front + [n - 1] else front
  }

  function Find(s: Store, fields: seq<string>, key: seq<Value>): (r: seq<nat>)
    ensures forall id :: id in r <==> id < s.next && id in Matching(s, fields, key)
    ensures forall i, j :: 0 <= i < j < |r| ==> r[i] < r[j]
  {
    FindBelow(s, fields, key, s.next)
  }

  /** The ids a cursor yields, as a set. */
  function Elems(r: seq<nat>): set<nat> {
    set x | x in r
  }

  lemma {:induction false} AscendingCard(r: seq<nat>)
    requires forall i, j :: 0 <= i < j < |r| ==> r[i] < r[j]
    ensures |Elems(r)| == |r|
  {
    if r != [] {
      var rest := r[1..];
      AscendingCard(rest);
      assert Elems(r) == {r[0]} + Elems(rest);
      assert forall i :: 0 <= i < |rest| ==> rest[i] == r[i + 1];
      assert r[0] !in Elems(rest);
    }
  }

  /** `find(...).count()` counts exactly the matching documents, and the ids the cursor
      yields are the matching ones. */
  lemma FindIsMatching(s: Store, fields: seq<string>, key: seq<Value>)
    requires s.Valid()
    ensures Elems(Find(s, fields, key)) == Matching(s, fields, key)
    ensures |Find(s, fields, key)| == |Matching(s, fields, key)|
  {
    AscendingCard(Find(s, fields, key));
  }

  datatype Outcome =
    | Inserted(id: nat)      // no document had the key: the record was inserted
    | Replaced(id: nat)      // one document had the key: its content was replaced, its id kept
    | Skipped(count: nat)    // several documents had the key: nothing was written

  datatype Step = Step(store: Store, outcome: Outcome)

  /** Reconciles one projected record `doc` with the collection on the key `fields`. */
  function Upsert(s: Store, fields: seq<string>, doc: Attrs): (r: Step)
    requires s.Valid()
    ensures r.store.Valid()
    ensures var m := Matching(s, fields, KeyOf(fields, doc));
            && (r.outcome.Inserted? <==> |m| == 0)
            && (r.outcome.Replaced? <==> |m| == 1)
            && (r.outcome.Skipped? <==> |m| > 1)
    ensures r.outcome.Inserted? ==>
              && r.outcome.id !in s.docs
              && r.store.docs == s.docs[r.outcome.id := doc]
    ensures r.outcome.Replaced? ==>
              && Matching(s, fields, KeyOf(fields, doc)) == {r.outcome.id}
              && r.store.docs == s.docs[r.outcome.id := doc]
              && r.store.next == s.next
    ensures r.outcome.Skipped? ==>
              && r.store == s
              && r.outcome.count == |Matching(s, fields, KeyOf(fields, doc))|
  {
    var key := KeyOf(fields, doc);
    var found := Find(s, fields, key);
    FindIsMatching(s, fields, key);
    if |found| == 0 then
      Step(Store(s.docs[s.next := doc], s.next + 1), Inserted(s.next))
    else if |found| == 1 then
      assert Elems(found) == {found[0]};
      Step(Store(s.docs[found[0] := doc], s.next), Replaced(found[0]))
    else
      Step(s, Skipped(|found|))
  }

  /** No two documents share a key. */
  predicate UniqueKeys(s: Store, fields: seq<string>) {
    forall i, j :: i in s.docs && j in s.docs && KeyOf(fields, s.docs[i]) == KeyOf(fields, s.docs[j]) ==> i == j
  }

  lemma AtMostOneMatch(s: Store, fields: seq<string>, key: seq<Value>)
    requires UniqueKeys(s, fields)
    ensures |Matching(s, fields, key)| <= 1
  {
    var m := Matching(s, fields, key);
    if m != {} {
      var a :| a in m;
      assert m == {a};
    }
  }

  /** After the step the record is stored under its key, unless the key was already ambiguous. */
  lemma UpsertStores(s: Store, fields: seq<string>, doc: Attrs)
    requires s.Valid()
    ensures var r := Upsert(s, fields, doc);
            !r.outcome.Skipped? ==> r.outcome.id in r.store.docs && r.store.docs[r.outcome.id] == doc
    ensures Matching(Upsert(s, fields, doc).store, fields, KeyOf(fields, doc)) != {}
  {
    var r := Upsert(s, fields, doc);
    var key := KeyOf(fields, doc);
    if r.outcome.Skipped? {
      var m := Matching(s, fields, key);
      assert |m| > 1;
    } else {
      assert r.outcome.id in Matching(r.store, fields, key);
    }
  }

  /** Documents under any other key are untouched: the set of matches for a different key
      is the same before and after. */
  lemma UpsertKeepsOtherKeys(s: Store, fields: seq<string>, doc: Attrs, other: seq<Value>)
    requires s.Valid()
    requires other != KeyOf(fields, doc)
    ensures Matching(Upsert(s, fields, doc).store, fields, other) == Matching(s, fields, other)
    ensures forall id :: id in Matching(s, fields, other) ==> Upsert(s, fields, doc).store.docs[id] == s.docs[id]
  {
  }

  /** Writing the same record twice has the effect of writing it once. */
  lemma UpsertIdempotent(s: Store, fields: seq<string>, doc: Attrs)
    requires s.Valid()
    ensures var once := Upsert(s, fields, doc).store;
            Upsert(once, fields, doc).store == once
  {
    var r := Upsert(s, fields, doc);
    var once := r.store;
    var key := KeyOf(fields, doc);
    var r2 := Upsert(once, fields, doc);
    if r.outcome.Inserted? {
      assert Matching(once, fields, key) == {r.outcome.id};
    } else if r.outcome.Replaced? {
      assert Matching(once, fields, key) == {r.outcome.id};
    }
  }

  /** The step keeps keys unique, and the record's key then names exactly one document. */
  lemma UpsertKeepsUnique(s: Store, fields: seq<string>, doc: Attrs)
    requires s.Valid() && UniqueKeys(s, fields)
    ensures UniqueKeys(Upsert(s, fields, doc).store, fields)
    ensures |Matching(Upsert(s, fields, doc).store, fields, KeyOf(fields, doc))| == 1
  {
    UpsertWritesOne(s, fields, doc);
    var r := Upsert(s, fields, doc);
    UniqueAfterWrite(s, r.store, fields, r.outcome.id, doc);
  }

  /** With unique keys, the step writes the record under one id, which is the only
      document that had its key, if any did. */
  lemma UpsertWritesOne(s: Store, fields: seq<string>, doc: Attrs)
    requires s.Valid() && UniqueKeys(s, fields)
    ensures var r := Upsert(s, fields, doc);
            && !r.outcome.Skipped?
            && r.store.docs == s.docs[r.outcome.id := doc]
            && Matching(s, fields, KeyOf(fields, doc)) <= {r.outcome.id}
  {
    AtMostOneMatch(s, fields, KeyOf(fields, doc));
  }

  /** Writing a record under the only id that held its key keeps keys unique, and that
      id is then the only match. */
  lemma UniqueAfterWrite(s: Store, t: Store, fields: seq<string>, id: nat, doc: Attrs)
    requires UniqueKeys(s, fields) && t.docs == s.docs[id := doc]
    requires Matching(s, fields, KeyOf(fields, doc)) <= {id}
    ensures UniqueKeys(t, fields)
    ensures Matching(t, fields, KeyOf(fields, doc)) == {id}
  {
    var key := KeyOf(fields, doc);
    forall i | i in t.docs && i != id
      ensures KeyOf(fields, t.docs[i]) != key
    {
      assert i in s.docs && t.docs[i] == s.docs[i];
      assert i !in Matching(s, fields, key);
    }
  }

  // ---------------------------------------------------------------------------
  // A batch of records

  datatype Batch = Batch(store: Store, outcomes: seq<Outcome>)

  /** Reconciles the records one after another, in order. */
  function UpsertAll(s: Store, fields: seq<string>, docs: seq<Attrs>): (r: Batch)
    requires s.Valid()
    ensures r.store.Valid()
    ensures |r.outcomes| == |docs|
    ensures r.store.next >= s.next
    ensures forall id :: id in s.docs ==> id in r.store.docs
    decreases |docs|
  {
    if docs == [] then Batch(s, [])
    else
      var step := Upsert(s, fields, docs[0]);
      var rest := UpsertAll(step.store, fields, docs[1..]);
      Batch(rest.store, [step.outcome] + rest.outcomes)
  }

  /** The keys of a batch of records. */
  function KeysOf(fields: seq<string>, docs: seq<Attrs>): set<seq<Value>> {
    set i | 0 <= i < |docs| :: KeyOf(fields, docs[i])
  }

  /** The last record of the batch with the given key, the one whose content survives. */
  function LastWithKey(fields: seq<string>, docs: seq<Attrs>, key: seq<Value>): (r: Option<Attrs>)
    ensures r.Some? <==> key in KeysOf(fields, docs)
    ensures r.Some? ==> KeyOf(fields, r.value) == key
  {
    if docs == [] then None
    else
      var later := LastWithKey(fields, docs[1..], key);
      assert KeysOf(fields, docs) == {KeyOf(fields, docs[0])} + KeysOf(fields, docs[1..]) by {
        forall k | k in KeysOf(fields, docs) ensures k in {KeyOf(fields, docs[0])} + KeysOf(fields, docs[1..]) {
          var i :| 0 <= i < |docs| && KeyOf(fields, docs[i]) == k;
          if i > 0 {
            assert docs[1..][i - 1] == docs[i];
          }
        }
        forall k | k in KeysOf(fields, docs[1..]) ensures k in KeysOf(fields, docs) {
          var i :| 0 <= i < |docs[1..]| && KeyOf(fields, docs[1..][i]) == k;
          assert docs[1..][i] == docs[i + 1];
        }
      }
      if later.Some? then later
      else if KeyOf(fields, docs[0]) == key then Some(docs[0])
      else None
  }

  /** How a collection with unique keys evolves from `s` to `t` under a batch: the
      shape of the change and the content it leaves. */
  ghost predicate Evolves(s: Store, t: Store, fields: seq<string>, docs: seq<Attrs>) {
    Shape(s, t, fields, docs) && Content(t, fields, docs)
  }

  /** Ids only grow, fresh ids come from the counter, every old document keeps its key,
      a document whose key the batch does not mention is untouched, and every new
      document holds a key of the batch. */
  ghost predicate Shape(s: Store, t: Store, fields: seq<string>, docs: seq<Attrs>) {
    && t.next >= s.next
    && (forall id :: id in t.docs <==> id in s.docs || s.next <= id < t.next)
    && (forall id :: id in s.docs ==> KeyOf(fields, t.docs[id]) == KeyOf(fields, s.docs[id]))
    && (forall id :: id in s.docs && KeyOf(fields, s.docs[id]) !in KeysOf(fields, docs) ==> t.docs[id] == s.docs[id])
    && (forall id :: s.next <= id < t.next ==> id in t.docs && KeyOf(fields, t.docs[id]) in KeysOf(fields, docs))
  }

  /** Keys stay unique, each key of the batch names a document, and that document holds
      the last record with that key. */
  ghost predicate Content(t: Store, fields: seq<string>, docs: seq<Attrs>) {
    && UniqueKeys(t, fields)
    && (forall id :: id in t.docs && KeyOf(fields, t.docs[id]) in KeysOf(fields, docs) ==>
          t.docs[id] == LastWithKey(fields, docs, KeyOf(fields, t.docs[id])).value)
    && (forall k :: k in KeysOf(fields, docs) ==> Matching(t, fields, k) != {})
  }

  lemma KeysOfOne(fields: seq<string>, doc: Attrs)
    ensures KeysOf(fields, [doc]) == {KeyOf(fields, doc)}
    ensures LastWithKey(fields, [doc], KeyOf(fields, doc)) == Some(doc)
  {
    assert KeyOf(fields, [doc][0]) == KeyOf(fields, doc);
    assert [doc][1..] == [];
  }

  lemma KeysOfCons(fields: seq<string>, doc: Attrs, rest: seq<Attrs>)
    ensures KeysOf(fields, [doc] + rest) == {KeyOf(fields, doc)} + KeysOf(fields, rest)
    ensures forall k :: LastWithKey(fields, [doc] + rest, k)
                     == if LastWithKey(fields, rest, k).Some? then LastWithKey(fields, rest, k)
                        else if KeyOf(fields, doc) == k then Some(doc) else None
  {
    var docs := [doc] + rest;
    assert docs[0] == doc && docs[1..] == rest;
    var _ := LastWithKey(fields, docs, KeyOf(fields, doc));
  }

  lemma EvolvesOne(s: Store, fields: seq<string>, doc: Attrs)
    requires s.Valid() && UniqueKeys(s, fields)
    ensures Evolves(s, Upsert(s, fields, doc).store, fields, [doc])
  {
    EvolvesOneShape(s, fields, doc);
    EvolvesOneContent(s, fields, doc);
  }

  lemma EvolvesOneShape(s: Store, fields: seq<string>, doc: Attrs)
    requires s.Valid() && UniqueKeys(s, fields)
    ensures Shape(s, Upsert(s, fields, doc).store, fields, [doc])
  {
    AtMostOneMatch(s, fields, KeyOf(fields, doc));
    UpsertStores(s, fields, doc);
    KeysOfOne(fields, doc);
  }

  lemma EvolvesOneContent(s: Store, fields: seq<string>, doc: Attrs)
    requires s.Valid() && UniqueKeys(s, fields)
    ensures Content(Upsert(s, fields, doc).store, fields, [doc])
  {
    AtMostOneMatch(s, fields, KeyOf(fields, doc));
    UpsertKeepsUnique(s, fields, doc);
    UpsertStores(s, fields, doc);
    KeysOfOne(fields, doc);
  }

  lemma EvolvesCompose(s: Store, s1: Store, t: Store, fields: seq<string>, doc: Attrs, rest: seq<Attrs>)
    requires s.Valid() && s1.Valid()
    requires Evolves(s, s1, fields, [doc]) && Evolves(s1, t, fields, rest)
    ensures Evolves(s, t, fields, [doc] + rest)
  {
    KeysOfOne(fields, doc);
    KeysOfCons(fields, doc, rest);
    ComposeShape(s, s1, t, fields, doc, rest);
    ComposeContent(s, s1, t, fields, doc, rest);
  }

  lemma ComposeShape(s: Store, s1: Store, t: Store, fields: seq<string>, doc: Attrs, rest: seq<Attrs>)
    requires s.Valid() && s1.Valid()
    requires KeysOf(fields, [doc]) == {KeyOf(fields, doc)}
    requires KeysOf(fields, [doc] + rest) == {KeyOf(fields, doc)} + KeysOf(fields, rest)
    requires Shape(s, s1, fields, [doc]) && Shape(s1, t, fields, rest)
    ensures Shape(s, t, fields, [doc] + rest)
  {
    var docs := [doc] + rest;
    forall id | s.next <= id < t.next
      ensures id in t.docs && KeyOf(fields, t.docs[id]) in KeysOf(fields, docs)
    {
      if id < s1.next {
        assert id in s1.docs;
      }
    }
  }

  lemma ComposeContent(s: Store, s1: Store, t: Store, fields: seq<string>, doc: Attrs, rest: seq<Attrs>)
    requires s.Valid() && s1.Valid()
    requires KeysOf(fields, [doc]) == {KeyOf(fields, doc)}
    requires KeysOf(fields, [doc] + rest) == {KeyOf(fields, doc)} + KeysOf(fields, rest)
    requires forall k :: LastWithKey(fields, [doc] + rest, k)
                      == if LastWithKey(fields, rest, k).Some? then LastWithKey(fields, rest, k)
                         else if KeyOf(fields, doc) == k then Some(doc) else None
    requires LastWithKey(fields, [doc], KeyOf(fields, doc)) == Some(doc)
    requires Evolves(s, s1, fields, [doc]) && Evolves(s1, t, fields, rest)
    ensures Content(t, fields, [doc] + rest)
  {
    var docs := [doc] + rest;
    var key := KeyOf(fields, doc);
    forall id | id in t.docs && KeyOf(fields, t.docs[id]) in KeysOf(fields, docs)
      ensures t.docs[id] == LastWithKey(fields, docs, KeyOf(fields, t.docs[id])).value
    {
      var k := KeyOf(fields, t.docs[id]);
      if k !in KeysOf(fields, rest) {
        assert k == key;
        assert id in s1.docs;
      }
    }
    forall k | k in KeysOf(fields, docs)
      ensures Matching(t, fields, k) != {}
    {
      if k !in KeysOf(fields, rest) {
        var id :| id in Matching(s1, fields, k);
        assert id in Matching(t, fields, k);
      }
    }
  }

  lemma {:induction false} UpsertAllEvolves(s: Store, fields: seq<string>, docs: seq<Attrs>)
    requires s.Valid() && UniqueKeys(s, fields)
    ensures Evolves(s, UpsertAll(s, fields, docs).store, fields, docs)
    decreases |docs|
  {
    if docs == [] {
      assert KeysOf(fields, docs) == {};
    } else {
      var s1 := Upsert(s, fields, docs[0]).store;
      assert [docs[0]] + docs[1..] == docs;
      EvolvesOne(s, fields, docs[0]);
      UpsertKeepsUnique(s, fields, docs[0]);
      UpsertAllEvolves(s1, fields, docs[1..]);
      EvolvesCompose(s, s1, UpsertAll(s, fields, docs).store, fields, docs[0], docs[1..]);
    }
  }

  /** A second run over a collection that already holds every key of the batch inserts nothing. */
  lemma SecondRunInsertsNothing(t: Store, u: Store, fields: seq<string>, docs: seq<Attrs>)
    requires t.Valid() && Evolves(t, u, fields, docs)
    requires forall k :: k in KeysOf(fields, docs) ==> Matching(t, fields, k) != {}
    ensures u.next == t.next && u.docs.Keys == t.docs.Keys
  {
    if u.next > t.next {
      var k := KeyOf(fields, u.docs[t.next]);
      assert false;
    }
  }

  /** A second run rewrites each batch key's document with the content it already holds. */
  lemma SecondRunRewritesNothing(t: Store, u: Store, fields: seq<string>, docs: seq<Attrs>)
    requires Evolves(t, u, fields, docs) && u.docs.Keys == t.docs.Keys
    requires forall id :: id in t.docs && KeyOf(fields, t.docs[id]) in KeysOf(fields, docs) ==>
               t.docs[id] == LastWithKey(fields, docs, KeyOf(fields, t.docs[id])).value
    ensures u.docs == t.docs
  {
    forall id | id in t.docs
      ensures u.docs[id] == t.docs[id]
    {
      var k := KeyOf(fields, t.docs[id]);
      if k in KeysOf(fields, docs) {
        assert KeyOf(fields, u.docs[id]) == k;
      }
    }
  }

  /** Re-running a batch on the collection it produced writes nothing new: with unique
      keys, a second run inserts no document and leaves every content as it was. */
  lemma UpsertAllIdempotent(s: Store, fields: seq<string>, docs: seq<Attrs>)
    requires s.Valid() && UniqueKeys(s, fields)
    ensures var t := UpsertAll(s, fields, docs).store;
            UpsertAll(t, fields, docs).store == t
  {
    var t := UpsertAll(s, fields, docs).store;
    UpsertAllEvolves(s, fields, docs);
    UpsertAllEvolves(t, fields, docs);
    var u := UpsertAll(t, fields, docs).store;
    SecondRunInsertsNothing(t, u, fields, docs);
    SecondRunRewritesNothing(t, u, fields, docs);
  }
}

=== FILE: sync.dfy ===
/** The write loop shared by `mapDstMongo` and `mapTecMongo`: for every year of an
    inclusive range, fetch that year's records from the remote source, read each
    record's key attributes for the duplicate query, project it with `toDbDict`, and
    reconcile it with the collection on that key.

    An exception anywhere (a failed fetch, an empty fetch that leaves `None` to be
    iterated, a record without a key attribute, a record that does not project) ends
    the run; documents written before it stay written, as they do in the store. */
module Sync {
  import opened Results
  import opened Values
  import opened GmeBase
  import opened Store

  datatype Run = Run(store: Store, outcomes: seq<Outcome>, error: Option<Error>)

  /** What the loop body does to a record before writing: read its key attributes for
      the duplicate query (AttributeError when the record lacks one), then `toDbDict`. */
  function Prepared(fields: seq<string>, rec: Attrs): (r: Result<Attrs>)
    ensures (exists i :: 0 <= i < |fields| && fields[i] !in rec) ==> r == Err(AttributeError)
    ensures (forall i :: 0 <= i < |fields| ==> fields[i] in rec) ==> r == ToDbDict(rec)
  {
    if forall i :: 0 <= i < |fields| ==> fields[i] in rec then ToDbDict(rec) else Err(AttributeError)
  }

  /** The index of the first record `toDbDict` rejects, or the length when none is. */
  function FirstUnprojectable(fields: seq<string>, recs: seq<Attrs>): (n: nat)
    ensures n <= |recs|
    ensures forall i :: 0 <= i < n ==> Prepared(fields, recs[i]).Ok?
    ensures n < |recs| ==> Prepared(fields, recs[n]).Err?
  {
    if recs == [] || Prepared(fields, recs[0]).Err? then 0 else 1 + FirstUnprojectable(fields, recs[1..])
  }

  predicate AllProjectable(fields: seq<string>, recs: seq<Attrs>) {
    forall i :: 0 <= i < |recs| ==> Prepared(fields, recs[i]).Ok?
  }

  /** The documents `toDbDict` makes of a batch of records. */
  function Projections(fields: seq<string>, recs: seq<Attrs>): (docs: seq<Attrs>)
    requires AllProjectable(fields, recs)
    ensures |docs| == |recs|
    ensures forall i :: 0 <= i < |recs| ==> docs[i] == ToDbDict(recs[i]).value
  {
    seq(|recs|, i requires 0 <= i < |recs| => Prepared(fields, recs[i]).value)
  }

  /** The inner loop over one year's records: project, then reconcile, one after the
      other; the first record that does not project ends the loop with its exception. */
  function WriteRecords(s: Store, fields: seq<string>, recs: seq<Attrs>): (r: Run)
    requires s.Valid()
    ensures r.store.Valid()
    ensures r.error.None? <==> AllProjectable(fields, recs)
    decreases |recs|
  {
    if recs == [] then Run(s, [], None)
    else
      match Prepared(fields, recs[0])
      case Err(e) => Run(s, [], Some(e))
      case Ok(doc) =>
        var step := Upsert(s, fields, doc);
        var rest := WriteRecords(step.store, fields, recs[1..]);
        assert AllProjectable(fields, recs) <==> AllProjectable(fields, recs[1..]) by {
          if AllProjectable(fields, recs[1..]) {
            forall i | 1 <= i < |recs| ensures Prepared(fields, recs[i]).Ok? {
              assert recs[i] == recs[1..][i - 1];
            }
          }
        }
        Run(rest.store, [step.outcome] + rest.outcomes, rest.error)
  }

  /** The loop's effect is the batch reconciliation of the records before the first one
      that does not project, and that record's exception is the loop's error. */
  lemma {:induction false} WriteRecordsIsBatch(s: Store, fields: seq<string>, recs: seq<Attrs>)
    requires s.Valid()
    ensures var n := FirstUnprojectable(fields, recs);
            var r := WriteRecords(s, fields, recs);
            && r.store == UpsertAll(s, fields, Projections(fields, recs[..n])).store
            && r.outcomes == UpsertAll(s, fields, Projections(fields, recs[..n])).outcomes
            && (r.error.Some? ==> r.error.value == Prepared(fields, recs[n]).error)
    decreases |recs|
  {
    var n := FirstUnprojectable(fields, recs);
    if recs != [] && Prepared(fields, recs[0]).Ok? {
      var doc := Prepared(fields, recs[0]).value;
      var s1 := Upsert(s, fields, doc).store;
      WriteRecordsIsBatch(s1, fields, recs[1..]);
      ProjectionsCons(fields, recs);
    } else {
      assert recs[..n] == [];
    }
  }

  /** The projections of the records before the first unprojectable one, split off the first record. */
  lemma ProjectionsCons(fields: seq<string>, recs: seq<Attrs>)
    requires recs != [] && Prepared(fields, recs[0]).Ok?
    ensures var n := FirstUnprojectable(fields, recs);
            && n >= 1 && FirstUnprojectable(fields, recs[1..]) == n - 1
            && Projections(fields, recs[..n])
               == [Prepared(fields, recs[0]).value] + Projections(fields, recs[1..][..n - 1])
  {
    var n := FirstUnprojectable(fields, recs);
    var docs := Projections(fields, recs[..n]);
    assert recs[..n][1..] == recs[1..][..n - 1];
    assert docs[1..] == Projections(fields, recs[1..][..n - 1]);
  }

  /** What a year's fetch delivers when it succeeds: a list of records, every one of which projects. */
  predicate Delivers(fields: seq<string>, got: Result<Option<seq<Attrs>>>) {
    got.Ok? && got.value.Some? && AllProjectable(fields, got.value.value)
  }

  /** Every year from `y` through `e` delivers. */
  predicate AllDeliver(fields: seq<string>, fetch: int -> Result<Option<seq<Attrs>>>, y: int, e: int) {
    forall yr :: y <= yr <= e ==> Delivers(fields, fetch(yr))
  }

  /** The documents a fully successful run writes, year after year. */
  function AllDocs(fields: seq<string>, fetch: int -> Result<Option<seq<Attrs>>>, y: int, e: int): seq<Attrs>
    requires AllDeliver(fields, fetch, y, e)
    decreases e - y + 1
  {
    if y > e then [] else Projections(fields, fetch(y).value.value) + AllDocs(fields, fetch, y + 1, e)
  }

  /** `for yr in range(y, e + 1)`: fetch, then write; the first exception ends the run. */
  function SyncYears(s: Store, fields: seq<string>, fetch: int -> Result<Option<seq<Attrs>>>, y: int, e: int): (r: Run)
    requires s.Valid()
    ensures r.store.Valid()
    ensures r.error.None? <==> AllDeliver(fields, fetch, y, e)
    ensures r.error.Some? ==> exists yr :: y <= yr <= e && !Delivers(fields, fetch(yr))
    decreases e - y + 1
  {
    if y > e then Run(s, [], None)
    else
      match fetch(y)
      case Err(err) => Run(s, [], Some(err))
      case Ok(None) => Run(s, [], Some(TypeError))
      case Ok(Some(recs)) =>
        var w := WriteRecords(s, fields, recs);
        if w.error.Some? then w
        else
          var rest := SyncYears(w.store, fields, fetch, y + 1, e);
          Run(rest.store, w.outcomes + rest.outcomes, rest.error)
  }

  lemma {:induction false} UpsertAllAppend(s: Store, fields: seq<string>, a: seq<Attrs>, b: seq<Attrs>)
    requires s.Valid()
    ensures UpsertAll(s, fields, a + b).store == UpsertAll(UpsertAll(s, fields, a).store, fields, b).store
    decreases |a|
  {
    if a != [] {
      assert (a + b)[0] == a[0];
      assert (a + b)[1..] == a[1..] + b;
      UpsertAllAppend(Upsert(s, fields, a[0]).store, fields, a[1..], b);
    } else {
      assert a + b == b;
    }
  }

  /** A run in which every year delivers writes exactly the batch of all the years'
      documents, in year order. */
  lemma {:induction false} SyncYearsIsBatch(s: Store, fields: seq<string>, fetch: int -> Result<Option<seq<Attrs>>>, y: int, e: int)
    requires s.Valid() && AllDeliver(fields, fetch, y, e)
    ensures SyncYears(s, fields, fetch, y, e).error.None?
    ensures SyncYears(s, fields, fetch, y, e).store == UpsertAll(s, fields, AllDocs(fields, fetch, y, e)).store
    decreases e - y + 1
  {
    if y <= e {
      var recs := fetch(y).value.value;
      var w := WriteRecords(s, fields, recs);
      WriteRecordsIsBatch(s, fields, recs);
      assert recs[..|recs|] == recs;
      SyncYearsIsBatch(w.store, fields, fetch, y + 1, e);
      UpsertAllAppend(s, fields, Projections(fields, recs), AllDocs(fields, fetch, y + 1, e));
    }
  }

  /** Running the same successful sync twice leaves the collection as one run left it
      (as long as the collection starts with no duplicate keys). */
  lemma SyncYearsIdempotent(s: Store, fields: seq<string>, fetch: int -> Result<Option<seq<Attrs>>>, y: int, e: int)
    requires s.Valid() && UniqueKeys(s, fields) && AllDeliver(fields, fetch, y, e)
    ensures var t := SyncYears(s, fields, fetch, y, e).store;
            SyncYears(t, fields, fetch, y, e).store == t
  {
    SyncYearsIsBatch(s, fields, fetch, y, e);
    var t := SyncYears(s, fields, fetch, y, e).store;
    SyncYearsIsBatch(t, fields, fetch, y, e);
    UpsertAllIdempotent(s, fields, AllDocs(fields, fetch, y, e));
  }
}

=== FILE: tec.dfy ===
/** Total electron content (TEC) from the Madrigal network: the `tecRec` record, its
    decoder for one whitespace-separated line (year, day of year, hour, minute, then
    numbered data columns with fill values), and the module functions `readTec`,
    `readTecFtp` and `mapTecMongo`. */
module Tec {
  import opened Results
  import opened Text
  import opened Times
  import opened Values
  import opened GmeBase
  import opened Store
  import opened Query
  import opened Sync

  const TecInfo := "These data were downloaded from Madrigal.  *Please be courteous and give credit to data providers when credit is due.*"

  /** A fresh `tecRec`: data set 'TEC', no position, no value, and no `time` attribute
      at all until a line is decoded into it. */
  const NewTecRec: Attrs := map["dataSet" := Str("TEC"), "info" := Str(TecInfo),
                                "glat" := Null, "glon" := Null, "tec" := Null, "dtec" := Null]

  type FloatParser = string -> Option<real>

  // ---------------------------------------------------------------------------
  // The column table

  /** The attribute a data column is stored under, by column number. */
  function ColumnName(i: int): (r: Option<string>)
    ensures r.Some? ==> 9 <= i <= 43
  {
    match i
    case 9 => Some("timeshift")
    case 13 => Some("bMagAvg")
    case 14 => Some("bx")
    case 15 => Some("bye")
    case 16 => Some("bze")
    case 17 => Some("bym")
    case 18 => Some("bzm")
    case 21 => Some("flowSpeed")
    case 22 => Some("vxe")
    case 23 => Some("vye")
    case 24 => Some("vze")
    case 25 => Some("np")
    case 26 => Some("temp")
    case 27 => Some("pDyn")
    case 28 => Some("e")
    case 29 => Some("beta")
    case 30 => Some("machNum")
    case 37 => Some("ae")
    case 38 => Some("al")
    case 39 => Some("au")
    case 40 => Some("symd")
    case 41 => Some("symh")
    case 42 => Some("asyd")
    case 43 => Some("asyh")
    case _ => None
  }

  /** The column an attribute is read from, if any. */
  function ColumnOf(name: string): Option<int> {
    if name == "timeshift" then Some(9)
    else if name == "bMagAvg" then Some(13)
    else if name == "bx" then Some(14)
    else if name == "bye" then Some(15)
    else if name == "bze" then Some(16)
    else if name == "bym" then Some(17)
    else if name == "bzm" then Some(18)
    else if name == "flowSpeed" then Some(21)
    else if name == "vxe" then Some(22)
    else if name == "vye" then Some(23)
    else if name == "vze" then Some(24)
    else if name == "np" then Some(25)
    else if name == "temp" then Some(26)
    else if name == "pDyn" then Some(27)
    else if name == "e" then Some(28)
    else if name == "beta" then Some(29)
    else if name == "machNum" then Some(30)
    else if name == "ae" then Some(37)
    else if name == "al" then Some(38)
    else if name == "au" then Some(39)
    else if name == "symd" then Some(40)
    else if name == "symh" then Some(41)
    else if name == "asyd" then Some(42)
    else if name == "asyh" then Some(43)
    else None
  }

  /** The table is one-to-one: every attribute is fed by exactly one column. */
  lemma ColumnTableBijective(i: int, name: string)
    ensures ColumnName(i) == Some(name) <==> ColumnOf(name) == Some(i)
  {
    if ColumnOf(name) == Some(i) {
      ColumnOfNamed(name);
    }
    if ColumnName(i) == Some(name) {
      ColumnNameFound(i);
    }
  }

  lemma ColumnOfNamed(name: string)
    requires ColumnOf(name).Some?
    ensures ColumnName(ColumnOf(name).value) == Some(name)
  {
  }

  lemma ColumnNameFound(i: int)
    requires ColumnName(i).Some?
    ensures ColumnOf(ColumnName(i).value) == Some(i)
  {
  }

  /** `time` and `res` are not table attributes. */
  lemma NotColumns()
    ensures ColumnOf("time").None? && ColumnOf("res").None?
  {
  }

  lemma ColumnNamesDistinct(i: int, j: int)
    requires ColumnName(i).Some? && ColumnName(j).Some? && i != j
    ensures ColumnName(i) != ColumnName(j)
  {
    ColumnTableBijective(i, ColumnName(i).value);
    ColumnTableBijective(j, ColumnName(j).value);
  }

  // ---------------------------------------------------------------------------
  // Fill values and one data line

  /** A fill value: nothing is left once the dots and nines are removed. */
  predicate IsFill(col: string) {
    RemoveChar(RemoveChar(col, '.'), '9') == ""
  }

  /** A column is a fill value exactly when it is made of dots and nines only. */
  lemma FillMeansDotsAndNines(col: string)
    ensures IsFill(col) <==> forall i :: 0 <= i < |col| ==> col[i] == '.' || col[i] == '9'
  {
    var r1 := RemoveChar(col, '.');
    var r2 := RemoveChar(r1, '9');
    if IsFill(col) {
      forall i | 0 <= i < |col| ensures col[i] == '.' || col[i] == '9' {
        if col[i] != '.' {
          var k :| 0 <= k < |r1| && r1[k] == col[i];
        }
      }
    }
    if r2 != "" {
      var k :| 0 <= k < |r1| && r1[k] == r2[0];
      var m :| 0 <= m < |col| && col[m] == r1[k];
    }
  }

  /** A column whose value is stored: not a fill value, and a float that parses. */
  predicate Usable(col: string, toFloat: FloatParser) {
    !IsFill(col) && toFloat(col).Some?
  }

  /** One step of the column loop: store column `i` under its name when the table names
      it and its value is usable; otherwise leave the record alone. */
  function AssignColumn(obj: Attrs, col: string, i: int, toFloat: FloatParser): Attrs {
    if ColumnName(i).Some? && Usable(col, toFloat) then obj[ColumnName(i).value := Num(toFloat(col).value)]
    else obj
  }

  /** The column loop from column `i` to the end of the line. */
  function AssignFrom(obj: Attrs, cols: seq<string>, i: nat, toFloat: FloatParser): (r: Attrs)
    ensures forall k :: k in obj ==> k in r
    ensures forall k :: k in r && k !in obj ==> ColumnOf(k).Some?
    ensures forall k :: k in obj && ColumnOf(k).None? ==> r[k] == obj[k]
    ensures forall j :: i <= j < |cols| && ColumnName(j).Some? && Usable(cols[j], toFloat) ==>
              ColumnName(j).value in r && r[ColumnName(j).value] == Num(toFloat(cols[j]).value)
    ensures forall j :: ColumnName(j).Some? && !(i <= j < |cols| && Usable(cols[j], toFloat)) ==>
              Get(r, ColumnName(j).value) == Get(obj, ColumnName(j).value)
    decreases |cols| - i
  {
    if i >= |cols| then obj
    else
      var next := AssignColumn(obj, cols[i], i, toFloat);
      var r := AssignFrom(next, cols, i + 1, toFloat);
      assert forall k :: k in next && k !in obj ==> ColumnOf(k).Some? by {
        if ColumnName(i).Some? { ColumnTableBijective(i, ColumnName(i).value); }
      }
      assert forall j :: ColumnName(j).Some? && j != i ==> Get(next, ColumnName(j).value) == Get(obj, ColumnName(j).value) by {
        forall j | ColumnName(j).Some? && j != i ensures Get(next, ColumnName(j).value) == Get(obj, ColumnName(j).value) {
          if ColumnName(i).Some? { ColumnNamesDistinct(i, j); }
        }
      }
      assert forall k :: k in obj && ColumnOf(k).None? ==> next[k] == obj[k] by {
        if ColumnName(i).Some? { ColumnTableBijective(i, ColumnName(i).value); }
      }
      r
  }

  /** Every usable table column is stored under its name. */
  predicate ColumnsStored(r: Attrs, cols: seq<string>, toFloat: FloatParser) {
    forall j :: 9 <= j <= 43 && ColumnName(j).Some? && j < |cols| && Usable(cols[j], toFloat) ==>
      Get(r, ColumnName(j).value) == Num(toFloat(cols[j]).value)
  }

  /** Every table attribute whose column is missing, a fill value or unparsable keeps its value. */
  predicate ColumnsKept(obj: Attrs, r: Attrs, cols: seq<string>, toFloat: FloatParser) {
    forall j :: 9 <= j <= 43 && ColumnName(j).Some? && !(j < |cols| && Usable(cols[j], toFloat)) ==>
      Get(r, ColumnName(j).value) == Get(obj, ColumnName(j).value)
  }

  /** Attributes outside the table, other than `time`, are untouched. */
  predicate OthersKept(obj: Attrs, r: Attrs) {
    forall k :: k in obj && k != "time" && ColumnOf(k).None? ==> k in r && r[k] == obj[k]
  }

  /** Nothing new appears besides `time` and table attributes. */
  predicate NothingElseAdded(obj: Attrs, r: Attrs) {
    forall k :: k in r && k !in obj ==> k == "time" || ColumnOf(k).Some?
  }

  /** What the column loop leaves in `r`, starting from `obj`. */
  predicate StoresColumns(obj: Attrs, r: Attrs, cols: seq<string>, toFloat: FloatParser) {
    ColumnsStored(r, cols, toFloat) && ColumnsKept(obj, r, cols, toFloat) && OthersKept(obj, r) && NothingElseAdded(obj, r)
  }

  /** The time of a data line: January 1st of the year in column 0 at the hour and
      minute of columns 2 and 3, plus the day of year in column 1 less one. */
  function FtpTime(cols: seq<string>): (r: Result<Time>)
    ensures r.Ok? ==> |cols| >= 4 && forall c :: 0 <= c < 4 ==> ParseInt(cols[c]).Ok?
    ensures r.Ok? ==> r.value.Valid()
    ensures r.Err? ==> r.error == IndexError || r.error == ValueError || r.error == OverflowError
    ensures r == Err(IndexError) <==>
              |cols| < 4 && (|cols| >= 1 ==> ParseInt(cols[0]).Ok?) && (|cols| >= 3 ==> ParseInt(cols[2]).Ok?)
    ensures |cols| >= 4 && (exists c :: 0 <= c < 4 && ParseInt(cols[c]).Err?)
            && (forall c :: 0 <= c < 4 && ParseInt(cols[c]).Ok? ==> FitsInt(ParseInt(cols[c]).value)) ==>
              r == Err(ValueError)
    ensures |cols| >= 4 && (forall c :: 0 <= c < 4 ==> ParseInt(cols[c]).Ok?) ==>
              var year, hour, minute := ParseInt(cols[0]).value, ParseInt(cols[2]).value, ParseInt(cols[3]).value;
              && (!FitsInt(year) || !FitsInt(hour) || !FitsInt(minute) ==> r == Err(OverflowError))
              && (FitsInt(year) && FitsInt(hour) && FitsInt(minute) && !(MinYear <= year <= MaxYear && 0 <= hour < 24 && 0 <= minute < 60)
                  ==> r == Err(ValueError))
  {
    if |cols| < 1 then Err(IndexError)
    else
      var year :- ParseInt(cols[0]);
      if |cols| < 3 then Err(IndexError)
      else
        var hour :- ParseInt(cols[2]);
        if |cols| < 4 then Err(IndexError)
        else
          var minute :- ParseInt(cols[3]);
          var jan :- MakeTime(Civil(year, 1, 1, hour, minute, 0, 0));
          var doy :- ParseInt(cols[1]);
          AddDays(jan, doy - 1)
  }

  /** For a day that lies within its year, the time of a line is that year, day of
      year, hour and minute. */
  lemma FtpTimeFields(cols: seq<string>)
    requires FtpTime(cols).Ok?
    requires var year, doy := ParseInt(cols[0]).value, ParseInt(cols[1]).value;
             MinYear <= year <= MaxYear && 1 <= doy <= DaysInYear(year)
    ensures var c := ToCivil(FtpTime(cols).value);
            && c.year == ParseInt(cols[0]).value
            && DayOfYear(c) == ParseInt(cols[1]).value
            && c.hour == ParseInt(cols[2]).value
            && c.minute == ParseInt(cols[3]).value
            && c.second == 0 && c.micro == 0
  {
    var year, doy := ParseInt(cols[0]).value, ParseInt(cols[1]).value;
    var hour, minute := ParseInt(cols[2]).value, ParseInt(cols[3]).value;
    FtpTimeSteps(cols);
    DayOfYearConversion(year, doy, hour, minute);
    var t := AddDays(MakeTime(Civil(year, 1, 1, hour, minute, 0, 0)).value, doy - 1).value;
    assert FtpTime(cols).value == t;
    var c := ToCivil(t);
    assert c.year == year && DayOfYear(c) == doy && c.hour == hour && c.minute == minute;
  }

  /** A line whose first four columns read as a year, a day of that year, an hour and a
      minute decodes to that day and time: the converse of `FtpTimeFields`. */
  lemma FtpTimeDecodes(cols: seq<string>, year: int, doy: int, hour: int, minute: int)
    requires |cols| >= 4
    requires ParseInt(cols[0]) == Ok(year) && ParseInt(cols[1]) == Ok(doy)
    requires ParseInt(cols[2]) == Ok(hour) && ParseInt(cols[3]) == Ok(minute)
    requires MinYear <= year <= MaxYear && 1 <= doy <= DaysInYear(year)
    requires 0 <= hour < 24 && 0 <= minute < 60
    ensures FtpTime(cols).Ok?
    ensures var c := ToCivil(FtpTime(cols).value);
            && c.year == year && DayOfYear(c) == doy && c.hour == hour && c.minute == minute
            && c.second == 0 && c.micro == 0
  {
    DayOfYearConversion(year, doy, hour, minute);
    assert FtpTime(cols) == AddDays(MakeTime(Civil(year, 1, 1, hour, minute, 0, 0)).value, doy - 1);
  }

  /** The time columns written as `str()` of a year, a day of that year, an hour and a
      minute decode to that day and time, whatever columns follow. */
  lemma FtpTimeOfFields(year: int, doy: int, hour: int, minute: int, rest: seq<string>)
    requires MinYear <= year <= MaxYear && 1 <= doy <= DaysInYear(year)
    requires 0 <= hour < 24 && 0 <= minute < 60
    ensures var cols := [IntToString(year), IntToString(doy), IntToString(hour), IntToString(minute)] + rest;
            && FtpTime(cols).Ok?
            && var c := ToCivil(FtpTime(cols).value);
               c.year == year && DayOfYear(c) == doy && c.hour == hour && c.minute == minute
  {
    var cols := [IntToString(year), IntToString(doy), IntToString(hour), IntToString(minute)] + rest;
    ParseIntToString(year);
    ParseIntToString(doy);
    ParseIntToString(hour);
    ParseIntToString(minute);
    FtpTimeDecodes(cols, year, doy, hour, minute);
  }

  /** A line's time is reached from January 1st by adding days. */
  lemma FtpTimeSteps(cols: seq<string>)
    requires FtpTime(cols).Ok?
    ensures var year, doy := ParseInt(cols[0]).value, ParseInt(cols[1]).value;
            var hour, minute := ParseInt(cols[2]).value, ParseInt(cols[3]).value;
            && MakeTime(Civil(year, 1, 1, hour, minute, 0, 0)).Ok?
            && FtpTime(cols) == AddDays(MakeTime(Civil(year, 1, 1, hour, minute, 0, 0)).value, doy - 1)
  {
  }

  /** `tecRec.parseFtp`: the line's time, then every table column from 9 on that is
      neither a fill value nor unparsable, stored under its name. */
  function ParseFtp(obj: Attrs, line: string, toFloat: FloatParser): (r: Result<Attrs>)
    ensures r.Ok? <==> FtpTime(Split(line)).Ok?
    ensures r.Ok? ==> "time" in r.value && r.value["time"] == Date(FtpTime(Split(line)).value)
    ensures r.Ok? ==> StoresColumns(obj, r.value, Split(line), toFloat)
  {
    var cols := Split(line);
    var t :- FtpTime(cols);
    AssignFromStores(obj, t, cols, toFloat);
    Ok(AssignFrom(obj["time" := Date(t)], cols, 9, toFloat))
  }

  lemma AssignFromStores(obj: Attrs, t: Time, cols: seq<string>, toFloat: FloatParser)
    ensures var r := AssignFrom(obj["time" := Date(t)], cols, 9, toFloat);
            "time" in r && r["time"] == Date(t) && StoresColumns(obj, r, cols, toFloat)
  {
    var timed := obj["time" := Date(t)];
    var r := AssignFrom(timed, cols, 9, toFloat);
    assert ColumnsKept(obj, r, cols, toFloat) by {
      forall j | 9 <= j <= 43 && ColumnName(j).Some? && !(j < |cols| && Usable(cols[j], toFloat))
        ensures Get(r, ColumnName(j).value) == Get(obj, ColumnName(j).value)
      {
        NotColumns();
        ColumnTableBijective(j, "time");
        assert Get(r, ColumnName(j).value) == Get(timed, ColumnName(j).value);
      }
    }
    assert "time" in r && r["time"] == Date(t) by {
      NotColumns();
    }
    assert OthersKept(obj, r);
    assert NothingElseAdded(obj, r);
  }

  /** `tecRec(ftpLine, dbDict)`: a fresh record, decoded from the line if one is given,
      then updated from the document if one is given. */
  function TecRec(ftpLine: Option<string>, dbDict: Option<Attrs>, toFloat: FloatParser): (r: Result<Attrs>)
    ensures ftpLine.None? && dbDict.None? ==> r == Ok(NewTecRec)
    ensures ftpLine.Some? && dbDict.None? ==> r == ParseFtp(NewTecRec, ftpLine.value, toFloat)
    ensures ftpLine.None? && dbDict.Some? ==> r == ParseDb(NewTecRec, dbDict.value)
    ensures ftpLine.Some? && dbDict.Some? ==>
              r == (if ParseFtp(NewTecRec, ftpLine.value, toFloat).Ok?
                    then ParseDb(ParseFtp(NewTecRec, ftpLine.value, toFloat).value, dbDict.value)
                    else ParseFtp(NewTecRec, ftpLine.value, toFloat))
  {
    var parsed :- if ftpLine.Some? then ParseFtp(NewTecRec, ftpLine.value, toFloat) else Ok(NewTecRec);
    if dbDict.Some? then ParseDb(parsed, dbDict.value) else Ok(parsed)
  }

  /** A record decoded from a line never has a `res` attribute: neither the fresh record
      nor the column table has one. */
  lemma TecRecHasNoRes(line: string, toFloat: FloatParser)
    requires TecRec(Some(line), None, toFloat).Ok?
    ensures "res" !in TecRec(Some(line), None, toFloat).value
  {
    assert TecRec(Some(line), None, toFloat) == ParseFtp(NewTecRec, line, toFloat);
    ParseFtpAddsNoRes(NewTecRec, line, toFloat);
  }

  lemma ParseFtpAddsNoRes(obj: Attrs, line: string, toFloat: FloatParser)
    requires "res" !in obj && ParseFtp(obj, line, toFloat).Ok?
    ensures "res" !in ParseFtp(obj, line, toFloat).value
  {
    NotColumns();
    NotAdded(obj, ParseFtp(obj, line, toFloat).value, "res");
  }

  /** An attribute that is neither `time` nor in the table is only ever in a decoded
      record if it was there before. */
  lemma NotAdded(obj: Attrs, r: Attrs, k: string)
    requires NothingElseAdded(obj, r) && k !in obj && k != "time" && ColumnOf(k).None?
    ensures k !in r
  {
  }

  // ---------------------------------------------------------------------------
  // readTecFtp

  /** The Madrigal server, as a parameter: what it answers for a time interval, taken to
      be the list of `tecRec` records (or `None`) that `readTecFtp` is documented to
      return; the code itself returns the unconverted text of `isprint`. */
  type Madrigal = (Time, Time) -> Result<Option<seq<Attrs>>>

  /** `readTecFtp`: the end defaults to the start and may not precede it; then whatever
      the server answers for the interval. */
  function ReadTecFtp(sTime: Time, eTime: Option<Time>, madrigal: Madrigal): (r: Result<Option<seq<Attrs>>>)
    ensures eTime.GetOr(sTime).micros < sTime.micros ==> r == Err(AssertionFailed("error, end time greater than start time"))
    ensures eTime.GetOr(sTime).micros >= sTime.micros ==> r == madrigal(sTime, eTime.GetOr(sTime))
  {
    var e := eTime.GetOr(sTime);
    if e.micros < sTime.micros then Err(AssertionFailed("error, end time greater than start time"))
    else madrigal(sTime, e)
  }

  // ---------------------------------------------------------------------------
  // readTec

  /** The four optional range arguments, validated. */
  datatype TecRanges = TecRanges(glat: Option<Range>, glon: Option<Range>, tec: Option<Range>, dtec: Option<Range>)

  /** The argument checks, in the order `readTec` makes them; the first failing one raises. */
  function TecRangesOf(glat: Option<seq<Value>>, glon: Option<seq<Value>>, tec: Option<seq<Value>>, dtec: Option<seq<Value>>): (r: Result<TecRanges>)
    ensures r.Ok? <==> OptionalRange("glat", glat).Ok? && OptionalRange("glon", glon).Ok? && OptionalRange("tec", tec).Ok? && OptionalRange("dtec", dtec).Ok?
    ensures OptionalRange("glat", glat).Err? ==> r == Err(OptionalRange("glat", glat).error)
    ensures OptionalRange("glat", glat).Ok? && OptionalRange("glon", glon).Err? ==> r == Err(OptionalRange("glon", glon).error)
    ensures OptionalRange("glat", glat).Ok? && OptionalRange("glon", glon).Ok? && OptionalRange("tec", tec).Err? ==>
              r == Err(OptionalRange("tec", tec).error)
    ensures OptionalRange("glat", glat).Ok? && OptionalRange("glon", glon).Ok? && OptionalRange("tec", tec).Ok? && OptionalRange("dtec", dtec).Err? ==>
              r == Err(OptionalRange("dtec", dtec).error)
    ensures r.Ok? ==> r.value == TecRanges(OptionalRange("glat", glat).value, OptionalRange("glon", glon).value,
                                           OptionalRange("tec", tec).value, OptionalRange("dtec", dtec).value)
  {
    var a :- OptionalRange("glat", glat);
    var b :- OptionalRange("glon", glon);
    var c :- OptionalRange("tec", tec);
    var d :- OptionalRange("dtec", dtec);
    Ok(TecRanges(a, b, c, d))
  }

  /** The conditions `readTec` sends: start and end, then each given range. */
  function TecConds(sTime: Time, eTime: Time, rs: TecRanges): seq<Cond> {
    [AtLeast("time", Date(sTime)), AtMost("time", Date(eTime))]
    + RangeConds("glat", rs.glat) + RangeConds("glon", rs.glon)
    + RangeConds("tec", rs.tec) + RangeConds("dtec", rs.dtec)
  }

  predicate InRange(d: Attrs, field: string, r: Option<Range>) {
    r.Some? ==> Get(d, field).Num? && r.value.lo <= Get(d, field).x <= r.value.hi
  }

  /** The window a document must fall in: time from start to end, each given range met. */
  predicate InTecWindow(d: Attrs, sTime: Time, eTime: Time, rs: TecRanges) {
    && Get(d, "time").Date? && sTime.micros <= Get(d, "time").t.micros <= eTime.micros
    && InRange(d, "glat", rs.glat) && InRange(d, "glon", rs.glon)
    && InRange(d, "tec", rs.tec) && InRange(d, "dtec", rs.dtec)
  }

  lemma TecCondsMeaning(d: Attrs, sTime: Time, eTime: Time, rs: TecRanges)
    ensures HoldsAll(d, TecConds(sTime, eTime, rs)) <==> InTecWindow(d, sTime, eTime, rs)
  {
    var t: seq<Cond> := [AtLeast("time", Date(sTime)), AtMost("time", Date(eTime))];
    assert HoldsAll(d, t) <==> Holds(d, t[0]) && Holds(d, t[1]);
    var a, b := RangeConds("glat", rs.glat), RangeConds("glon", rs.glon);
    var c, e := RangeConds("tec", rs.tec), RangeConds("dtec", rs.dtec);
    HoldsAllAppend(d, t, a);
    HoldsAllAppend(d, t + a, b);
    HoldsAllAppend(d, t + a + b, c);
    HoldsAllAppend(d, t + a + b + c, e);
  }

  /** The stored documents in the window. */
  function InWindow(s: Store, sTime: Time, eTime: Time, rs: TecRanges): set<nat> {
    set id | id in s.docs && InTecWindow(s.docs[id], sTime, eTime, rs)
  }

  /** The end of the window: the given end, else one day after the start. */
  function TecEnd(sTime: Time, eTime: Option<Time>): (r: Result<Time>)
    ensures eTime.Some? ==> r == Ok(eTime.value)
    ensures eTime.None? ==> (r.Ok? <==> AddDays(sTime, 1).Ok?)
    ensures eTime.None? && r.Ok? ==> r.value.micros == sTime.micros + MicrosPerDay && r.value.Valid()
  {
    if eTime.Some? then Ok(eTime.value) else AddDays(sTime, 1)
  }

  /** What `readTec` answers for a window once its arguments are validated: the stored
      records in it sorted by time, or, when none is stored, the Madrigal server's answer
      for the start and end times (the range conditions are not passed on). */
  function ReadTecWindow(s: Store, sTime: Time, e: Time, rs: TecRanges, madrigal: Madrigal): (r: Result<Option<seq<Attrs>>>)
    requires s.Valid()
    ensures var w := InWindow(s, sTime, e, rs);
            && (w == {} ==> r == ReadTecFtp(sTime, Some(e), madrigal))
            && (w != {} ==> (r.Err? <==> exists id :: id in w && ParseDb(NewTecRec, Yielded(s, id)).Err?))
            && (w != {} && r.Ok? ==> r.value.Some? && Answers(s, w, NewTecRec, r.value.value))
  {
    var conds := TecConds(sTime, e, rs);
    assert Selected(s, conds) == InWindow(s, sTime, e, rs) by {
      forall d { TecCondsMeaning(d, sTime, e, rs); }
    }
    FetchFails(s, conds, NewTecRec);
    var found :- Fetch(s, conds, NewTecRec);
    if found.Some? then Ok(found) else ReadTecFtp(sTime, Some(e), madrigal)
  }

  /** `readTec`: the range arguments are checked, the end defaults to one day after the
      start, then the window is read. */
  function ReadTec(s: Store, sTime: Time, eTime: Option<Time>,
                   glat: Option<seq<Value>>, glon: Option<seq<Value>>, tec: Option<seq<Value>>, dtec: Option<seq<Value>>,
                   madrigal: Madrigal): (r: Result<Option<seq<Attrs>>>)
    requires s.Valid()
    ensures TecRangesOf(glat, glon, tec, dtec).Err? ==> r == Err(TecRangesOf(glat, glon, tec, dtec).error)
    ensures TecRangesOf(glat, glon, tec, dtec).Ok? && TecEnd(sTime, eTime).Err? ==> r == Err(OverflowError)
    ensures TecRangesOf(glat, glon, tec, dtec).Ok? && TecEnd(sTime, eTime).Ok? ==>
              r == ReadTecWindow(s, sTime, TecEnd(sTime, eTime).value, TecRangesOf(glat, glon, tec, dtec).value, madrigal)
  {
    var rs :- TecRangesOf(glat, glon, tec, dtec);
    var e :- TecEnd(sTime, eTime);
    ReadTecWindow(s, sTime, e, rs, madrigal)
  }

  /** The value ranges may be given with their bounds in either order. */
  lemma ReadTecBoundOrder(s: Store, sTime: Time, eTime: Option<Time>, a: real, b: real, c: real, d: real, madrigal: Madrigal)
    requires s.Valid()
    ensures ReadTec(s, sTime, eTime, Some([Num(a), Num(b)]), Some([Num(c), Num(d)]), None, None, madrigal)
         == ReadTec(s, sTime, eTime, Some([Num(b), Num(a)]), Some([Num(d), Num(c)]), None, None, madrigal)
  {
    RangeOrderIrrelevant("glat", a, b);
    RangeOrderIrrelevant("glon", c, d);
    assert TecRangesOf(Some([Num(a), Num(b)]), Some([Num(c), Num(d)]), None, None)
        == TecRangesOf(Some([Num(b), Num(a)]), Some([Num(d), Num(c)]), None, None);
  }

  // ---------------------------------------------------------------------------
  // mapTecMongo

  /** The duplicate query of `mapTecMongo` matches on `time` and `res`. */
  const TecKey := ["time", "res"]

  /** One year of the sync: from January 1st to December 31st at 23:59:59 and 99999
      microseconds of `yr`. */
  function TecYear(yr: int, madrigal: Madrigal): (r: Result<Option<seq<Attrs>>>)
    ensures !FitsInt(yr) ==> r == Err(OverflowError)
    ensures FitsInt(yr) && !(MinYear <= yr <= MaxYear) ==> r == Err(ValueError)
    ensures MinYear <= yr <= MaxYear ==>
              r == madrigal(MakeTime(Civil(yr, 1, 1, 0, 0, 0, 0)).value, MakeTime(Civil(yr, 12, 31, 23, 59, 59, 99999)).value)
  {
    match MakeTime(Civil(yr, 1, 1, 0, 0, 0, 0))
    case Err(e) => Err(e)
    case Ok(first) =>
      match MakeTime(Civil(yr, 12, 31, 23, 59, 59, 99999))
      case Err(e) => Err(e)
      case Ok(last) =>
        MakeTimeMonotone(Civil(yr, 1, 1, 0, 0, 0, 0), Civil(yr, 12, 31, 23, 59, 59, 99999));
        ReadTecFtp(first, Some(last), madrigal)
  }

  function TecFetch(madrigal: Madrigal): int -> Result<Option<seq<Attrs>>> {
    yr => TecYear(yr, madrigal)
  }

  /** `mapTecMongo`: sync the years `sYear` through `eYear` (default: `sYear` alone)
      into the collection, keyed on `time` and `res`. */
  function MapTecMongo(s: Store, sYear: int, eYear: Option<int>, madrigal: Madrigal): (r: Run)
    requires s.Valid()
    ensures r.store.Valid()
    ensures eYear.GetOr(sYear) < sYear ==> r == Run(s, [], Some(AssertionFailed("error, end year greater than start year")))
    ensures eYear.GetOr(sYear) >= sYear ==> r == SyncYears(s, TecKey, TecFetch(madrigal), sYear, eYear.GetOr(sYear))
  {
    var e := eYear.GetOr(sYear);
    if e < sYear then Run(s, [], Some(AssertionFailed("error, end year greater than start year")))
    else SyncYears(s, TecKey, TecFetch(madrigal), sYear, e)
  }

  /** The duplicate query reads `rec.res`, which a `tecRec` does not have: when the first
      record of the first year lacks it, the run raises AttributeError before writing. */
  lemma MapTecMongoNeedsRes(s: Store, sYear: int, eYear: int, madrigal: Madrigal)
    requires s.Valid() && sYear <= eYear
    requires TecYear(sYear, madrigal).Ok? && TecYear(sYear, madrigal).value.Some?
    requires var recs := TecYear(sYear, madrigal).value.value; |recs| > 0 && "res" !in recs[0]
    ensures MapTecMongo(s, sYear, Some(eYear), madrigal) == Run(s, [], Some(AttributeError))
  {
    var recs := TecYear(sYear, madrigal).value.value;
    assert TecKey[1] !in recs[0];
    assert Prepared(TecKey, recs[0]) == Err(AttributeError);
  }

  /** A sync in which every year delivers records carrying `time` and `res` ends without
      error, and repeating it leaves the collection as it was. */
  lemma MapTecMongoIdempotent(s: Store, sYear: int, eYear: int, madrigal: Madrigal)
    requires s.Valid() && UniqueKeys(s, TecKey) && sYear <= eYear
    requires AllDeliver(TecKey, TecFetch(madrigal), sYear, eYear)
    ensures MapTecMongo(s, sYear, Some(eYear), madrigal).error.None?
    ensures var t := MapTecMongo(s, sYear, Some(eYear), madrigal).store;
            MapTecMongo(t, sYear, Some(eYear), madrigal).store == t
  {
    SyncYearsIsBatch(s, TecKey, TecFetch(madrigal), sYear, eYear);
    SyncYearsIdempotent(s, TecKey, TecFetch(madrigal), sYear, eYear);
  }
}

=== FILE: text.dfy ===
/** The string operations the decoders use: `str.split()` with no argument,
    clamped slicing `s[lo:hi]`, `int(s)` on a base-10 literal, `str(n)` of an
    integer, `s.strip()` and `s.replace(c, '')`. */
module Text {
  import opened Results

  /** Python 2 `str.isspace` on one byte: space, tab, newline, vertical tab, form feed, carriage return. */
  predicate IsSpace(c: char) {
    c == ' ' || ('\t' <= c <= '\r')
  }

  predicate IsDigit(c: char) {
    '0' <= c <= '9'
  }

  function DigitValue(c: char): (d: int)
    requires IsDigit(c)
    ensures 0 <= d <= 9
  {
    (c as int) - ('0' as int)
  }

  function DigitChar(d: int): (c: char)
    requires 0 <= d <= 9
    ensures IsDigit(c) && DigitValue(c) == d
  {
    (('0' as int) + d) as char
  }

  /** A whitespace-free, non-empty field, as `split()` produces. */
  predicate IsToken(s: string) {
    |s| > 0 && forall i :: 0 <= i < |s| ==> !IsSpace(s[i])
  }

  /** Length of the longest prefix of `s` without whitespace. */
  function TokenLength(s: string): (n: nat)
    ensures n <= |s|
    ensures forall i :: 0 <= i < n ==> !IsSpace(s[i])
    ensures n < |s| ==> IsSpace(s[n])
  {
    if s == [] || IsSpace(s[0]) then 0 else 1 + TokenLength(s[1..])
  }

  /** `s.split()`: the maximal runs of non-whitespace characters, in order. */
  function Split(s: string): (r: seq<string>)
    ensures forall i :: 0 <= i < |r| ==> IsToken(r[i])
    decreases |s|
  {
    if s == [] then []
    else if IsSpace(s[0]) then Split(s[1..])
    else
      var n := TokenLength(s);
      [s[..n]] + Split(s[n..])
  }

  /** `' '.join(ts)`. */
  function Join(ts: seq<string>): string {
    if ts == [] then []
    else if |ts| == 1 then ts[0]
    else ts[0] + " " + Join(ts[1..])
  }

  lemma {:induction false} TokenLengthOfToken(t: string, rest: string)
    requires IsToken(t)
    requires rest == [] || IsSpace(rest[0])
    ensures TokenLength(t + rest) == |t|
    decreases |t|
  {
    assert (t + rest)[0] == t[0];
    if |t| > 1 {
      assert (t + rest)[1..] == t[1..] + rest;
      TokenLengthOfToken(t[1..], rest);
    } else {
      assert (t + rest)[1..] == rest;
    }
  }

  /** Splitting a space-joined sequence of tokens gives the tokens back. */
  lemma {:induction false} SplitJoin(ts: seq<string>)
    requires forall i :: 0 <= i < |ts| ==> IsToken(ts[i])
    ensures Split(Join(ts)) == ts
  {
    if ts == [] {
    } else if |ts| == 1 {
      var t := ts[0];
      TokenLengthOfToken(t, []);
      assert t + [] == t;
      assert t[..|t|] == t && t[|t|..] == [];
    } else {
      var t, rest := ts[0], Join(ts[1..]);
      var s := t + " " + rest;
      assert s == t + (" " + rest);
      TokenLengthOfToken(t, " " + rest);
      assert s[..|t|] == t;
      assert s[|t|..] == " " + rest;
      assert (" " + rest)[1..] == rest;
      SplitJoin(ts[1..]);
      assert Split(s) == [t] + Split(" " + rest);
    }
  }

  /** Python's clamped slice `s[lo:hi]` for non-negative bounds. */
  function Slice(s: string, lo: nat, hi: nat): (r: string)
    ensures |r| == if hi <= lo || lo >= |s| then 0 else (if hi <= |s| then hi else |s|) - lo
    ensures forall i :: 0 <= i < |r| ==> r[i] == s[lo + i]
  {
    var h := if hi <= |s| then hi else |s|;
    if lo >= h then [] else s[lo..h]
  }

  predicate AllDigits(s: string) {
    forall i :: 0 <= i < |s| ==> IsDigit(s[i])
  }

  /** The value of a string of decimal digits. */
  function DigitsValue(s: string): (n: nat)
    requires AllDigits(s)
  {
    if s == [] then 0 else DigitsValue(s[..|s| - 1]) * 10 + DigitValue(s[|s| - 1])
  }

  /** `int(s)` on a field that holds no whitespace: an optional sign, then one or more
      decimal digits; anything else raises ValueError. */
  function ParseInt(s: string): (r: Result<int>)
    ensures r.Ok? <==> (|s| > 0 && AllDigits(s)) || (|s| > 1 && (s[0] == '+' || s[0] == '-') && AllDigits(s[1..]))
    ensures r.Err? ==> r.error == ValueError
  {
    if |s| > 0 && AllDigits(s) then Ok(DigitsValue(s))
    else if |s| > 1 && s[0] == '+' && AllDigits(s[1..]) then Ok(DigitsValue(s[1..]))
    else if |s| > 1 && s[0] == '-' && AllDigits(s[1..]) then Ok(-(DigitsValue(s[1..]) as int))
    else Err(ValueError)
  }

  /** `str(n)` of a natural number: its decimal digits, without leading zeros. */
  function NatToString(n: nat): (s: string)
    ensures |s| > 0 && AllDigits(s)
    ensures |s| > 1 ==> s[0] != '0'
    decreases n
  {
    if n < 10 then [DigitChar(n)] else NatToString(n / 10) + [DigitChar(n % 10)]
  }

  /** `str(n)` of an integer. */
  function IntToString(n: int): string {
    if n < 0 then "-" + NatToString(-n) else NatToString(n)
  }

  lemma {:induction false} DigitsOfNatToString(n: nat)
    ensures DigitsValue(NatToString(n)) == n
    decreases n
  {
    if n >= 10 {
      var s := NatToString(n);
      assert s[..|s| - 1] == NatToString(n / 10);
      DigitsOfNatToString(n / 10);
    }
  }

  /** `int(str(n)) == n` for every integer. */
  lemma ParseIntToString(n: int)
    ensures ParseInt(IntToString(n)) == Ok(n)
  {
    if n < 0 {
      var s := IntToString(n);
      assert s[1..] == NatToString(-n);
      DigitsOfNatToString(-n);
    } else {
      DigitsOfNatToString(n);
    }
  }

  /** `k` zero digits. */
  function Zeros(k: nat): (z: string)
    ensures |z| == k && AllDigits(z)
  {
    seq(k, _ => '0')
  }

  /** `'%0*d' % (w, n)`: the decimal digits of `n`, left-padded with zeros to width `w`. */
  function ZeroPad(n: nat, w: nat): (s: string)
    ensures |s| == if |NatToString(n)| <= w then w else |NatToString(n)|
    ensures AllDigits(s)
  {
    var digits := NatToString(n);
    if |digits| <= w then Zeros(w - |digits|) + digits else digits
  }

  function Pow10(k: nat): (p: nat)
    ensures p >= 1
  {
    if k == 0 then 1 else 10 * Pow10(k - 1)
  }

  /** A number below `10^w` has at most `w` digits (and always at least one). */
  lemma {:induction false} NatToStringWidth(n: nat, w: nat)
    requires 1 <= w && n < Pow10(w)
    ensures |NatToString(n)| <= w
    decreases n
  {
    if n >= 10 {
      assert w >= 2;
      assert n / 10 < Pow10(w - 1);
      NatToStringWidth(n / 10, w - 1);
    }
  }

  /** Padding a number below `10^w` to width `w` gives exactly `w` digits. */
  lemma PadWidth(n: nat, w: nat)
    requires 1 <= w && n < Pow10(w)
    ensures |ZeroPad(n, w)| == w
  {
    NatToStringWidth(n, w);
  }

  lemma {:induction false} DigitsValueZeros(k: nat)
    ensures DigitsValue(Zeros(k)) == 0
  {
    if k > 0 {
      assert Zeros(k)[..k - 1] == Zeros(k - 1);
      DigitsValueZeros(k - 1);
    }
  }

  lemma {:induction false} DigitsValueLeadingZeros(k: nat, s: string)
    requires AllDigits(s)
    ensures AllDigits(Zeros(k) + s)
    ensures DigitsValue(Zeros(k) + s) == DigitsValue(s)
    decreases |s|
  {
    var z := Zeros(k);
    if s == [] {
      assert z + s == z;
      DigitsValueZeros(k);
    } else {
      var t := z + s;
      assert t[..|t| - 1] == z + s[..|s| - 1];
      assert t[|t| - 1] == s[|s| - 1];
      DigitsValueLeadingZeros(k, s[..|s| - 1]);
    }
  }

  /** `int()` reads a zero-padded number back. */
  lemma ParseIntZeroPad(n: nat, w: nat)
    ensures ParseInt(ZeroPad(n, w)) == Ok(n)
  {
    var digits := NatToString(n);
    DigitsOfNatToString(n);
    if |digits| <= w {
      DigitsValueLeadingZeros(w - |digits|, digits);
    }
  }

  /** `s.lstrip()`: `s` without its leading whitespace. */
  function StripLeft(s: string): (r: string)
    ensures |r| <= |s| && r == s[|s| - |r|..]
    ensures forall i :: 0 <= i < |s| - |r| ==> IsSpace(s[i])
    ensures r == [] || !IsSpace(r[0])
  {
    if s != [] && IsSpace(s[0]) then StripLeft(s[1..]) else s
  }

  /** `s.rstrip()`: `s` without its trailing whitespace. */
  function StripRight(s: string): (r: string)
    ensures |r| <= |s| && r == s[..|r|]
    ensures forall i :: |r| <= i < |s| ==> IsSpace(s[i])
    ensures r == [] || !IsSpace(r[|r| - 1])
  {
    if s != [] && IsSpace(s[|s| - 1]) then StripRight(s[..|s| - 1]) else s
  }

  /** `s.strip()`, which `int(s)` applies to its argument first. */
  function Strip(s: string): (r: string)
    ensures r == [] || (!IsSpace(r[0]) && !IsSpace(r[|r| - 1]))
    ensures r == [] <==> forall i :: 0 <= i < |s| ==> IsSpace(s[i])
    ensures (forall i :: 0 <= i < |s| ==> !IsSpace(s[i])) ==> r == s
  {
    var l := StripLeft(s);
    assert l == [] ==> forall i :: 0 <= i < |s| ==> IsSpace(s[i]);
    StripRight(l)
  }

  /** Python 2's `int(s)` on a string, in base 10: whitespace around the literal and
      between its sign and its digits is skipped; anything else that is not a digit
      raises ValueError. */
  function PyInt(s: string): (r: Result<int>)
    ensures (forall i :: 0 <= i < |s| ==> !IsSpace(s[i])) ==> r == ParseInt(s)
    ensures r.Err? ==> r.error == ValueError
  {
    SignedDigits(Strip(s))
  }

  /** The stripped literal: the whitespace after a sign is dropped, and what remains
      must be a sign and digits, or digits alone. */
  function SignedDigits(t: string): (r: Result<int>)
    ensures (forall i :: 0 <= i < |t| ==> !IsSpace(t[i])) ==> r == ParseInt(t)
    ensures r.Err? ==> r.error == ValueError
  {
    if |t| > 0 && (t[0] == '+' || t[0] == '-') then
      assert t == [t[0]] + t[1..];
      ParseInt([t[0]] + StripLeft(t[1..]))
    else ParseInt(t)
  }

  predicate AllSpace(s: string) {
    forall i :: 0 <= i < |s| ==> IsSpace(s[i])
  }

  /** A literal padded with whitespace on both sides and between sign and digits reads
      as the unpadded literal. */
  lemma PyIntPadded(a: string, sign: string, b: string, digits: string, c: string)
    requires AllSpace(a) && AllSpace(b) && AllSpace(c)
    requires sign == "+" || sign == "-"
    requires |digits| > 0 && AllDigits(digits)
    ensures PyInt(a + sign + b + digits + c) == ParseInt(sign + digits)
  {
    var m := sign + b + digits;
    assert a + sign + b + digits + c == a + m + c;
    assert m[0] == sign[0] && m[|m| - 1] == digits[|digits| - 1];
    StripOfPadded(a, m, c);
    SignedDigitsPadded(sign, b, digits);
  }

  lemma SignedDigitsPadded(sign: string, b: string, digits: string)
    requires AllSpace(b)
    requires sign == "+" || sign == "-"
    requires |digits| > 0 && AllDigits(digits)
    ensures SignedDigits(sign + b + digits) == ParseInt(sign + digits)
  {
    var m := sign + b + digits;
    assert m[0] == sign[0] && [m[0]] == sign;
    assert m[1..] == b + digits;
    StripLeftSpaces(b, digits);
  }

  /** The same for an unsigned literal. */
  lemma PyIntPaddedUnsigned(a: string, digits: string, c: string)
    requires AllSpace(a) && AllSpace(c)
    requires |digits| > 0 && AllDigits(digits)
    ensures PyInt(a + digits + c) == ParseInt(digits)
  {
    StripOfPadded(a, digits, c);
  }

  /** Whitespace around a string that starts and ends with a non-space is what `strip()` removes. */
  lemma StripOfPadded(a: string, m: string, c: string)
    requires AllSpace(a) && AllSpace(c)
    requires |m| > 0 && !IsSpace(m[0]) && !IsSpace(m[|m| - 1])
    ensures Strip(a + m + c) == m
  {
    assert a + m + c == a + (m + c);
    StripLeftSpaces(a, m + c);
    StripRightSpaces(m, c);
  }

  lemma {:induction false} StripLeftSpaces(a: string, t: string)
    requires AllSpace(a) && (t == [] || !IsSpace(t[0]))
    ensures StripLeft(a + t) == t
    decreases |a|
  {
    if a == [] {
      assert a + t == t;
    } else {
      assert (a + t)[1..] == a[1..] + t;
      StripLeftSpaces(a[1..], t);
    }
  }

  lemma {:induction false} StripRightSpaces(t: string, c: string)
    requires AllSpace(c) && (t == [] || !IsSpace(t[|t| - 1]))
    ensures StripRight(t + c) == t
    decreases |c|
  {
    if c == [] {
      assert t + c == t;
    } else {
      assert (t + c)[..|t + c| - 1] == t + c[..|c| - 1];
      StripRightSpaces(t, c[..|c| - 1]);
    }
  }

  /** `s.replace(c, '')`. */
  function RemoveChar(s: string, c: char): (r: string)
    ensures forall i :: 0 <= i < |r| ==> r[i] != c
    ensures forall i :: 0 <= i < |s| && s[i] != c ==> s[i] in r
    ensures forall i :: 0 <= i < |r| ==> r[i] in s
  {
    if s == [] then []
    else if s[0] == c then RemoveChar(s[1..], c)
    else [s[0]] + RemoveChar(s[1..], c)
  }
}

=== FILE: times.dfy ===
/** The part of Python's `datetime` the ingestion code relies on: building a
    `datetime(year, month, day, hour, minute, second, microsecond)` with its
    range checks, adding whole days (`+ timedelta(days=k)`, which overflows
    outside years 1..9999), ordering, and reading the calendar fields back.

    An instant is the number of microseconds since 0001-01-01T00:00:00 in the
    proleptic Gregorian calendar, the same ordinal Python uses internally. */
module Times {
  import opened Results

  const MinYear: int := 1
  const MaxYear: int := 9999
  const MicrosPerSecond: int := 1_000_000
  const MicrosPerMinute: int := 60_000_000
  const MicrosPerHour: int := 3_600_000_000
  const MicrosPerDay: int := 86_400_000_000
  /** Days from 0001-01-01 up to (not including) 10000-01-01. */
  const TotalDays: int := 3_652_059
  /** Python 2's `strftime` raises ValueError for any year before this one. */
  const StrftimeMinYear: int := 1900
  /** The range of a C `int`: the `datetime` constructor reads each of its fields as one
      and raises OverflowError for a field outside it. */
  const IntMin: int := -0x8000_0000
  const IntMax: int := 0x7FFF_FFFF

  datatype Time = Time(micros: int) {
    /** Inside the range `datetime` can represent. */
    predicate Valid() {
      0 <= micros < TotalDays * MicrosPerDay
    }
  }

  /** The calendar fields of a `datetime`. */
  datatype Civil = Civil(year: int, month: int, day: int, hour: int, minute: int, second: int, micro: int)

  predicate IsLeap(y: int) {
    y % 4 == 0 && (y % 100 != 0 || y % 400 == 0)
  }

  function DaysInYear(y: int): int {
    if IsLeap(y) then 366 else 365
  }

  function DaysInMonth(y: int, m: int): (n: int)
    requires 1 <= m <= 12
    ensures 28 <= n <= 31
  {
    if m == 2 then (if IsLeap(y) then 29 else 28)
    else if m == 4 || m == 6 || m == 9 || m == 11 then 30
    else 31
  }

  /** Days in year `y` before the first day of month `m`; month 13 stands for the end of the year. */
  function DaysBeforeMonth(y: int, m: int): int
    requires 1 <= m <= 13
  {
    [0, 31, 59, 90, 120, 151, 181, 212, 243, 273, 304, 334, 365][m - 1]
      + (if m > 2 && IsLeap(y) then 1 else 0)
  }

  /** Days from 0001-01-01 to the first day of year `y`. */
  function DaysBeforeYear(y: int): int
    requires y >= 1
  {
    var p := y - 1;
    p * 365 + p / 4 - p / 100 + p / 400
  }

  lemma DaysBeforeMonthStep(y: int, m: int)
    requires 1 <= m <= 12
    ensures DaysBeforeMonth(y, m + 1) == DaysBeforeMonth(y, m) + DaysInMonth(y, m)
    ensures DaysBeforeMonth(y, 13) == DaysInYear(y)
  {
  }

  lemma MulLe(x: int, y: int, k: int)
    requires x <= y && k >= 0
    ensures x * k <= y * k
  {
    assert y * k - x * k == (y - x) * k;
  }

  /** Euclidean division is determined by its defining equation. */
  lemma DivModUnique(a: int, k: int, q: int, r: int)
    requires k > 0 && 0 <= r < k && a == q * k + r
    ensures a / k == q && a % k == r
  {
    var q', r' := a / k, a % k;
    assert a == q' * k + r' && 0 <= r' < k;
    if q' < q {
      MulLe(q' + 1, q, k);
      assert false;
    } else if q < q' {
      MulLe(q + 1, q', k);
      assert false;
    }
  }

  lemma DivStep(p: int, k: int)
    requires p >= 0 && k > 0
    ensures (p + 1) / k == p / k + (if (p + 1) % k == 0 then 1 else 0)
  {
    var q := p / k;
    var r := p % k;
    if r + 1 == k {
      DivModUnique(p + 1, k, q + 1, 0);
    } else {
      DivModUnique(p + 1, k, q, r + 1);
    }
  }

  lemma DaysBeforeYearStep(y: int)
    requires y >= 1
    ensures DaysBeforeYear(y + 1) == DaysBeforeYear(y) + DaysInYear(y)
  {
    var p := y - 1;
    DivStep(p, 4);
    DivStep(p, 100);
    DivStep(p, 400);
    LeapCount(y);
  }

  /** The length of a year by the three divisibility rules. */
  lemma LeapCount(y: int)
    ensures DaysInYear(y) == 365 + (if y % 4 == 0 then 1 else 0) - (if y % 100 == 0 then 1 else 0)
                                 + (if y % 400 == 0 then 1 else 0)
  {
    if y % 400 == 0 {
      Multiple400(y);
    } else if y % 100 == 0 {
      Multiple100(y);
    }
  }

  lemma Multiple400(y: int)
    requires y % 400 == 0
    ensures y % 100 == 0 && y % 4 == 0
  {
    var q := y / 400;
    assert y == q * 400;
    DivModUnique(y, 100, q * 4, 0);
    DivModUnique(y, 4, q * 100, 0);
  }

  lemma Multiple100(y: int)
    requires y % 100 == 0
    ensures y % 4 == 0
  {
    var q := y / 100;
    assert y == q * 100;
    DivModUnique(y, 4, q * 25, 0);
  }

  lemma {:induction false} DaysBeforeYearMonotone(a: int, b: int)
    requires 1 <= a <= b
    ensures DaysBeforeYear(a) + 365 * (b - a) <= DaysBeforeYear(b)
    decreases b - a
  {
    if a < b {
      DaysBeforeYearMonotone(a, b - 1);
      DaysBeforeYearStep(b - 1);
    }
  }

  /** Whether the fields are accepted by the `datetime` constructor (otherwise it raises ValueError). */
  predicate ValidCivil(c: Civil) {
    && MinYear <= c.year <= MaxYear
    && 1 <= c.month <= 12
    && 1 <= c.day <= DaysInMonth(c.year, c.month)
    && 0 <= c.hour < 24
    && 0 <= c.minute < 60
    && 0 <= c.second < 60
    && 0 <= c.micro < MicrosPerSecond
  }

  /** Days since 0001-01-01 of a valid calendar date. */
  function DayNumber(c: Civil): int
    requires ValidCivil(c)
  {
    DaysBeforeYear(c.year) + DaysBeforeMonth(c.year, c.month) + c.day - 1
  }

  lemma DayNumberBounds(c: Civil)
    requires ValidCivil(c)
    ensures DaysBeforeYear(c.year) <= DayNumber(c) < DaysBeforeYear(c.year + 1)
    ensures 0 <= DayNumber(c) < TotalDays
  {
    DaysBeforeMonthStep(c.year, c.month);
    DaysBeforeYearStep(c.year);
    DaysBeforeYearMonotone(c.year + 1, 10000);
    if c.month < 12 {
      DaysBeforeMonthMonotone(c.year, c.month + 1, 13);
    }
  }

  lemma {:induction false} DaysBeforeMonthMonotone(y: int, a: int, b: int)
    requires 1 <= a <= b <= 13
    ensures DaysBeforeMonth(y, a) + 28 * (b - a) <= DaysBeforeMonth(y, b)
    decreases b - a
  {
    if a < b {
      DaysBeforeMonthMonotone(y, a, b - 1);
      DaysBeforeMonthStep(y, b - 1);
    }
  }

  predicate FitsInt(x: int) {
    IntMin <= x <= IntMax
  }

  /** Whether every field reads as a C `int`. */
  predicate FieldsFitInt(c: Civil) {
    && FitsInt(c.year) && FitsInt(c.month) && FitsInt(c.day)
    && FitsInt(c.hour) && FitsInt(c.minute) && FitsInt(c.second) && FitsInt(c.micro)
  }

  /** `datetime(year, month, day, hour, minute, second, microsecond)`: OverflowError for a
      field beyond a C `int`, otherwise ValueError outside the calendar. */
  function MakeTime(c: Civil): (r: Result<Time>)
    ensures r.Ok? <==> ValidCivil(c)
    ensures !FieldsFitInt(c) ==> r == Err(OverflowError)
    ensures FieldsFitInt(c) && !ValidCivil(c) ==> r == Err(ValueError)
    ensures r.Ok? ==> r.value.Valid()
  {
    if !FieldsFitInt(c) then Err(OverflowError)
    else if ValidCivil(c) then
      DayNumberBounds(c);
      Ok(Time(DayNumber(c) * MicrosPerDay + c.hour * MicrosPerHour + c.minute * MicrosPerMinute
              + c.second * MicrosPerSecond + c.micro))
    else Err(ValueError)
  }

  /** `t + timedelta(days=k)`: OverflowError when the result leaves years 1..9999. */
  function AddDays(t: Time, k: int): (r: Result<Time>)
    ensures r.Ok? <==> (t.micros + k * MicrosPerDay >= 0 && Time(t.micros + k * MicrosPerDay).Valid())
    ensures r.Ok? ==> r.value.micros - t.micros == k * MicrosPerDay
    ensures r.Err? ==> r.error == OverflowError
  {
    var u := t.micros + k * MicrosPerDay;
    if 0 <= u < TotalDays * MicrosPerDay then Ok(Time(u)) else Err(OverflowError)
  }

  /** The year containing day number `d`, searching upward from `y`. */
  function YearFrom(d: int, y: int): (r: int)
    requires 1 <= y <= MaxYear
    requires DaysBeforeYear(y) <= d < TotalDays
    ensures y <= r <= MaxYear
    ensures DaysBeforeYear(r) <= d < DaysBeforeYear(r + 1)
    decreases MaxYear - y
  {
    DaysBeforeYearStep(y);
    if d < DaysBeforeYear(y + 1) then y
    else
      if y == MaxYear then assert false; y
      else YearFrom(d, y + 1)
  }

  /** The month (1..12) containing day `d` of year `y` (0-based), searching upward from `m`. */
  function MonthFrom(y: int, d: int, m: int): (r: int)
    requires 1 <= m <= 12
    requires DaysBeforeMonth(y, m) <= d < DaysInYear(y)
    ensures m <= r <= 12
    ensures DaysBeforeMonth(y, r) <= d < DaysBeforeMonth(y, r + 1)
    decreases 12 - m
  {
    DaysBeforeMonthStep(y, m);
    if d < DaysBeforeMonth(y, m + 1) then m
    else
      if m == 12 then assert false; m
      else MonthFrom(y, d, m + 1)
  }

  /** The calendar fields of an instant (`t.year`, `t.month`, ... in Python). */
  function ToCivil(t: Time): (c: Civil)
    requires t.Valid()
    ensures ValidCivil(c)
  {
    var days := t.micros / MicrosPerDay;
    var rest := t.micros % MicrosPerDay;
    DaysBeforeYearMonotone(1, 1);
    var y := YearFrom(days, 1);
    DaysBeforeYearStep(y);
    DaysBeforeMonthStep(y, 12);
    var m := MonthFrom(y, days - DaysBeforeYear(y), 1);
    DaysBeforeMonthStep(y, m);
    var inHour := rest % MicrosPerHour;
    var inMinute := inHour % MicrosPerMinute;
    Civil(y, m, days - DaysBeforeYear(y) - DaysBeforeMonth(y, m) + 1,
          rest / MicrosPerHour, inHour / MicrosPerMinute,
          inMinute / MicrosPerSecond, inMinute % MicrosPerSecond)
  }

  lemma {:induction false} YearFromUnique(d: int, y: int, z: int)
    requires 1 <= z <= y <= MaxYear
    requires DaysBeforeYear(y) <= d < DaysBeforeYear(y + 1) && d < TotalDays
    ensures DaysBeforeYear(z) <= d
    ensures YearFrom(d, z) == y
    decreases y - z
  {
    DaysBeforeYearMonotone(z, y);
    DaysBeforeYearStep(z);
    if z < y {
      DaysBeforeYearMonotone(z + 1, y);
      YearFromUnique(d, y, z + 1);
    }
  }

  lemma {:induction false} MonthFromUnique(y: int, d: int, m: int, z: int)
    requires 1 <= z <= m <= 12
    requires DaysBeforeMonth(y, m) <= d < DaysBeforeMonth(y, m + 1)
    ensures DaysBeforeMonth(y, z) <= d < DaysInYear(y)
    ensures MonthFrom(y, d, z) == m
    decreases m - z
  {
    DaysBeforeMonthStep(y, 12);
    DaysBeforeMonthMonotone(y, z, m);
    DaysBeforeMonthMonotone(y, m + 1, 13);
    if z < m {
      DaysBeforeMonthStep(y, z);
      DaysBeforeMonthMonotone(y, z + 1, m);
      MonthFromUnique(y, d, m, z + 1);
    }
  }

  lemma TimeOfDaySplit(rest: int, h: int, mi: int, s: int, us: int)
    requires 0 <= h < 24 && 0 <= mi < 60 && 0 <= s < 60 && 0 <= us < MicrosPerSecond
    requires rest == h * MicrosPerHour + mi * MicrosPerMinute + s * MicrosPerSecond + us
    ensures rest / MicrosPerHour == h
    ensures (rest % MicrosPerHour) / MicrosPerMinute == mi
    ensures ((rest % MicrosPerHour) % MicrosPerMinute) / MicrosPerSecond == s
    ensures ((rest % MicrosPerHour) % MicrosPerMinute) % MicrosPerSecond == us
  {
    var inMinute := s * MicrosPerSecond + us;
    var inHour := mi * MicrosPerMinute + inMinute;
    DivModUnique(rest, MicrosPerHour, h, inHour);
    DivModUnique(inHour, MicrosPerMinute, mi, inMinute);
    DivModUnique(inMinute, MicrosPerSecond, s, us);
  }

  /** The time of day recomposes from the hour, minute, second and microsecond fields. */
  lemma TimeOfDayJoin(rest: int)
    requires 0 <= rest < MicrosPerDay
    ensures var inHour := rest % MicrosPerHour;
            var inMinute := inHour % MicrosPerMinute;
            rest == (rest / MicrosPerHour) * MicrosPerHour + (inHour / MicrosPerMinute) * MicrosPerMinute
                    + (inMinute / MicrosPerSecond) * MicrosPerSecond + inMinute % MicrosPerSecond
  {
  }

  /** Reading the calendar fields back from a constructed `datetime` gives the fields it was built from. */
  lemma CivilRoundTrip(c: Civil)
    requires ValidCivil(c)
    ensures MakeTime(c).Ok? && ToCivil(MakeTime(c).value) == c
  {
    CivilDate(c);
    CivilClock(c);
  }

  /** The instant of a calendar value splits into its day number and its time of day. */
  lemma MakeTimeSplit(c: Civil)
    requires ValidCivil(c)
    ensures MakeTime(c).Ok?
    ensures MakeTime(c).value.micros / MicrosPerDay == DayNumber(c)
    ensures MakeTime(c).value.micros % MicrosPerDay
         == c.hour * MicrosPerHour + c.minute * MicrosPerMinute + c.second * MicrosPerSecond + c.micro
  {
    DayNumberBounds(c);
    var rest := c.hour * MicrosPerHour + c.minute * MicrosPerMinute + c.second * MicrosPerSecond + c.micro;
    assert 0 <= rest < MicrosPerDay;
    DivModUnique(MakeTime(c).value.micros, MicrosPerDay, DayNumber(c), rest);
  }

  lemma CivilDate(c: Civil)
    requires ValidCivil(c)
    ensures MakeTime(c).Ok?
    ensures var d := ToCivil(MakeTime(c).value);
            d.year == c.year && d.month == c.month && d.day == c.day
  {
    MakeTimeSplit(c);
    DayNumberBounds(c);
    YearFromUnique(DayNumber(c), c.year, 1);
    DaysBeforeMonthStep(c.year, c.month);
    MonthFromUnique(c.year, DayNumber(c) - DaysBeforeYear(c.year), c.month, 1);
  }

  lemma CivilClock(c: Civil)
    requires ValidCivil(c)
    ensures MakeTime(c).Ok?
    ensures var d := ToCivil(MakeTime(c).value);
            d.hour == c.hour && d.minute == c.minute && d.second == c.second && d.micro == c.micro
  {
    MakeTimeSplit(c);
    var rest := c.hour * MicrosPerHour + c.minute * MicrosPerMinute + c.second * MicrosPerSecond + c.micro;
    TimeOfDaySplit(rest, c.hour, c.minute, c.second, c.micro);
  }

  /** Every representable instant is the `datetime` of its own calendar fields. */
  lemma InstantRoundTrip(t: Time)
    requires t.Valid()
    ensures MakeTime(ToCivil(t)) == Ok(t)
  {
    var c := ToCivil(t);
    ToCivilSplit(t);
    MakeTimeSplit(c);
    SameSplitSame(MakeTime(c).value.micros, t.micros);
  }

  lemma SameSplitSame(x: int, y: int)
    requires x / MicrosPerDay == y / MicrosPerDay && x % MicrosPerDay == y % MicrosPerDay
    ensures x == y
  {
    assert x == (x / MicrosPerDay) * MicrosPerDay + x % MicrosPerDay;
    assert y == (y / MicrosPerDay) * MicrosPerDay + y % MicrosPerDay;
  }

  /** The calendar fields of an instant recompose its day number and time of day. */
  lemma ToCivilSplit(t: Time)
    requires t.Valid()
    ensures DayNumber(ToCivil(t)) == t.micros / MicrosPerDay
    ensures var c := ToCivil(t);
              c.hour * MicrosPerHour + c.minute * MicrosPerMinute + c.second * MicrosPerSecond + c.micro
              == t.micros % MicrosPerDay
  {
    TimeOfDayJoin(t.micros % MicrosPerDay);
  }

  /** Later calendar fields (compared field by field, year first) give a later instant. */
  lemma MakeTimeMonotone(a: Civil, b: Civil)
    requires ValidCivil(a) && ValidCivil(b)
    requires a.year < b.year || (a.year == b.year && a.month < b.month)
    ensures MakeTime(a).value.micros < MakeTime(b).value.micros
  {
    DayNumberOrder(a, b);
    MakeTimeSplit(a);
    MakeTimeSplit(b);
    var x, y := MakeTime(a).value.micros, MakeTime(b).value.micros;
    assert x == DayNumber(a) * MicrosPerDay + x % MicrosPerDay;
    assert y == DayNumber(b) * MicrosPerDay + y % MicrosPerDay;
  }

  lemma DayNumberOrder(a: Civil, b: Civil)
    requires ValidCivil(a) && ValidCivil(b)
    requires a.year < b.year || (a.year == b.year && a.month < b.month)
    ensures DayNumber(a) < DayNumber(b)
  {
    DayNumberBounds(a);
    DayNumberBounds(b);
    if a.year < b.year {
      DaysBeforeYearMonotone(a.year + 1, b.year);
    } else {
      DaysBeforeMonthStep(a.year, a.month);
      DaysBeforeMonthMonotone(a.year, a.month + 1, b.month);
    }
  }

  /** Day of the year (1-based) of a calendar date. */
  function DayOfYear(c: Civil): int
    requires 1 <= c.month <= 12
  {
    DaysBeforeMonth(c.year, c.month) + c.day
  }

  /** The calendar fields of the instant `rest` microseconds into day number `days`. */
  lemma ToCivilOfDay(days: int, rest: int)
    requires 0 <= days < TotalDays && 0 <= rest < MicrosPerDay
    ensures Time(days * MicrosPerDay + rest).Valid()
    ensures var c := ToCivil(Time(days * MicrosPerDay + rest));
            && DaysBeforeYear(c.year) <= days < DaysBeforeYear(c.year + 1)
            && DaysBeforeYear(c.year) + DayOfYear(c) - 1 == days
            && c.hour * MicrosPerHour + c.minute * MicrosPerMinute + c.second * MicrosPerSecond + c.micro == rest
  {
    var t := Time(days * MicrosPerDay + rest);
    DivModUnique(t.micros, MicrosPerDay, days, rest);
    TimeOfDayJoin(rest);
  }

  /** At most one year contains a given day number. */
  lemma YearBracketUnique(a: int, b: int, d: int)
    requires 1 <= a && 1 <= b
    requires DaysBeforeYear(a) <= d < DaysBeforeYear(a + 1)
    requires DaysBeforeYear(b) <= d < DaysBeforeYear(b + 1)
    ensures a == b
  {
    if a < b {
      DaysBeforeYearMonotone(a + 1, b);
    } else if b < a {
      DaysBeforeYearMonotone(b + 1, a);
    }
  }

  /** Day `doy` of year `y` at `h:mi` as January 1st plus `doy - 1` days. */
  lemma JanFirstPlusDays(y: int, doy: int, h: int, mi: int)
    requires MinYear <= y <= MaxYear && 1 <= doy <= DaysInYear(y)
    requires 0 <= h < 24 && 0 <= mi < 60
    ensures 0 <= DaysBeforeYear(y) + doy - 1 < TotalDays
    ensures MakeTime(Civil(y, 1, 1, h, mi, 0, 0)).Ok?
    ensures AddDays(MakeTime(Civil(y, 1, 1, h, mi, 0, 0)).value, doy - 1)
         == Ok(Time((DaysBeforeYear(y) + doy - 1) * MicrosPerDay + h * MicrosPerHour + mi * MicrosPerMinute))
  {
    DaysBeforeYearStep(y);
    DaysBeforeYearMonotone(y + 1, 10000);
    var rest := h * MicrosPerHour + mi * MicrosPerMinute;
    var c := Civil(y, 1, 1, h, mi, 0, 0);
    assert FieldsFitInt(c) && ValidCivil(c) && DayNumber(c) == DaysBeforeYear(y);
    assert MakeTime(c) == Ok(Time(DaysBeforeYear(y) * MicrosPerDay + rest));
  }

  /** January 1st of `y` at `h:mi`, plus `doy - 1` days, is day `doy` of `y` at `h:mi`
      for every day of that year: the day-of-year to calendar-date conversion. */
  lemma DayOfYearConversion(y: int, doy: int, h: int, mi: int)
    requires MinYear <= y <= MaxYear && 1 <= doy <= DaysInYear(y)
    requires 0 <= h < 24 && 0 <= mi < 60
    ensures MakeTime(Civil(y, 1, 1, h, mi, 0, 0)).Ok?
    ensures var t := AddDays(MakeTime(Civil(y, 1, 1, h, mi, 0, 0)).value, doy - 1);
            && t.Ok?
            && var c := ToCivil(t.value);
               c.year == y && DayOfYear(c) == doy && c.hour == h && c.minute == mi && c.second == 0 && c.micro == 0
  {
    JanFirstPlusDays(y, doy, h, mi);
    var days := DaysBeforeYear(y) + doy - 1;
    var rest := h * MicrosPerHour + mi * MicrosPerMinute;
    var t := AddDays(MakeTime(Civil(y, 1, 1, h, mi, 0, 0)).value, doy - 1).value;
    DivModUnique(t.micros, MicrosPerDay, days, rest);
    DayOfYearDate(y, doy, t);
    DayOfYearClock(t, h, mi);
  }

  lemma DayOfYearDate(y: int, doy: int, t: Time)
    requires MinYear <= y <= MaxYear && 1 <= doy <= DaysInYear(y)
    requires t.Valid() && t.micros / MicrosPerDay == DaysBeforeYear(y) + doy - 1
    ensures var c := ToCivil(t);
            c.year == y && DayOfYear(c) == doy
  {
    var days := DaysBeforeYear(y) + doy - 1;
    var c := ToCivil(t);
    ToCivilSplit(t);
    DayNumberBounds(c);
    DaysBeforeYearStep(y);
    YearBracketUnique(c.year, y, days);
  }

  lemma DayOfYearClock(t: Time, h: int, mi: int)
    requires t.Valid() && 0 <= h < 24 && 0 <= mi < 60
    requires t.micros % MicrosPerDay == h * MicrosPerHour + mi * MicrosPerMinute
    ensures var c := ToCivil(t);
            c.hour == h && c.minute == mi && c.second == 0 && c.micro == 0
  {
    var rest := t.micros % MicrosPerDay;
    var c := ToCivil(t);
    ToCivilSplit(t);
    TimeOfDaySplit(rest, h, mi, 0, 0);
    TimeOfDaySplit(rest, c.hour, c.minute, c.second, c.micro);
  }
}

=== FILE: values.dfy ===
/** The values held by record attributes and by store documents.

    A Python record object keeps its data in `__dict__`, and a MongoDB document
    is a dictionary; both are modelled as `Attrs`, a finite map from attribute
    name to `Value`. */
module Values {
  import opened Results
  import opened Times

  datatype Value =
    | Null                    // Python None / BSON null
    | Num(x: real)            // int or float
    | Str(s: string)
    | Date(t: Time)           // datetime.datetime
    | Oid(id: nat)            // the store's document identifier (`_id`)
    | List(items: seq<Value>)

  type Attrs = map<string, Value>

  /** `d.get(f)`: the value under `f`, or None when the key is missing.  MongoDB's
      equality query `{f: None}` matches both a null and a missing field, so
      matching on a field is equality of `Get`. */
  function Get(d: Attrs, f: string): Value {
    if f in d then d[f] else Null
  }

  /** Reads a `datetime` field, or `None` when it is missing or not a date. */
  function DateOf(d: Attrs, f: string): (r: Option<Time>)
    ensures r.Some? <==> f in d && d[f].Date?
    ensures r.Some? ==> d[f] == Date(r.value)
  {
    if f in d && d[f].Date? then Some(d[f].t) else None
  }

  /** Reads a numeric field, or `None` when it is missing or not a number. */
  function NumOf(d: Attrs, f: string): (r: Option<real>)
    ensures r.Some? <==> f in d && d[f].Num?
    ensures r.Some? ==> d[f] == Num(r.value)
  {
    if f in d && d[f].Num? then Some(d[f].x) else None
  }
}

=== FILE: vtrad.dfy ===
/** Signal metadata of the `vtrad` signal objects: the module-wide metadata dictionary
    (`glob`) with its add, delete and clear operations, the defaults a new `vtrad`
    starts from, and the metadata operations of `vtradStruct` (merging the three
    levels, setting entries, narrowing the valid time interval). */
module Vtrad {
  import opened Results
  import opened Times
  import opened Values

  type Meta = map<string, Value>

  // ---------------------------------------------------------------------------
  // The global metadata dictionary

  /** `globalMetaData_add`: the entries given are added, replacing entries of the same key. */
  function GlobalAdd(glob: Meta, md: Meta): (r: Meta)
    ensures r.Keys == glob.Keys + md.Keys
    ensures forall k :: k in md ==> r[k] == md[k]
    ensures forall k :: k in glob && k !in md ==> r[k] == glob[k]
  {
    glob + md
  }

  /** The keys a list names. */
  function KeySet(keys: seq<string>): set<string> {
    set i | 0 <= i < |keys| :: keys[i]
  }

  /** `globalMetaData_del`: each listed key is removed if present, one after the other. */
  function GlobalDel(glob: Meta, keys: seq<string>): (r: Meta)
    decreases |keys|
  {
    if keys == [] then glob
    else GlobalDel(if keys[0] in glob then glob - {keys[0]} else glob, keys[1..])
  }

  /** Deleting removes exactly the listed keys, and leaves every other entry as it was. */
  lemma {:induction false} GlobalDelRemoves(glob: Meta, keys: seq<string>)
    ensures GlobalDel(glob, keys).Keys == glob.Keys - KeySet(keys)
    ensures forall k :: k in GlobalDel(glob, keys) ==> GlobalDel(glob, keys)[k] == glob[k]
    decreases |keys|
  {
    if keys != [] {
      var g := if keys[0] in glob then glob - {keys[0]} else glob;
      GlobalDelRemoves(g, keys[1..]);
      assert KeySet(keys) == {keys[0]} + KeySet(keys[1..]) by {
        forall x | x in KeySet(keys)
          ensures x in {keys[0]} + KeySet(keys[1..])
        {
          var i :| 0 <= i < |keys| && keys[i] == x;
          if i > 0 { assert keys[1..][i - 1] == x; }
        }
      }
    }
  }

  /** `globalMetaData_clear`: the dictionary is emptied. */
  function GlobalClear(glob: Meta): (r: Meta)
    ensures |r| == 0
  {
    map[]
  }

  /** Deleting what was just added restores the dictionary, less those keys. */
  lemma DelUndoesAdd(glob: Meta, md: Meta, keys: seq<string>)
    requires md.Keys == KeySet(keys)
    ensures GlobalDel(GlobalAdd(glob, md), keys) == GlobalDel(glob, keys)
  {
    GlobalDelRemoves(GlobalAdd(glob, md), keys);
    GlobalDelRemoves(glob, keys);
  }

  /** Deleting every key is clearing. */
  lemma DelAllIsClear(glob: Meta, keys: seq<string>)
    requires glob.Keys <= KeySet(keys)
    ensures GlobalDel(glob, keys) == GlobalClear(glob)
  {
    GlobalDelRemoves(glob, keys);
  }

  // ---------------------------------------------------------------------------
  // Signal objects

  /** A processed signal: its own metadata (the parent `vtrad` is passed alongside). */
  datatype VtradStruct = VtradStruct(metadata: Meta, comment: Option<string>)

  /** A `vtrad` signal: its metadata and the raw signal it starts with (also the active one). */
  datatype VtradSig = VtradSig(metadata: Meta, raw: VtradStruct)

  const Defaults: Meta := map[
    "ylabel" := Str("Untitled Y-Axis"),
    "xlabel" := Str("Time [UT]"),
    "title" := Str("Untitled Plot"),
    "fft_xlabel" := Str("Frequency [Hz]"),
    "fft_ylabel" := Str("FFT Spectrum Magnitude")]

  /** A new `vtrad`: the defaults overridden by the keyword metadata given; the raw signal
      gets the comment and no metadata of its own. */
  function NewVtrad(md: Meta, comment: string): (v: VtradSig)
    ensures v.metadata.Keys == Defaults.Keys + md.Keys
    ensures forall k :: k in md ==> v.metadata[k] == md[k]
    ensures forall k :: k in Defaults && k !in md ==> v.metadata[k] == Defaults[k]
    ensures v.raw.metadata == map[] && v.raw.comment == Some(comment)
  {
    VtradSig(Defaults + md, VtradStruct(map[], Some(comment)))
  }

  /** Every label has a value, given or default. */
  lemma NewVtradHasLabels(md: Meta, comment: string)
    ensures forall k :: k in Defaults ==> k in NewVtrad(md, comment).metadata
    ensures "title" !in md ==> NewVtrad(md, comment).metadata["title"] == Str("Untitled Plot")
  {
  }

  /** `getAllMetaData`: the global entries, overridden by the parent's, overridden by the
      signal's own. */
  function GetAllMetaData(glob: Meta, parent: VtradSig, sig: VtradStruct): (r: Meta)
    ensures r.Keys == glob.Keys + parent.metadata.Keys + sig.metadata.Keys
  {
    glob + parent.metadata + sig.metadata
  }

  /** The most specific level that has a key decides its value. */
  lemma MetaDataPrecedence(glob: Meta, parent: VtradSig, sig: VtradStruct, k: string)
    ensures k in sig.metadata ==> GetAllMetaData(glob, parent, sig)[k] == sig.metadata[k]
    ensures k !in sig.metadata && k in parent.metadata ==> GetAllMetaData(glob, parent, sig)[k] == parent.metadata[k]
    ensures k !in sig.metadata && k !in parent.metadata && k in glob ==> GetAllMetaData(glob, parent, sig)[k] == glob[k]
  {
  }

  /** `setMetaData`: the entries given are added to the signal's own, replacing those of the same key. */
  function SetMetaData(sig: VtradStruct, md: Meta): (r: VtradStruct)
    ensures r.comment == sig.comment
    ensures r.metadata.Keys == sig.metadata.Keys + md.Keys
    ensures forall k :: k in md ==> r.metadata[k] == md[k]
    ensures forall k :: k in sig.metadata && k !in md ==> r.metadata[k] == sig.metadata[k]
  {
    sig.(metadata := sig.metadata + md)
  }

  /** What was set is what the merged view shows, whatever the global and parent levels hold. */
  lemma SetThenGet(glob: Meta, parent: VtradSig, sig: VtradStruct, md: Meta)
    ensures forall k :: k in md ==> GetAllMetaData(glob, parent, SetMetaData(sig, md))[k] == md[k]
    ensures forall k :: k !in md && k in GetAllMetaData(glob, parent, sig) ==>
              GetAllMetaData(glob, parent, SetMetaData(sig, md))[k] == GetAllMetaData(glob, parent, sig)[k]
  {
  }

  // ---------------------------------------------------------------------------
  // Valid times

  /** Python 2's `<` on the values the metadata holds: numbers with numbers, datetimes
      with datetimes, `None` below every number; a datetime against anything else
      raises TypeError. */
  function Less(a: Value, b: Value): (r: Result<bool>)
    ensures (a.Num? || a.Date?) && (b.Num? || b.Date?) && a.Num? != b.Num? ==> r == Err(TypeError)
  {
    if a.Num? && b.Num? then Ok(a.x < b.x)
    else if a.Date? && b.Date? then Ok(a.t.micros < b.t.micros)
    else if a.Null? && b.Null? then Ok(false)
    else if a.Null? && b.Num? then Ok(true)
    else if a.Num? && b.Null? then Ok(false)
    else Err(TypeError)
  }

  /** The result of `updateValidTimes`: the metadata after the call, and the exception it
      raised, if any (an assignment made before the exception stays made). */
  datatype Update = Update(meta: Meta, error: Option<Error>)

  const ValidTimesKey := "validTimes"

  /** `v[i]` on a stored value: a list is indexed, anything else is not subscriptable here. */
  function Index(v: Value, i: nat): (r: Result<Value>)
    ensures r.Ok? <==> v.List? && i < |v.items|
    ensures r.Ok? ==> r.value == v.items[i]
  {
    if !v.List? then Err(TypeError)
    else if i >= |v.items| then Err(IndexError)
    else Ok(v.items[i])
  }

  function Nth(times: seq<Value>, i: nat): (r: Result<Value>)
    ensures r.Ok? <==> i < |times|
    ensures r.Ok? ==> r.value == times[i]
  {
    if i < |times| then Ok(times[i]) else Err(IndexError)
  }

  /** The second half of the update: lower the end to `times[1]` if it is later. */
  function LowerEnd(meta: Meta, vt: Value, times: seq<Value>): (r: Update)
    requires vt.List?
  {
    match Index(vt, 1)
    case Err(e) => Update(meta, Some(e))
    case Ok(end) =>
      match Nth(times, 1)
      case Err(e) => Update(meta, Some(e))
      case Ok(t1) =>
        match Less(t1, end)
        case Err(e) => Update(meta, Some(e))
        case Ok(later) =>
          if later then Update(meta[ValidTimesKey := List(vt.items[1 := t1])], None)
          else Update(meta, None)
  }

  /** `updateValidTimes`: without a stored interval, `times` is stored; otherwise the start
      is raised to `times[0]` if that is later, then the end lowered to `times[1]` if that
      is earlier. */
  function UpdateValidTimes(meta: Meta, times: seq<Value>): (r: Update)
    ensures ValidTimesKey !in meta ==> r == Update(meta[ValidTimesKey := List(times)], None)
    ensures forall k :: k in meta && k != ValidTimesKey ==> k in r.meta && r.meta[k] == meta[k]
    ensures r.meta.Keys == meta.Keys + {ValidTimesKey}
  {
    if ValidTimesKey !in meta then Update(meta[ValidTimesKey := List(times)], None)
    else
      var vt := meta[ValidTimesKey];
      match Index(vt, 0)
      case Err(e) => Update(meta, Some(e))
      case Ok(start) =>
        match Nth(times, 0)
        case Err(e) => Update(meta, Some(e))
        case Ok(t0) =>
          match Less(start, t0)
          case Err(e) => Update(meta, Some(e))
          case Ok(earlier) =>
            var vt1 := if earlier then List(vt.items[0 := t0]) else vt;
            LowerEnd(meta[ValidTimesKey := vt1], vt1, times)
  }

  /** Two datetimes. */
  predicate Dates(a: Value, b: Value) {
    a.Date? && b.Date?
  }

  function Later(a: Time, b: Time): Time {
    if a.micros < b.micros then b else a
  }

  function Earlier(a: Time, b: Time): Time {
    if b.micros < a.micros then b else a
  }

  /** With datetimes on both sides, the stored interval becomes the intersection of the
      stored one and the given one: the later start and the earlier end; any further
      entries of the stored list are kept. */
  lemma ValidTimesIntersect(meta: Meta, times: seq<Value>)
    requires ValidTimesKey in meta && meta[ValidTimesKey].List?
    requires |meta[ValidTimesKey].items| >= 2 && |times| >= 2
    requires Dates(meta[ValidTimesKey].items[0], times[0]) && Dates(meta[ValidTimesKey].items[1], times[1])
    ensures var r := UpdateValidTimes(meta, times);
            var prev := meta[ValidTimesKey].items;
            && r.error.None?
            && r.meta[ValidTimesKey].List?
            && |r.meta[ValidTimesKey].items| == |prev|
            && r.meta[ValidTimesKey].items[0] == Date(Later(prev[0].t, times[0].t))
            && r.meta[ValidTimesKey].items[1] == Date(Earlier(prev[1].t, times[1].t))
            && r.meta[ValidTimesKey].items[2..] == prev[2..]
  {
  }

  /** Narrowing again to the same interval changes nothing. */
  lemma ValidTimesIdempotent(meta: Meta, times: seq<Value>)
    requires ValidTimesKey in meta && meta[ValidTimesKey].List?
    requires |meta[ValidTimesKey].items| >= 2 && |times| >= 2
    requires Dates(meta[ValidTimesKey].items[0], times[0]) && Dates(meta[ValidTimesKey].items[1], times[1])
    ensures var once := UpdateValidTimes(meta, times).meta;
            UpdateValidTimes(once, times) == Update(once, None)
  {
    ValidTimesIntersect(meta, times);
    var once := UpdateValidTimes(meta, times).meta;
    ValidTimesIntersect(once, times);
    var prev := once[ValidTimesKey].items;
    assert prev[0 := prev[0]] == prev;
    assert prev[1 := prev[1]] == prev;
  }

  /** The interval never widens: the new start is no earlier and the new end no later
      than either the stored or the given one. */
  lemma ValidTimesNarrow(meta: Meta, times: seq<Value>)
    requires ValidTimesKey in meta && meta[ValidTimesKey].List?
    requires |meta[ValidTimesKey].items| >= 2 && |times| >= 2
    requires Dates(meta[ValidTimesKey].items[0], times[0]) && Dates(meta[ValidTimesKey].items[1], times[1])
    ensures var prev := meta[ValidTimesKey].items;
            var now := UpdateValidTimes(meta, times).meta[ValidTimesKey].items;
            && prev[0].t.micros <= now[0].t.micros && times[0].t.micros <= now[0].t.micros
            && now[1].t.micros <= prev[1].t.micros && now[1].t.micros <= times[1].t.micros
  {
    ValidTimesIntersect(meta, times);
  }

  /** A stored interval of fewer than two entries: the start may already have been
      raised when the end lookup raises IndexError. */
  lemma ShortIntervalRaises(meta: Meta, times: seq<Value>)
    requires ValidTimesKey in meta && meta[ValidTimesKey].List? && |meta[ValidTimesKey].items| == 1
    requires |times| >= 2 && Dates(meta[ValidTimesKey].items[0], times[0])
    ensures var r := UpdateValidTimes(meta, times);
            && r.error == Some(IndexError)
            && r.meta[ValidTimesKey] == List([Date(Later(meta[ValidTimesKey].items[0].t, times[0].t))])
  {
  }
}
